=== FILE: README.md ===
# Zine workshop, modelled in Dafny

Zine workshop is a browser editor for eight-page mini-zines. An author writes
one HTML document holding eight page elements: `front-cover`, `page1` to
`page6` and `back-cover`. A preview frame shows that document one spread at a
time: the front cover alone, three two-page spreads, then the back cover. A
page-flip engine turns paper leaves between spreads. A print stylesheet lays
the eight pages out on one letter sheet for folding. The document can be
saved as is, or exported with a small self-contained viewer.

This project models the logic behind those features with immutable
datatypes and pure functions, one module per source file:

- `Constants` models the page and spread tables.
- `Boilerplate` models the starter document and where its cursor goes.
- `BookPosition` models the book transform.
- `PageFlipAnimation` models the flip scheduler as a state machine driven by
  requests, transition ends, fallback timeouts and immediate jumps.
- `SpreadLayout` and `SpreadNavigation` model spread layout, scaling and
  navigation.
- `ZineStyles` models the decisions the stylesheets make: which pages show,
  the print imposition, and the base-page anchors.
- `HtmlUtils` models the head-tag string surgery, and title and icon
  extraction.
- `FileOperations` models save, export-with-viewer and file loading.
- `Storage` models the saved document and the editor settings in a key-value
  store that may fail.
- `PreviewManager` models the preview `srcdoc`, the frame's load handler, its
  key listener and the messages it posts.
- `ViewerGenerator` models the exported viewer's script.
- `FontRegistry` models the `@font-face` table and the de-duplicated list of
  family names.
- `CodemirrorConfig` models the editor's toggles, hanging indent, custom key
  bindings, `<!>` expansion, tag completion and change listener.
- `Editor` models the host page: its message listener, keyboard listener,
  resize listener, debounced refresh and file picker.

`Strings` and `Wrappers` are shared helpers:

- ASCII case folding, which is what `/i` does for the ASCII patterns used
  here;
- `indexOf`, `join` and JavaScript's `trim` whitespace class;
- `Option`.

The DOM, timers, `postMessage`, storage and file pickers appear only as
values and events:

- a parsed document is the list of its titles and links;
- a store is a partial map with a failure flag;
- a timer firing is an event;
- a posted message is a datatype value.

Geometry uses `real`.

Where the repository's own description and its code disagree, the model
follows the code. These are the points where they differ:

- **Flip de-duplication.** A flip request is dropped only when its target
  equals the last queued request's target. It is never compared with the flip
  in flight. So two requests for the same spread made while idle run twice and
  call back twice (`PageFlipAnimation.SameTargetDuplicates`). At the back
  cover the second run looks for a leaf that does not exist and wedges the
  engine (`PageFlipAnimation.SameTargetAtBackCoverStalls`).
- **Multi-step jumps.** A jump of more than one spread turns a single leaf
  (`PageFlipAnimation.JumpTurnsOneLeaf`).
- **Jumps during a flip.** A jump made without animation while a flip runs
  leaves the queue and the armed cleanup in place. The late cleanup then
  desynchronises the leaves (`PageFlipAnimation.JumpDuringFlipDesyncs`).
- **Fullscreen button title.** Entering fullscreen re-renders the preview.
  The frame's load handler then builds a fresh button titled "Toggle
  fullscreen", so the title "Exit fullscreen" that the toggle sets does not
  survive (`Editor.ReloadResetsButtonTitle`).
- **`<!>` expansion.** Only the two characters `<!` before the cursor are
  replaced. Any selection after the cursor is kept.
- **Printing from the frame.** The frame's key listener is a function of
  the host page, so its `window.print()` prints the host page, not the
  preview. The host's own listener prints the preview
  (`Editor.FramePrintDiffersFromHost`).
- **What reaches the paper.** The print rules dissolve the wrappers with
  `display: contents`, so their children become grid items. The viewer's
  two nav buttons and its indicator, and the icon inside the preview's
  fullscreen button, each take a grid cell (`ZineStyles.ViewerSheet`,
  `ZineStyles.PreviewSheet`).
- **Loading a file refreshes twice.** `loadFile` refreshes the preview
  itself, and its edit also goes through the update listener, which
  schedules another refresh (`Editor.LoadedFileRefreshesTwice`).

## Model

| member | source | states |
|---|---|---|
| Constants.SpreadAt | resources/constants.js:13-19 | the spread table yields a spread exactly for the five indices 0..4 |
| Constants.VisiblePages | resources/zine-styles.js:181-182 | a spread shows at most two pages, exactly its present sides |
| Constants.SpreadTableShape | resources/constants.js:13-19 | five spreads: a lone front cover on the right, a lone back cover on the left, full spreads between, none empty |
| Constants.VisiblePagesTable | resources/constants.js:13-19 | the pages each of the five spreads shows, left before right |
| Constants.SpreadsReadInPageOrder | resources/constants.js:7-19 | reading the spreads left then right gives back exactly the page list |
| Constants.PageIdsListEachPageOnce | resources/constants.js:7 | the page list names every page exactly once, at its reading-order index |
| Constants.SidesPartitionPages | resources/constants.js:9-19 | the right and left page groups split the eight pages, and each spread's sides fall in the matching group |
| Constants.RightSelectorNamesGroup | resources/constants.js:9 | the hand-written right-pages selector names exactly the right-page group |
| Constants.LeftSelectorNamesGroup | resources/constants.js:10 | the hand-written left-pages selector names exactly the left-page group |
| Constants.AllPagesSelectorSpelledOut | resources/constants.js:7-8 | the generated all-pages selector is the eight `#id`s in page order joined by a comma and a space |
| Boilerplate.FrontCoverTagFirstAt72 | resources/constants.js:48-86 | the front-cover tag first occurs at index 72 of the starter document |
| Boilerplate.BoilerplateCursorInsideFrontCover | resources/constants.js:85-87 | the cursor offset is 111: right after the front-cover tag and a blank line, right before its `</div>` |
| Boilerplate.NoFrontCoverTagInHead | resources/constants.js:48-82 | no copy of the front-cover tag starts inside the document head |
| BookPosition.ShiftFor | resources/page-flip-animation.js:80-85 | the front cover is shifted left, the back cover right, every other spread not at all |
| BookPosition.VisibleSpan | resources/zine-styles.js:49-63 | the visible pages of a spread span a non-empty stretch of the two-page book, at least a page wide |
| BookPosition.ShiftCentresVisiblePages | resources/page-flip-animation.js:78-85 | for every spread the shift puts the middle of its visible pages at the middle of the two-page stage, so a lone cover is centred |
| BookPosition.UpdateBookTransform | resources/page-flip-animation.js:93-98 | the new transform starts with the spread's translation and keeps an existing scale term after it, and nothing else |
| BookPosition.FindScaleFrom | resources/page-flip-animation.js:93-98 | the leftmost match of `scale\([^)]+\)`, or a proof that there is none |
| BookPosition.BookTransformKeepsScale | resources/page-flip-animation.js:75-106 | repositioning the book keeps the scale term it had, so the fit-to-viewport scale survives every flip |
| BookPosition.BookTransformLastPositionWins | resources/page-flip-animation.js:75-106 | repositioning twice is repositioning once to the later spread |
| PageFlipAnimation.LeavesJoinAdjacentSpreads | resources/page-flip-animation.js:16-21 | leaf i carries the right page of spread i and the left page of spread i+1 |
| PageFlipAnimation.UpdateLeafStates | resources/page-flip-animation.js:109-134 | every leaf is settled: open exactly when it lies before the spread |
| PageFlipAnimation.SettledStacking | resources/page-flip-animation.js:109-134 | settled leaves stack correctly: open ones under closed ones, the leaf nearest the spine on top of each stack, open ones turned over |
| PageFlipAnimation.InitPageFlip | resources/page-flip-animation.js:24-71 | a fresh engine is idle at the front cover with four closed leaves |
| PageFlipAnimation.Step | resources/page-flip-animation.js:137-256 | every event keeps the engine well formed and the number of leaves fixed |
| PageFlipAnimation.ExecutePageFlip | resources/page-flip-animation.js:149-232 | a flip marks the engine busy on the target spread and moves the book; the leaf it turns, if it exists, is flipping on top with a fresh armed cleanup; otherwise the leaves and any armed cleanup are left as they were |
| PageFlipAnimation.AnimatePageFlip | resources/page-flip-animation.js:235-250 | while busy, a request is appended to the queue unless the last queued one has the same target, in which case nothing changes; when idle it starts at once |
| PageFlipAnimation.ProcessNextFlip | resources/page-flip-animation.js:137-146 | an empty queue makes the engine idle and changes nothing else; otherwise the head is removed and its target becomes the current spread |
| PageFlipAnimation.Cleanup | resources/page-flip-animation.js:176-188 | the callback is recorded once; with nothing queued the leaf settles and the engine goes idle with no cleanup armed; otherwise the next request starts |
| PageFlipAnimation.SetSpread | resources/page-flip-animation.js:252-256 | the spread, the leaves and the book move to the index without animation; the queue, the animating flag, the armed cleanup and the callbacks are kept |
| PageFlipAnimation.RequestWhileAnimatingIsBuffered | resources/page-flip-animation.js:237-245 | a request during a flip changes nothing visible and is buffered exactly when its target differs from the last buffered one |
| PageFlipAnimation.RequestWhenIdleStarts | resources/page-flip-animation.js:149-232 | a request to an idle engine commits its target and turns exactly the one expected leaf; a request for the spread already shown counts as backward and turns leaf `to` |
| PageFlipAnimation.TriggersAgree | resources/page-flip-animation.js:175-193 | the transition-end listener and the fallback timer run the same cleanup |
| PageFlipAnimation.LiveCleanupSettles | resources/page-flip-animation.js:175-189 | the cleanup settles its leaf with the documented z-index, calls back once and continues with the queue |
| PageFlipAnimation.CleanupRunsOnce | resources/page-flip-animation.js:175-189 | a second trigger of the same cleanup, by either route, changes nothing |
| PageFlipAnimation.StalledStaysStalled | resources/page-flip-animation.js:149-232 | an engine animating with no armed cleanup never recovers and completes nothing more |
| PageFlipAnimation.ForwardFromBackCoverStalls | resources/page-flip-animation.js:159-162 | a forward request from the back cover finds no leaf and stalls the engine |
| PageFlipAnimation.CallbacksConserved | resources/page-flip-animation.js:137-249 | callbacks are called at most once, in acceptance order: called plus owed grows by exactly the accepted request's callback |
| PageFlipAnimation.DisciplinedStepKeepsSync | resources/page-flip-animation.js:137-256 | under one-step requests chained from the last target, no event stalls the engine or desynchronises the leaves |
| PageFlipAnimation.DisciplinedRunStaysInSync | resources/page-flip-animation.js:137-256 | over any interleaving of such requests, transition ends and timeouts, an idle engine has its leaves settled for its spread |
| PageFlipAnimation.InitIsInSync | resources/page-flip-animation.js:24-71 | the engine built at start-up is synchronised |
| PageFlipAnimation.JumpDuringFlipDesyncs | resources/page-flip-animation.js:252-256 | an immediate jump during a flip leaves a leaf marked open but not turned over |
| PageFlipAnimation.TimeoutsDrainQueue | resources/page-flip-animation.js:193 | the fallback timers alone finish every queued flip: idle at the last target, leaves settled, every owed callback called in order |
| PageFlipAnimation.JumpThenBackScenario | resources/page-flip-animation.js:235-249 | from spread 2, requests to 4 then 3 end at spread 3 with both callbacks, in order |
| PageFlipAnimation.JumpTurnsOneLeaf | resources/page-flip-animation.js:159-162 | a two-spread jump turns one leaf and leaves the book out of sync with its spread |
| PageFlipAnimation.TwoQuickForwardFlips | resources/page-flip-animation.js:235-249 | two quick forward requests give two callbacks, in order |
| PageFlipAnimation.SameTargetDuplicatesFirstFlip | resources/page-flip-animation.js:237-245 | of three requests for one spread, the third is dropped as a duplicate of the queued second, which then starts backward on the leaf just opened |
| PageFlipAnimation.SameTargetDuplicates | resources/page-flip-animation.js:237-245 | three requests for one spread give two callbacks, since the check skips the flip in flight |
| PageFlipAnimation.SameTargetAtBackCoverStalls | resources/page-flip-animation.js:237-245 | a duplicate request toward the back cover wedges the engine and loses its callback |
| SpreadLayout.PresentSlots | resources/spread-layout.js:12-16 | each slot is a listed page the document holds, and every such page gets a slot |
| SpreadLayout.PresentSlotsKeepOrder | resources/spread-layout.js:12-16 | the slots follow the listed order, and distinct page ids give distinct slots |
| SpreadLayout.SetupSpreadLayout | resources/spread-layout.js:5-23 | a spread container never gets more than three children |
| SpreadLayout.RightOnlyLayout | resources/spread-layout.js:7-9 | a lone right page gets a placeholder on its left |
| SpreadLayout.LeftOnlyLayout | resources/spread-layout.js:19-21 | a lone left page gets a placeholder on its right |
| SpreadLayout.FullSpreadLayout | resources/spread-layout.js:12-16 | a full spread shows its two pages, left then right, with no placeholder |
| SpreadLayout.MissingPagesSkipped | resources/spread-layout.js:5-22 | placeholders depend only on the spread; the pages shown are exactly the visible pages held |
| SpreadLayout.TableSpreadsFillTwoSlots | resources/spread-layout.js:5-22 | every table spread with all pages present fills exactly two slots |
| SpreadLayout.ScaleSpreadToFit | resources/spread-layout.js:25-35 | no scale for a zero-sized container; otherwise the factor fits both axes within the margin and meets one of them |
| SpreadLayout.ScaleIsLargestFit | resources/spread-layout.js:25-35 | every factor that fits both axes is at most the computed scale |
| SpreadNavigation.IndicatorFor | resources/spread-navigation.js:28-36 | the label is the spread's, and prev or next is disabled exactly at the first or last spread |
| SpreadNavigation.InitialNav | resources/spread-navigation.js:83-87 | start-up shows the front cover with a matching indicator, not in fullscreen |
| SpreadNavigation.SetCurrentSpread | resources/spread-navigation.js:13-15 | only the current spread changes, to the given index |
| SpreadNavigation.UpdateSpreadIndicator | resources/spread-navigation.js:28-36 | the indicator is refreshed exactly when the index is a spread index; otherwise it fails |
| SpreadNavigation.NavigateSpread | resources/spread-navigation.js:39-48 | an in-range move commits, refreshes the indicator and the preview once; any other move changes nothing |
| SpreadNavigation.ToggleFullscreen | resources/spread-navigation.js:51-72 | the flag flips, and a present button is titled for the new state |
| SpreadNavigation.ToggleFullscreenTwice | resources/spread-navigation.js:51-72 | toggling twice restores the flag and a correctly titled button |
| SpreadNavigation.NavigationStaysInRange | resources/spread-navigation.js:39-48 | any run of moves stays on a spread index with a matching indicator, refreshing once per committed move |
| SpreadNavigation.NavigateReachesEverySpread | resources/spread-navigation.js:39-48 | every spread index is reachable in one move |
| SpreadNavigation.NavigateUndo | resources/spread-navigation.js:39-48 | a committed move is undone by the opposite move |
| SpreadNavigation.DisabledButtonsMatchRejectedMoves | resources/spread-navigation.js:33-47 | a button is disabled exactly when its move would be rejected |
| SpreadNavigation.ForwardToBackCover | resources/spread-navigation.js:39-48 | four forward moves reach the back cover; a fifth is rejected |
| SpreadNavigation.NavigateAllAppend | resources/spread-navigation.js:39-48 | navigating through two runs is navigating through their concatenation |
| ZineStyles.VisibleSelector | resources/zine-styles.js:180-221 | a visible-pages selector exists exactly for the spread indices |
| ZineStyles.VisibleSelectorTable | resources/zine-styles.js:219-221 | for each spread the screen CSS shows exactly its pages, left then right |
| ZineStyles.OneSelector | resources/zine-styles.js:219-221 | a one-page spread's selector names just that page |
| ZineStyles.TwoSelector | resources/zine-styles.js:219-221 | a two-page spread's selector names both pages, left first |
| ZineStyles.PrintCell | resources/zine-styles.js:31-38 | every page is printed in a cell of the 2 by 4 grid |
| ZineStyles.PrintCellsAreABijection | resources/zine-styles.js:31-38 | the eight pages fill the eight cells one each |
| ZineStyles.TopRowIsRotated | resources/zine-styles.js:34-37 | exactly the top row, pages 3 to 6, is printed upside down |
| ZineStyles.ReadingOrderIsAWalkOnTheSheet | resources/zine-styles.js:31-38 | consecutive pages, and the back and front covers, sit in adjacent cells, as folding a mini-zine needs |
| ZineStyles.PrintedPagesTileTheSheet | resources/zine-styles.js:9-17 | every printed cell lies on the sideways sheet, no two cells overlap, and the eight pages cover the sheet's whole area |
| ZineStyles.AnchorsFollowSpreadSides | resources/zine-styles.js:122-135 | base pages are anchored right exactly in the right-page group, matching each spread's sides |
| ZineStyles.BaseAnchor | resources/zine-styles.js:122-135 | a base page is anchored right exactly when it is in the right-page group, left exactly when in the left-page group |
| ZineStyles.PrintDisplayOf | resources/zine-styles.js:39-43 | on paper, pages and unlisted elements keep a box, only the flip book is hidden, and the listed wrappers dissolve |
| ZineStyles.GridItems | resources/zine-styles.js:39-43 | the grid items under an element are boxed elements only, and nothing inside the flip book becomes one |
| ZineStyles.ContainerSheet | resources/zine-styles.js:39-43 | the spread container and its placeholders take no cell; its pages take one each, in order |
| ZineStyles.ViewerSheet | resources/viewer-generator.js:136-138 | the exported viewer prints every page, but its nav bar's two buttons and indicator each take a grid cell too |
| ZineStyles.PreviewSheet | resources/preview-manager.js:51-69 | the preview prints the real pages and none of the flip book's clones, and the fullscreen button's icon takes a cell |
| HtmlUtils.FindHeadOpenFrom | resources/html-utils.js:3 | the leftmost match of `<head[^>]*>` ignoring case, ending at the first `>`, or a proof there is none |
| HtmlUtils.IndexOfHeadOpenMatch | resources/html-utils.js:5 | searching again for the matched text finds the match itself |
| HtmlUtils.InsertAfterHead | resources/html-utils.js:2-9 | the content is spliced right after the first head tag, or the text is unchanged |
| HtmlUtils.InsertBeforeHeadClose | resources/html-utils.js:12-19 | the content is spliced right before the first `</head>` in any case, or the text is unchanged |
| HtmlUtils.InsertionsSplice | resources/html-utils.js:2-19 | both insertions add the content exactly once or not at all; inserting nothing is the identity |
| HtmlUtils.HeaderTagMatches | resources/html-utils.js:3 | the pattern has no word boundary, so a `<header>` takes the insertion |
| HtmlUtils.FirstLinkWithRel | resources/html-utils.js:34 | the selected link is the first whose `rel` matches ignoring ASCII case; none means no link matches |
| HtmlUtils.FaviconFrom | resources/html-utils.js:33-39 | the icon is the first usable one in selector order, and none exists exactly when no selector is usable |
| HtmlUtils.ExtractTitleAndFavicon | resources/html-utils.js:22-41 | a title exists exactly when the document has one, and it is the first title trimmed |
| HtmlUtils.FaviconPriority | resources/html-utils.js:27-39 | an `icon` link wins, then `shortcut icon`, then `apple-touch-icon`, else no icon |
| HtmlUtils.FirstIconLinkDecides | resources/html-utils.js:34-35 | a first `icon` link without `href` hides a later one that has it |
| HtmlUtils.UpdateMainPageTitleAndFavicon | resources/html-utils.js:43-60 | an empty or missing title or icon falls back to the default; the icon link always exists afterwards |
| HtmlUtils.BlankTitleFallsBack | resources/html-utils.js:26 | a whitespace-only title gives the default page title |
| Strings.Trim | resources/html-utils.js:26 | trimming cuts only whitespace from each end, keeps a slice that neither starts nor ends with it, and is empty exactly for blank text |
| Strings.IndexOfFrom | resources/html-utils.js:5 | `indexOf` returns the first occurrence, or -1 when there is none |
| Strings.CiFindFrom | resources/html-utils.js:13 | the first case-insensitive match of a pattern, or a proof there is none |
| Strings.IndexOfFirstCiMatch | resources/html-utils.js:13-15 | searching again for the matched text finds the match itself |
| Strings.JoinAppend | resources/font-registry.js:41-49 | joining one more item adds the separator and the item |
| Strings.NormalizeLineBreaks | resources/file-operations.js:52-54 | the editor's copy of a text never holds `\r`, is never longer, is empty only for the empty text, and equals the text exactly when the text holds no `\r` |
| Strings.LinesJoinedIsNormalized | resources/codemirror-config.js:88 | the normalised text is the text cut into lines at `\r\n`, `\r` and `\n` and joined again with `\n` |
| Strings.NatTextRoundTrip | resources/font-registry.js:45 | the decimal text of a weight reads back as the weight |
| FileOperations.ExportWithViewer | resources/file-operations.js:21-40 | without both head tags the code is wrapped whole in a fresh document; the name is always the default |
| FileOperations.SaveFile | resources/file-operations.js:17-19 | the download is the editor text under the default file name |
| FileOperations.ViewerExportSplices | resources/file-operations.js:29-33 | with a head that closes after it opens, the stylesheet lands right after the opening tag and the script right before the closing one |
| FileOperations.ViewerExportCloseFirst | resources/file-operations.js:29-33 | when a `</head>` comes first, the script lands there, ahead of the stylesheet |
| FileOperations.BothInsertionsInOrder | resources/file-operations.js:32-33 | the second insertion finds the original `</head>`, moved along by the first |
| FileOperations.CloseTagAfterInsert | resources/file-operations.js:32-33 | after the stylesheet goes in, the first `</head>` is the old one, shifted by its length |
| FileOperations.LoadFile | resources/file-operations.js:42-63 | a chosen file's text, with its line breaks normalised, becomes the document; the text as read is saved; the preview goes to the front cover with one direct refresh; cancelling changes nothing |
| FileOperations.LoadedFilePersists | resources/file-operations.js:51-58 | a loaded file is what the next start-up restores, unless blank |
| Storage.SetItem | resources/storage.js:3-9 | a working store takes the value under the key, touching no other key; a failing store is unchanged |
| Storage.SaveToStorage | resources/storage.js:3-9 | a working store holds the content under the storage key afterwards and no other key changes; a failing store is left alone |
| Storage.SaveTwiceIsSaveOnce | resources/storage.js:3-9 | saving the same content twice is saving it once |
| Storage.LaterSaveWins | resources/file-operations.js:52-56 | of two saves in a row the store keeps the later, so a loaded file is stored as read, not as the editor normalised it |
| Storage.LoadContent | resources/storage.js:11-22 | saved non-blank content wins over the boilerplate; `isBoilerplate` says which came back; the result is never blank |
| Storage.ContentRoundTrip | resources/storage.js:3-22 | saved content is what the next load returns, unless blank |
| Storage.FailingStoreGivesBoilerplate | resources/storage.js:3-22 | a failing store loads the boilerplate and ignores saves |
| Storage.SavedBoilerplateIsBoilerplate | resources/storage.js:21 | saved text equal to the boilerplate is reported as the boilerplate |
| Storage.LoadEditorSettings | resources/storage.js:24-32 | line numbers only for exactly `true`, wrapping unless exactly `false`; a failing store gives the defaults |
| Storage.SaveEditorSetting | resources/storage.js:34-38 | a working store records the flag as the text "true" or "false" under its key and no other key changes; a failing store is left alone |
| Storage.SettingsRoundTrip | resources/storage.js:24-38 | a saved setting reads back, and the other setting is unchanged |
| Storage.SettingsLeaveContent | resources/storage.js:34-38 | saving a setting never changes the loaded content |
| PreviewManager.ReadMessage | resources/editor.js:22-34 | the host recognises exactly the five strings and a `scaleChange` record; anything else is ignored |
| PreviewManager.WireRoundTrip | resources/preview-manager.js:78-95 | every string the frame posts reads back as the message it meant |
| PreviewManager.ScaleReportRoundTrip | resources/editor.js:34 | a scale report reads back with its numbers unchanged |
| PreviewManager.PreviewKey | resources/preview-manager.js:78-95 | arrows post navigation, modified p prints the host window, modified s saves and e exports; every other key is ignored, and a posted message is never the fullscreen toggle |
| PreviewManager.OnlyTheButtonToggles | resources/preview-manager.js:56-58 | no key in the frame asks for fullscreen; only the button does |
| PreviewManager.ProcessedCode | resources/preview-manager.js:30-33 | the spread stylesheet goes right after the head tag, before the author's styles, or the code is kept |
| PreviewManager.ProcessedEmptyIffCodeEmpty | resources/preview-manager.js:33-35 | the processed code is empty exactly when the editor is |
| PreviewManager.Srcdoc | resources/preview-manager.js:35 | an empty editor shows the empty document; otherwise the processed code |
| PreviewManager.NoHeadNoSpreadStyle | resources/preview-manager.js:33-35 | without a head tag the frame shows the code exactly as typed |
| PreviewManager.UpdatePreview | resources/preview-manager.js:9-35 | nothing changes while typing on a phone keyboard; otherwise the title, icon and frame are refreshed |
| PreviewManager.LoadedLayoutIsCurrentSpread | resources/preview-manager.js:60-69 | the container shows exactly the current spread's held pages, with a placeholder only for a one-page spread |
| PreviewManager.OnLoad | resources/preview-manager.js:37-75 | with a body, the frame gets a fresh "Toggle fullscreen" button and the current spread's layout; without one, neither |
| ViewerGenerator.ShowPages | resources/viewer-generator.js:103-109 | each held visible page is shown and appended, in order; nothing else moves |
| ViewerGenerator.ReturnPages | resources/viewer-generator.js:87-93 | every held page is back in the body with the given display; other entries are kept |
| ViewerGenerator.ShowSpread | resources/viewer-generator.js:82-121 | the viewer lays out a spread exactly as the editor preview does, shows only its pages, and sets the indicator |
| ViewerGenerator.ViewerNavigate | resources/viewer-generator.js:123-129 | an in-range move commits and shows the new spread; any other move changes nothing |
| ViewerGenerator.ViewerMatchesEditorNavigation | resources/viewer-generator.js:123-129 | the viewer and the editor land on the same spread with the same indicator |
| ViewerGenerator.ViewerKey | resources/viewer-generator.js:144-151 | arrows navigate by one, modified p prints, modified s or e re-saves |
| ViewerGenerator.LoadViewer | resources/viewer-generator.js:131-196 | a freshly loaded viewer shows the front cover with a matching indicator |
| ViewerGenerator.LoadShowsFrontCover | resources/viewer-generator.js:196 | with every page held, the front cover sits on the right with a placeholder, and prev is disabled |
| ViewerGenerator.ViewerScaleIsSharedScale | resources/viewer-generator.js:69-80 | the viewer scales like the preview, with the nav bar's height as padding |
| ViewerGenerator.ViewerScaleToFit | resources/viewer-generator.js:69-80 | a scale is set exactly when there is a container of non-zero size, and it is the smaller of the two fits |
| ViewerGenerator.Resave | resources/viewer-generator.js:151-191 | the saved snapshot has no chrome and unset displays; the viewer comes back on the same spread |
| ViewerGenerator.ResaveRestoresView | resources/viewer-generator.js:151-191 | re-saving leaves the open viewer exactly as it was |
| ViewerGenerator.ResaveKeepsDisplay | resources/viewer-generator.js:151-191 | after a re-save every page shows or hides as before |
| ViewerGenerator.ResavedFileReopens | resources/viewer-generator.js:167 | the re-saved file opens on the front cover, as the original export did |
| FontRegistry.FormatName | resources/font-registry.js:32-37 | each format hint is given exactly for its extension, and truetype exactly when no listed extension matches |
| FontRegistry.FormatForCss | resources/font-registry.js:32-38 | the source text is exactly the file's quoted URL followed by its quoted format hint, with nothing else |
| FontRegistry.FontFaceBlock | resources/font-registry.js:41-48 | a rule opens with the family and the `formatForCSS` source, holds exactly the weight's decimal `font-weight` line between, and closes with the style and `font-display: swap` |
| FontRegistry.FontFaceCss | resources/font-registry.js:40-50 | the CSS is empty exactly for an empty table, and otherwise opens with the first entry's rule |
| FontRegistry.ExtensionsExclusive | resources/font-registry.js:33-35 | no file name ends in two of the listed extensions, so the order of the tests does not matter |
| FontRegistry.FontFaceCssAppend | resources/font-registry.js:40-50 | the CSS is one rule per entry, in order, separated by line breaks |
| FontRegistry.DedupFromMembers | resources/font-registry.js:54 | de-duplication keeps every unseen item and nothing else |
| FontRegistry.DedupFromNoDuplicates | resources/font-registry.js:54 | de-duplication keeps each item once |
| FontRegistry.DedupFromOrder | resources/font-registry.js:54 | de-duplication keeps items in order of first occurrence |
| FontRegistry.AvailableFontFamilies | resources/font-registry.js:53-55 | the families are exactly those of the entries, each once, in order of first occurrence |
| CodemirrorConfig.TogglesPersist | resources/codemirror-config.js:9-62 | a toggled state is what the next start-up reads back; the saved document is untouched; toggling twice restores |
| CodemirrorConfig.ToggleLineNumbers | resources/codemirror-config.js:9-16 | the line-number setting flips, the wrapping setting is kept, and the new value is saved |
| CodemirrorConfig.ToggleLineWrapping | resources/codemirror-config.js:55-62 | the wrapping setting flips, the line-number setting is kept, and the new value is saved |
| CodemirrorConfig.IndentOf | resources/codemirror-config.js:29-38 | the width is zero exactly when the line does not start with a tab or a space, and at most two cells per character |
| CodemirrorConfig.IndentWidth | resources/codemirror-config.js:29-38 | the loop measures the indentation: two cells per tab, one per space |
| CodemirrorConfig.IndentOfRun | resources/codemirror-config.js:29-38 | only the leading run of tabs and spaces counts, at one to two cells per character |
| CodemirrorConfig.IndentZeroIff | resources/codemirror-config.js:29-39 | the width is zero exactly when the line does not start with a tab or a space |
| CodemirrorConfig.DecorationFor | resources/codemirror-config.js:39-46 | no decoration without indent; otherwise a negative first-line indent matched by the padding plus 6px |
| CodemirrorConfig.HangingIndentAlignsWrappedRows | resources/codemirror-config.js:39-46 | the first row stays put and wrapped rows start under the first character after the indent |
| CodemirrorConfig.LineDecorations | resources/codemirror-config.js:25-48 | decorations are for indented lines only, with their widths, in line order |
| CodemirrorConfig.EveryIndentedLineDecorated | resources/codemirror-config.js:25-48 | every indented line gets exactly its decoration |
| CodemirrorConfig.KeymapCommand | resources/codemirror-config.js:94-104 | a binding fires only with exactly its modifier (Cmd on a Mac, Ctrl elsewhere) or none; F1 and F2 toggle the settings; Mod-s, Mod-e, Mod-o, Mod-z and Mod-y run their commands; Mod-Shift-z redoes; Mod-f is unbound |
| CodemirrorConfig.Window | resources/codemirror-config.js:110 | the text before the cursor is a suffix of the document up to it, of exactly 20 characters (or all of it) when no character needs two code units |
| CodemirrorConfig.WindowIsLast20CodeUnits | resources/codemirror-config.js:110 | the text before the cursor is the longest run of whole characters ending at the cursor that fits in 20 UTF-16 code units |
| CodemirrorConfig.ShortWindowIsWholePrefix | resources/codemirror-config.js:110 | within 20 code units of the document start, the handler sees everything before the cursor |
| CodemirrorConfig.FoundTagIsUnclosed | resources/codemirror-config.js:119-121 | a reported match is an unclosed `style` or `script` tag, and the name read back folds to it |
| CodemirrorConfig.FoundTagIsLeftmost | resources/codemirror-config.js:119 | no match starts before the reported one; no report means no match |
| CodemirrorConfig.FindUnclosedTag | resources/codemirror-config.js:119 | a reported match starts inside the searched text, at or after the search start |
| CodemirrorConfig.InputHandler | resources/codemirror-config.js:108-128 | only `>` is handled: after `<!` the starter document replaces those two characters, after an unclosed tag the closing tag is added, otherwise nothing |
| CodemirrorConfig.ExpansionTrigger | resources/codemirror-config.js:110-111 | the expansion fires exactly when the two characters before the cursor are `<!` |
| CodemirrorConfig.ExpansionPlacesCursorInFrontCover | resources/codemirror-config.js:111-117 | the `<!` becomes the starter document, the rest is kept, and the cursor sits inside the front cover |
| CodemirrorConfig.TagCompletion | resources/codemirror-config.js:119-127 | for any text before the cursor with an unclosed tag and no `<!` ending, `>` inserts itself and the lower-case closing tag, with the cursor between them |
| CodemirrorConfig.LeftmostTagWins | resources/codemirror-config.js:110-127 | a document starting `<style <script` gets `</style>`, not `</script>`, when `>` is typed after it |
| Editor.InitialHost | resources/editor.js:72-82 | start-up loads the saved work, line breaks normalised, and the settings, shows the front cover and refreshes once |
| Editor.HandleMessage | resources/editor.js:22-56 | each posted message has exactly its effect; a scale report places the grid in pane coordinates; navigation stays consistent |
| Editor.HandleAllKeepsState | resources/editor.js:22-56 | over any message sequence the index stays valid, the document is untouched, and each save request adds one download |
| Editor.GridFollowsScaleReports | resources/editor.js:34-55 | only scale reports move the grid; repeating the last report changes nothing |
| Editor.DocumentKey | resources/editor.js:96-118 | Cmd or Ctrl with f toggles search, with e exports only without editor focus, with p prints the frame or the page; nothing else changes |
| Editor.KeyDown | resources/editor.js:96-118 | a keypress runs the editor's bindings when it has focus and then the page listener: search toggles and printing follow the page listener; the document and navigation never change |
| Editor.RunCommand | resources/codemirror-config.js:94-102 | each custom binding has exactly its effect, and none touches the document or navigation |
| Editor.ExportOnce | resources/editor.js:104-108 | Mod-e exports exactly once, focused or not |
| Editor.SaveNeedsEditorFocus | resources/codemirror-config.js:99 | Mod-s saves only from the focused editor; the page listener has no save shortcut |
| Editor.SearchToggles | resources/editor.js:100-103 | Mod-f toggles the search panel once whatever the focus, and twice restores it |
| Editor.PreviewKeysDriveNavigation | resources/preview-manager.js:79-84 | arrow keys in the frame move the host by one spread |
| Editor.FrameKey | resources/preview-manager.js:78-95 | in the frame, Cmd or Ctrl with p prints the host page; the arrows move the host by one spread; the document is unchanged |
| Editor.FramePrintDiffersFromHost | resources/preview-manager.js:84-87 | the print shortcut in the frame prints the host page, while the same shortcut outside the frame prints the frame |
| Editor.FrameSaveMatchesEditor | resources/preview-manager.js:88-90 | the save shortcut in the frame does what it does in the focused editor |
| Editor.FrameExportMatchesEditor | resources/preview-manager.js:91-93 | the export shortcut in the frame does what it does in the focused editor |
| Editor.FrameSaveTakesEitherModifier | resources/preview-manager.js:88-90 | on a Mac, Ctrl-s in the frame saves, while in the editor it does nothing |
| Editor.Resize | resources/editor.js:126-132 | a viewport at most 200px tall leaves fullscreen as a button click would; otherwise nothing changes |
| Editor.ResizeIdempotent | resources/editor.js:127-132 | resizing twice to the same height is resizing once |
| Editor.ButtonTwiceRestores | resources/editor.js:23-25 | two fullscreen clicks restore the mode and spread, with two refreshes |
| Editor.ButtonClick | resources/editor.js:23-25 | a click on the frame's fullscreen button flips fullscreen and refreshes the preview once; the spread and everything else are kept |
| Editor.ReloadResetsButtonTitle | resources/preview-manager.js:51-54 | after entering fullscreen the re-rendered button is titled "Toggle fullscreen", not "Exit fullscreen" |
| Editor.EditsAreDebounced | resources/codemirror-config.js:132-139 | however many edits precede the timer, one refresh follows, and the document and store hold the last edit |
| Editor.Edit | resources/codemirror-config.js:132-138 | an edit saves the new text at once and leaves one refresh pending; navigation is untouched |
| Editor.ReplaceDocument | resources/file-operations.js:52-54 | replacing the document is an edit of the normalised text (save and one pending refresh) unless both old and new texts are empty, when nothing happens; the document never holds `\r` |
| Editor.TimerFires | resources/codemirror-config.js:136 | a pending refresh happens once and clears; with none pending nothing changes |
| Editor.ReopenRestoresWork | resources/storage.js:11-22 | non-blank work comes back on reopening with the same store, exactly when it holds no `\r` and normalised otherwise, with settings unchanged |
| Editor.FileChosen | resources/file-operations.js:42-63 | a chosen file's normalised text becomes the document and the pending refresh's content, its text as read is what the store keeps, the front cover shows with one direct refresh; cancelling changes nothing |
| Editor.LoadedFileRefreshesTwice | resources/codemirror-config.js:132-138 | once its scheduled refresh fires, a loaded non-empty file has refreshed the preview twice and nothing is pending |
| Editor.OpenThenSave | resources/file-operations.js:17-19 | saving right after opening a file saves its normalised text, which is the file's own text exactly when it holds no `\r` |

## Left out

- `mobile-keyboard.js` is not part of this model. Whether the phone keyboard is open is a parameter of `PreviewManager.UpdatePreview`.
- `vendor/build.mjs` is not part of this model. It bundles the editor library.
- The CodeMirror library itself is left out: the stock keymaps, history (undo and redo are no-ops on the host state), the search panel beyond open or closed, compartments and visible ranges. The decoration loop runs over a list of lines. Of its text model only the line-break normalisation is kept (`Strings.NormalizeLineBreaks`): a document is a string that never holds `\r`.
- The cursor placement on a loaded boilerplate (codemirror-config.js:156-160) is not stored in the host. `Boilerplate.BoilerplateCursorInsideFrontCover` states where it lands.
- The autocomplete observer on search inputs (codemirror-config.js:162-174) is left out as DOM wiring.
- Two timers are events: the 600 ms debounce (`Editor.TimerFires`) and the 800 ms flip fallback (`PageFlipAnimation.Event.FallbackTimeout`).
- The 100 ms retry while the editor library loads (codemirror-config.js:66-68) is left out. The model starts with the library present.
- The `requestAnimationFrame` delays are left out. A flip's target rotation is applied when the flip starts.
- The scroll position restore in the frame is left out as DOM state.
- `setupPreviewPane` (preview-manager.js:110-121) is left out. It only moves keyboard focus.
- The overscroll and button styling in the frame is left out as CSS text.
- `postMessage`, `getBoundingClientRect` and `srcdoc` loading are modelled as values. The frame's offset in the pane is a parameter.
- `DOMParser` is left out. A parsed document is given as its titles and links.
- `Blob`, object URLs, anchor clicks and `FileReader` are left out. A download is a content and file-name pair; a chosen file is its text.
- `localStorage` is a partial map with a failure flag.
- The full text of `ZINE_FLIP_CSS`, `ZINE_PAGE_CSS` and the viewer CSS is left out. Only the decisions they encode are modelled.
- The viewer script embeds the spread table and the page-id list as JSON (resources/viewer-generator.js:58-64). The model has the viewer read the same `Constants.Spreads` and `Constants.PageIds`, and does not model JSON serialisation.
- `generateViewerCode`'s CSS and script text are parameters of the export.
- The body's child order in the frame is not modelled.
- Floating-point rounding is left out. Scales and offsets are `real`.
- `initPageFlip`'s DOM construction is left out. Re-running it on a live engine is not modelled, and the engine is modelled from its initial state.
- The font table's entries are not checked one by one against their format hints. `FontRegistry.FormatName` states the rule for any file name.
- FileOperations.ViewerExportSplices: stated for a viewer stylesheet without `<`. A stylesheet containing `</head>` would capture the script insertion, and the generated stylesheet is a parameter here.
- FileOperations.ExportWithViewer: its contract states the wrapped case. The head case is stated by `ViewerExportSplices` and `ViewerExportCloseFirst`.
- FileOperations.ViewerExportCloseFirst: a `</head>` that overlaps the opening tag's match is not covered.
- SpreadLayout.SetupSpreadLayout: its own contract only bounds the length. The layout is stated by the lemmas that follow it.
- CodemirrorConfig.FindUnclosedTag: its own contract only bounds the start. `FoundTagIsUnclosed` and `FoundTagIsLeftmost` state the match.
- CodemirrorConfig.Window: positions count characters, not UTF-16 code units. They agree with the editor's offsets when the text has no character outside the Basic Multilingual Plane. When the 20-unit cut would split a surrogate pair, the model drops the whole character; the lone half the editor keeps can match neither test.
- CodemirrorConfig.KeymapCommand: Alt is not modelled, nor the key-name library's Cmd-Shift substitution on a Mac, nor its lookup by shifted name. The stock search and default keymaps are left out, except that Mod-f is unbound.
- JavaScript's `trim` whitespace set is modelled as listed in `Strings.IsJsWhitespace`. No Unicode database is consulted.
- ASCII case folding stands for `/i`, which agrees on the ASCII patterns used.

=== FILE: boilerplate.dfy ===
/** The starter document the editor inserts for `<!` and shows on first
    use, and the cursor position placed inside its front cover
    (resources/constants.js). */
module Boilerplate {
  import opened Strings

  /** The starter document inserted for `<!`, split around the front-cover
      opening tag. */
  const FrontCoverTag: string := "<div class=\"page\" id=\"front-cover\">"
  const BoilerplateHead: string :=
    "<!DOCTYPE html>\n" + "<html>\n" + "\t<head>\n" + "\t\t<style>\n" + "\n" +
    "\t\t</style>\n" + "\t</head>\n" + "\t<body>\n" + "\t\t"
  const FrontCoverClose: string := "\n\n\t\t</div>\n"
  const BoilerplateTail: string :=
    "\t\t<div class=\"page\" id=\"page1\">\n\n\t\t</div>\n" +
    "\t\t<div class=\"page\" id=\"page2\">\n\n\t\t</div>\n" +
    "\t\t<div class=\"page\" id=\"page3\">\n\n\t\t</div>\n" +
    "\t\t<div class=\"page\" id=\"page4\">\n\n\t\t</div>\n" +
    "\t\t<div class=\"page\" id=\"page5\">\n\n\t\t</div>\n" +
    "\t\t<div class=\"page\" id=\"page6\">\n\n\t\t</div>\n" +
    "\t\t<div class=\"page\" id=\"back-cover\">\n\n\t\t</div>\n" +
    "\t</body>\n</html>\n"
  const ZineBoilerplate: string := BoilerplateHead + FrontCoverTag + FrontCoverClose + BoilerplateTail

  /** `getBoilerplateCursorPos`: 39 characters past the front-cover opening
      tag's first occurrence in the starter document, offset by `startPos`. */
  function BoilerplateCursorPos(startPos: int): int {
    startPos + IndexOf(ZineBoilerplate, FrontCoverTag) + 39
  }

  /** Where the head's line breaks fall; it ends in two tabs. */
  lemma HeadLayout()
    ensures |BoilerplateHead| == 72
    ensures BoilerplateHead[15] == '\n' && BoilerplateHead[22] == '\n' && BoilerplateHead[30] == '\n'
    ensures BoilerplateHead[40] == '\n' && BoilerplateHead[52] == '\n' && BoilerplateHead[61] == '\n'
    ensures BoilerplateHead[69] == '\n' && BoilerplateHead[70] == '\t' && BoilerplateHead[71] == '\t'
  {
  }

  lemma TagHasNoBreak()
    ensures |FrontCoverTag| == 35 && '\n' !in FrontCoverTag && FrontCoverTag[0] == '<'
  {
  }

  /** No copy of the front-cover tag starts inside the document head: every
      35-character window starting there runs into a line break or starts
      with a tab. */
  lemma NoFrontCoverTagInHead(j: int)
    requires 0 <= j < |BoilerplateHead|
    ensures (BoilerplateHead + FrontCoverTag)[j..j + 35] != FrontCoverTag
  {
    var h := BoilerplateHead;
    var b := h + FrontCoverTag;
    HeadLayout();
    TagHasNoBreak();
    var n: int;
    if j <= 15 { n := 15; }
    else if j <= 22 { n := 22; }
    else if j <= 30 { n := 30; }
    else if j <= 40 { n := 40; }
    else if j <= 52 { n := 52; }
    else if j <= 61 { n := 61; }
    else if j <= 69 { n := 69; }
    else { n := j; }
    assert b[n] == h[n];
    assert h[n] == '\n' || (n == j && h[n] == '\t');
    assert b[j..j + 35][n - j] == b[n];
    assert FrontCoverTag[n - j] in FrontCoverTag;
    assert b[n] != FrontCoverTag[n - j];
  }

  /** The first copy of the front-cover tag in the starter document starts
      at index 72, right after the document head. */
  lemma FrontCoverTagFirstAt72()
    ensures IndexOf(ZineBoilerplate, FrontCoverTag) == 72
  {
    var b := ZineBoilerplate;
    var ht := BoilerplateHead + FrontCoverTag;
    assert |BoilerplateHead| == 72 && |FrontCoverTag| == 35;
    assert b == ht + (FrontCoverClose + BoilerplateTail);
    forall j | 0 <= j < 72
      ensures !OccursAt(b, FrontCoverTag, j)
    {
      NoFrontCoverTagInHead(j);
      assert b[j..j + 35] == ht[j..j + 35];
    }
    assert b[72..107] == ht[72..107] == FrontCoverTag;
    IndexOfIsFirst(b, FrontCoverTag, 72);
  }

  /** The cursor position is a fixed offset from `startPos`, and that offset
      puts the cursor inside the front-cover page: after its 35-character
      opening tag and a blank line, right before its closing `</div>`. */
  lemma BoilerplateCursorInsideFrontCover(startPos: int)
    ensures BoilerplateCursorPos(startPos) == startPos + BoilerplateCursorPos(0)
    ensures BoilerplateCursorPos(0) == 111 && 117 <= |ZineBoilerplate|
    ensures |FrontCoverTag| == 35 && ZineBoilerplate[72..107] == FrontCoverTag
    ensures ZineBoilerplate[107..111] == "\n\n\t\t" && ZineBoilerplate[111..117] == "</div>"
  {
    FrontCoverTagFirstAt72();
    var b := ZineBoilerplate;
    var ht := BoilerplateHead + FrontCoverTag;
    assert |BoilerplateHead| == 72 && |FrontCoverTag| == 35;
    assert b == ht + FrontCoverClose + BoilerplateTail;
    assert b[72..107] == ht[72..107] == FrontCoverTag;
    assert b[107..117] == FrontCoverClose[..10] == "\n\n\t\t</div>";
    assert b[107..111] == b[107..117][..4];
    assert b[111..117] == b[107..117][4..];
  }
}

=== FILE: book_position.dfy ===
/** The horizontal position of the flip book: a `translateX` that centres the
    lone cover pages, composed with whatever `scale(...)` term the book's
    transform already carries (`updateBookPosition` in
    resources/page-flip-animation.js). */
module BookPosition {
  import opened Wrappers
  import Constants

  /** The three horizontal offsets the book can take. */
  datatype Shift = ShiftLeft | NoShift | ShiftRight {
    function Inches(): real {
      match this
      case ShiftLeft => -1.375
      case NoShift => 0.0
      case ShiftRight => 1.375
    }

    function Text(): string {
      match this
      case ShiftLeft => "-1.375in"
      case NoShift => "0in"
      case ShiftRight => "1.375in"
    }
  }

  /** The front cover (spread 0) is shifted left and the back cover
      (spread 4) right; every other spread is not shifted. */
  function ShiftFor(spreadIndex: int): (r: Shift)
    ensures r == ShiftLeft <==> spreadIndex == 0
    ensures r == ShiftRight <==> spreadIndex == 4
  {
    if spreadIndex == 0 then ShiftLeft
    else if spreadIndex == 4 then ShiftRight
    else NoShift
  }

  /** Where a spread's pages lie across the book, in inches from its left
      edge: the book is two pages wide, a right page lies on the right
      half (where the leaves hang) and a left page, the back of an opened
      leaf, on the left half. */
  function VisibleSpan(s: Constants.Spread): (r: (real, real))
    ensures r.0 <= r.1
    ensures s.left.Some? || s.right.Some? ==> r.1 - r.0 >= Constants.PageWidthIn
  {
    var lo := if s.left.Some? then 0.0 else Constants.PageWidthIn;
    var hi := if s.right.Some? then 2.0 * Constants.PageWidthIn else Constants.PageWidthIn;
    (lo, hi)
  }

  /** The shift puts the middle of every spread's visible pages on the
      middle of the book: the lone cover pages move by half a page, the
      full spreads stay. */
  lemma ShiftCentresVisiblePages(i: int)
    requires 0 <= i < |Constants.Spreads|
    ensures var (lo, hi) := VisibleSpan(Constants.Spreads[i]);
      (lo + hi) / 2.0 + ShiftFor(i).Inches() == Constants.PageWidthIn
  {
    Constants.SpreadTableShape();
  }

  /** The first `)` in `t` at or after index `i`. */
  function CloseParenFrom(t: string, i: nat): (r: Option<nat>)
    ensures r.Some? ==>
      i <= r.value < |t| && t[r.value] == ')' &&
      forall k :: i <= k < r.value ==> t[k] != ')'
    ensures r.None? ==> forall k :: i <= k < |t| ==> t[k] != ')'
    decreases |t| - i
  {
    if i >= |t| then None
    else if t[i] == ')' then Some(i)
    else CloseParenFrom(t, i + 1)
  }

  /** The regular expression `/scale\([^)]+\)/` matches at index `p`:
      `scale(` followed by at least one character before the next `)`. */
  predicate ScaleMatchAt(t: string, p: int) {
    0 <= p && p + 6 <= |t| && t[p..p + 6] == "scale(" &&
    var q := CloseParenFrom(t, p + 6);
    q.Some? && q.value > p + 6
  }

  /** The leftmost match at or after `i`, as its start and end (exclusive). */
  function FindScaleFrom(t: string, i: nat): (r: Option<(nat, nat)>)
    ensures r.Some? ==>
      i <= r.value.0 && ScaleMatchAt(t, r.value.0) &&
      r.value.1 == CloseParenFrom(t, r.value.0 + 6).value + 1 &&
      forall p :: i <= p < r.value.0 ==> !ScaleMatchAt(t, p)
    ensures r.None? ==> forall p :: i <= p ==> !ScaleMatchAt(t, p)
    decreases |t| - i
  {
    if i + 6 > |t| then None
    else if ScaleMatchAt(t, i) then Some((i, CloseParenFrom(t, i + 6).value + 1))
    else FindScaleFrom(t, i + 1)
  }

  /** The `scale(...)` term of a transform, if any (`match(...)[0]`). */
  function ScaleTerm(t: string): (r: Option<string>)
    ensures r.Some? ==> |r.value| > 7 && r.value[..6] == "scale(" && r.value[|r.value| - 1] == ')'
  {
    match FindScaleFrom(t, 0)
    case None => None
    case Some((p, e)) => Some(t[p..e])
  }

  function Translate(sh: Shift): string {
    "translateX(" + sh.Text() + ")"
  }

  /** `updateBookPosition`'s new transform: the shift for the spread, then
      the old scale term, if there was one, after a space. */
  function UpdateBookTransform(t: string, spreadIndex: int): (r: string)
    ensures |r| >= |Translate(ShiftFor(spreadIndex))| &&
            r[..|Translate(ShiftFor(spreadIndex))|] == Translate(ShiftFor(spreadIndex))
    ensures ScaleTerm(t).None? ==> r == Translate(ShiftFor(spreadIndex))
    ensures ScaleTerm(t).Some? ==> r[|Translate(ShiftFor(spreadIndex))|..] == " " + ScaleTerm(t).value
  {
    match ScaleTerm(t)
    case Some(scale) => Translate(ShiftFor(spreadIndex)) + " " + scale
    case None => Translate(ShiftFor(spreadIndex))
  }

  /** No `s` in `pre` is followed by a `c`, so no `scale(` starts in it. */
  predicate NoScaleStart(pre: string) {
    forall p :: 0 <= p < |pre| ==> pre[p] != 's' || (p + 1 < |pre| && pre[p + 1] != 'c')
  }

  lemma NoScaleStartAcross(a: string, b: string, c: string)
    requires 's' !in a && 's' !in b && 's' !in c && |b| > 0 && b[0] == 'l'
    ensures NoScaleStart(a + "s" + b + c)
  {
    var u := a + "s" + b + c;
    forall p | 0 <= p < |u|
      ensures u[p] != 's' || (p + 1 < |u| && u[p + 1] != 'c')
    {
      if p < |a| {
        assert u[p] == a[p];
      } else if p > |a| && p < |a| + 1 + |b| {
        assert u[p] == b[p - |a| - 1];
      } else if p >= |a| + 1 + |b| {
        assert u[p] == c[p - |a| - 1 - |b|];
      } else {
        assert u[p + 1] == b[0];
      }
    }
  }

  lemma NoScaleStartInTranslate(sh: Shift)
    ensures NoScaleStart(Translate(sh)) && NoScaleStart(Translate(sh) + " ")
  {
    assert 's' !in sh.Text();
    NoScaleStartAcross("tran", "lateX(", sh.Text() + ")");
    assert Translate(sh) == "tran" + "s" + "lateX(" + (sh.Text() + ")");
    NoScaleStartAcross("tran", "lateX(", sh.Text() + ") ");
    assert Translate(sh) + " " == "tran" + "s" + "lateX(" + (sh.Text() + ") ");
  }

  /** No match starts inside a prefix with no `scale(` start. */
  lemma NoMatchInPrefix(pre: string, rest: string, p: int)
    requires NoScaleStart(pre) && 0 <= p < |pre|
    ensures !ScaleMatchAt(pre + rest, p)
  {
    var u := pre + rest;
    assert pre[p] != 's' || (p + 1 < |pre| && pre[p + 1] != 'c');
    if p + 6 <= |u| {
      if pre[p] == 's' {
        assert u[p..p + 6][1] == pre[p + 1] != 'c';
      } else {
        assert u[p..p + 6][0] == pre[p] != 's';
      }
    }
  }

  /** The search from `i` gives what the search from `k` gives when nothing
      matches in between. */
  lemma {:induction false} FindSkipsEmptyPrefix(t: string, i: nat, k: nat)
    requires i <= k
    requires forall p :: i <= p < k ==> !ScaleMatchAt(t, p)
    ensures FindScaleFrom(t, i) == FindScaleFrom(t, k)
    decreases k - i
  {
    if i < k && i + 6 <= |t| {
      FindSkipsEmptyPrefix(t, i + 1, k);
    }
  }

  /** The first `)` from `i` is at `q` when `q` holds one and nothing
      before it does. */
  lemma {:induction false} CloseParenAt(t: string, i: nat, q: nat)
    requires i <= q < |t| && t[q] == ')'
    requires forall k :: i <= k < q ==> t[k] != ')'
    ensures CloseParenFrom(t, i) == Some(q)
    decreases q - i
  {
    if i < q {
      CloseParenAt(t, i + 1, q);
    }
  }

  /** What `/scale\([^)]+\)/` matches, as a whole string. */
  predicate IsScaleTerm(s: string) {
    |s| > 7 && s[..6] == "scale(" && s[|s| - 1] == ')' &&
    forall k :: 6 <= k < |s| - 1 ==> s[k] != ')'
  }

  lemma ScaleTermIsWhole(t: string)
    requires ScaleTerm(t).Some?
    ensures IsScaleTerm(ScaleTerm(t).value)
  {
    var r := FindScaleFrom(t, 0).value;
    var s := t[r.0..r.1];
    assert s[..6] == t[r.0..r.0 + 6];
    forall k | 6 <= k < |s| - 1
      ensures s[k] != ')'
    {
      assert s[k] == t[r.0 + k];
    }
  }

  /** A scale term placed after a prefix with no `scale(` start is found
      again, whole. */
  lemma ScaleTermAfterPrefix(pre: string, scale: string)
    requires NoScaleStart(pre) && IsScaleTerm(scale)
    ensures ScaleTerm(pre + scale) == Some(scale)
  {
    var u := pre + scale;
    var n := |pre|;
    forall p | 0 <= p < n
      ensures !ScaleMatchAt(u, p)
    {
      NoMatchInPrefix(pre, scale, p);
    }
    FindSkipsEmptyPrefix(u, 0, n);
    ScaleMatchAtJoin(pre, scale);
    assert u[n..n + |scale|] == scale;
  }

  lemma ScaleMatchAtJoin(pre: string, scale: string)
    requires IsScaleTerm(scale)
    ensures ScaleMatchAt(pre + scale, |pre|)
    ensures CloseParenFrom(pre + scale, |pre| + 6) == Some(|pre| + |scale| - 1)
  {
    OpenAtJoin(pre, scale);
    CloseAtJoin(pre, scale);
  }

  lemma CloseAtJoin(pre: string, scale: string)
    requires IsScaleTerm(scale)
    ensures CloseParenFrom(pre + scale, |pre| + 6) == Some(|pre| + |scale| - 1)
  {
    NoCloseInsideJoin(pre, scale);
    CloseParenAt(pre + scale, |pre| + 6, |pre| + |scale| - 1);
  }

  lemma OpenAtJoin(pre: string, scale: string)
    requires |scale| >= 6 && scale[..6] == "scale("
    ensures (pre + scale)[|pre|..|pre| + 6] == "scale("
  {
    var u := pre + scale;
    assert u[|pre|..] == scale;
    assert u[|pre|..|pre| + 6] == u[|pre|..][..6];
  }

  lemma NoCloseInsideJoin(pre: string, scale: string)
    requires IsScaleTerm(scale)
    ensures forall k :: |pre| + 6 <= k < |pre| + |scale| - 1 ==> (pre + scale)[k] != ')'
    ensures (pre + scale)[|pre| + |scale| - 1] == ')'
  {
    forall k | |pre| + 6 <= k < |pre| + |scale| - 1
      ensures (pre + scale)[k] != ')'
    {
      assert (pre + scale)[k] == scale[k - |pre|];
    }
  }

  lemma KeepsScaleTerm(t: string, sh: Shift)
    requires ScaleTerm(t).Some?
    ensures ScaleTerm(Translate(sh) + " " + ScaleTerm(t).value) == ScaleTerm(t)
  {
    NoScaleStartInTranslate(sh);
    ScaleTermIsWhole(t);
    ScaleTermAfterPrefix(Translate(sh) + " ", ScaleTerm(t).value);
  }

  lemma KeepsNoScaleTerm(sh: Shift)
    ensures ScaleTerm(Translate(sh)).None?
  {
    var u := Translate(sh);
    NoScaleStartInTranslate(sh);
    forall p | 0 <= p < |u|
      ensures !ScaleMatchAt(u, p)
    {
      NoMatchInPrefix(u, "", p);
      assert u + "" == u;
    }
    FindSkipsEmptyPrefix(u, 0, |u|);
  }

  /** Repositioning keeps the book's scale term: the term found in the new
      transform is the one found in the old, so the fit-to-viewport scale
      survives every flip. */
  lemma BookTransformKeepsScale(t: string, spreadIndex: int)
    ensures ScaleTerm(UpdateBookTransform(t, spreadIndex)) == ScaleTerm(t)
  {
    if ScaleTerm(t).Some? {
      KeepsScaleTerm(t, ShiftFor(spreadIndex));
    } else {
      KeepsNoScaleTerm(ShiftFor(spreadIndex));
    }
  }

  /** The new transform starts with the spread's shift, and repositioning
      twice is repositioning once to the later spread: the last position
      wins and the scale is kept. */
  lemma BookTransformLastPositionWins(t: string, i: int, j: int)
    ensures UpdateBookTransform(UpdateBookTransform(t, i), j) == UpdateBookTransform(t, j)
  {
    BookTransformKeepsScale(t, i);
  }
}

=== FILE: codemirror_config.dfy ===
/** The decisions inside the editor's configuration
    (resources/codemirror-config.js): the two persisted view toggles, the
    hanging indent drawn for wrapped lines, the custom key bindings, and the
    input handler that expands `<!` into the starter document and closes
    `<style>` and `<script>` tags. The editor library itself is not
    modelled; its documents are strings and its lines are given as a
    sequence of strings. */
module CodemirrorConfig {
  import opened Wrappers
  import opened Strings
  import opened Boilerplate
  import opened Storage

  // ---------------------------------------------------------------------
  // The view toggles

  /** `toggleLineNumbers`: flips the flag and saves the new value. */
  function ToggleLineNumbers(s: EditorSettings, st: Store): (r: (EditorSettings, Store))
    ensures r.0.showLineNumbers == !s.showLineNumbers
    ensures r.0.enableLineWrapping == s.enableLineWrapping
    ensures r.1 == SaveEditorSetting(st, LineNumbersKey, r.0.showLineNumbers)
  {
    var on := !s.showLineNumbers;
    (s.(showLineNumbers := on), SaveEditorSetting(st, LineNumbersKey, on))
  }

  /** `toggleLineWrapping`: flips the flag and saves the new value. */
  function ToggleLineWrapping(s: EditorSettings, st: Store): (r: (EditorSettings, Store))
    ensures r.0.enableLineWrapping == !s.enableLineWrapping
    ensures r.0.showLineNumbers == s.showLineNumbers
    ensures r.1 == SaveEditorSetting(st, LineWrappingKey, r.0.enableLineWrapping)
  {
    var on := !s.enableLineWrapping;
    (s.(enableLineWrapping := on), SaveEditorSetting(st, LineWrappingKey, on))
  }

  /** With a working store, the state a toggle leaves is what the next
      start-up reads back, whatever was stored before, and the saved
      document is untouched. Starting from what was loaded, toggling twice
      comes back to it. */
  lemma TogglesPersist(s: EditorSettings, st: Store)
    requires !st.failing
    ensures LoadEditorSettings(ToggleLineNumbers(s, st).1).showLineNumbers == !s.showLineNumbers
    ensures LoadEditorSettings(ToggleLineWrapping(s, st).1).enableLineWrapping == !s.enableLineWrapping
    ensures LoadContent(ToggleLineNumbers(s, st).1) == LoadContent(st)
    ensures LoadContent(ToggleLineWrapping(s, st).1) == LoadContent(st)
    ensures s == LoadEditorSettings(st) ==>
      var (s1, st1) := ToggleLineNumbers(s, st);
      var (s2, st2) := ToggleLineNumbers(s1, st1);
      s2 == s && LoadEditorSettings(st2) == s
  {
    SettingsRoundTrip(st, !s.showLineNumbers);
    SettingsRoundTrip(st, !s.enableLineWrapping);
    SettingsLeaveContent(st, LineNumbersKey, !s.showLineNumbers);
    SettingsLeaveContent(st, LineWrappingKey, !s.enableLineWrapping);
    var st1 := ToggleLineNumbers(s, st).1;
    SettingsRoundTrip(st1, s.showLineNumbers);
  }

  // ---------------------------------------------------------------------
  // The hanging indent of wrapped lines

  predicate IsIndentChar(c: char) {
    c == '\t' || c == ' '
  }

  /** The width of a line's leading indentation in character cells: two per
      tab, one per space, up to the first other character. */
  function IndentOf(line: string): (r: nat)
    ensures r == 0 <==> |line| == 0 || !IsIndentChar(line[0])
    ensures r <= 2 * |line|
    decreases |line|
  {
    if |line| == 0 then 0
    else if line[0] == '\t' then 2 + IndentOf(line[1..])
    else if line[0] == ' ' then 1 + IndentOf(line[1..])
    else 0
  }

  /** The loop that measures a line's indentation, stopping at the first
      character that is neither a tab nor a space. */
  method IndentWidth(line: string) returns (n: nat)
    ensures n == IndentOf(line)
  {
    n := 0;
    var i := 0;
    while i < |line| && IsIndentChar(line[i])
      invariant 0 <= i <= |line|
      invariant n + IndentOf(line[i..]) == IndentOf(line)
      decreases |line| - i
    {
      assert line[i..][1..] == line[i + 1..];
      if line[i] == '\t' {
        n := n + 2;
      } else {
        n := n + 1;
      }
      i := i + 1;
    }
    assert i < |line| ==> line[i..][0] == line[i];
  }

  /** The indentation is a run of tabs and spaces: text after the run does
      not change the width, the width is zero exactly when the line does not
      start with a tab or a space, and it never exceeds two cells per
      character. */
  lemma {:induction false} IndentOfRun(w: string, rest: string)
    requires forall i :: 0 <= i < |w| ==> IsIndentChar(w[i])
    requires |rest| == 0 || !IsIndentChar(rest[0])
    ensures IndentOf(w + rest) == IndentOf(w)
    ensures IndentOf(rest) == 0
    ensures |w| <= IndentOf(w) <= 2 * |w|
    decreases |w|
  {
    if |w| > 0 {
      assert (w + rest)[1..] == w[1..] + rest;
      IndentOfRun(w[1..], rest);
    } else {
      assert w + rest == rest;
    }
  }

  lemma IndentZeroIff(line: string)
    ensures IndentOf(line) == 0 <==> |line| == 0 || !IsIndentChar(line[0])
  {
  }

  /** The line decoration for an indentation width: none for zero, else a
      negative first-line indent and a matching left padding plus 6px. */
  datatype LineDecoration = NoDecoration | Hanging(textIndentCh: int, paddingCh: nat, paddingPx: nat)

  function DecorationFor(indent: nat): (r: LineDecoration)
    ensures r.NoDecoration? <==> indent == 0
    ensures r.Hanging? ==> r.paddingCh == indent && r.paddingPx == 6
    ensures r.Hanging? ==> r.textIndentCh + r.paddingCh == 0
  {
    if indent == 0 then NoDecoration else Hanging(-(indent as int), indent, 6)
  }

  /** Where a line's text starts, in (cells, px): the first row and the
      wrapped continuation rows. */
  function FirstRowStart(d: LineDecoration): (int, int) {
    match d
    case NoDecoration => (0, 0)
    case Hanging(t, c, px) => (t + c, px)
  }

  function ContinuationStart(d: LineDecoration): (int, int) {
    match d
    case NoDecoration => (0, 0)
    case Hanging(_, c, px) => (c, px)
  }

  /** The hanging indent keeps the first row where it would be without
      decoration (up to the fixed 6px gutter) and starts every wrapped row
      under the first character after the indentation. */
  lemma HangingIndentAlignsWrappedRows(line: string)
    requires IndentOf(line) > 0
    ensures FirstRowStart(DecorationFor(IndentOf(line))) == (0, 6)
    ensures ContinuationStart(DecorationFor(IndentOf(line))) == (IndentOf(line), 6)
  {
  }

  /** The decorations for a run of lines, numbered from `first`: the line
      number and its indentation, for each indented line in order. */
  function LineDecorations(lines: seq<string>, first: nat): (r: seq<(nat, nat)>)
    ensures forall k :: 0 <= k < |r| ==>
      first <= r[k].0 < first + |lines| && r[k].1 == IndentOf(lines[r[k].0 - first]) > 0
    ensures forall k, m :: 0 <= k < m < |r| ==> r[k].0 < r[m].0
    decreases |lines|
  {
    if |lines| == 0 then []
    else
      var rest := LineDecorations(lines[1..], first + 1);
      LaterLinesShift(lines, first, rest);
      var w := IndentOf(lines[0]);
      if w > 0 then [(first, w)] + rest else rest
  }

  /** A decoration of the lines after the first names the same line of
      the whole run. */
  lemma LaterLinesShift(lines: seq<string>, first: nat, rest: seq<(nat, nat)>)
    requires |lines| > 0
    requires forall k :: 0 <= k < |rest| ==>
      first + 1 <= rest[k].0 < first + |lines| && rest[k].1 == IndentOf(lines[1..][rest[k].0 - first - 1]) > 0
    ensures forall k :: 0 <= k < |rest| ==>
      first <= rest[k].0 < first + |lines| && rest[k].1 == IndentOf(lines[rest[k].0 - first]) > 0
  {
    forall k | 0 <= k < |rest|
      ensures rest[k].1 == IndentOf(lines[rest[k].0 - first])
    {
      assert lines[1..][rest[k].0 - first - 1] == lines[rest[k].0 - first];
    }
  }

  /** Every indented line gets exactly its decoration. */
  lemma {:induction false} EveryIndentedLineDecorated(lines: seq<string>, first: nat, i: nat)
    requires i < |lines| && IndentOf(lines[i]) > 0
    ensures (first + i, IndentOf(lines[i])) in LineDecorations(lines, first)
    decreases |lines|
  {
    if i > 0 {
      EveryIndentedLineDecorated(lines[1..], first + 1, i - 1);
      assert lines[1..][i - 1] == lines[i];
    }
  }

  // ---------------------------------------------------------------------
  // Key bindings

  /** The custom bindings placed ahead of the library's stock keymaps. */
  datatype Command = Undo | Redo | OpenFile | Save | ExportWithViewer | ToggleNumbers | ToggleWrapping

  /** A `keydown` event: `key` is the name the browser reports (a letter
      typed with Shift is reported upper case), `base` the unshifted name
      of the physical key, "" when unknown. Alt is not held. */
  datatype KeyEvent = KeyEvent(key: string, base: string, shift: bool, meta: bool, ctrl: bool)

  /** A binding's `Mod` is Command on a Mac and Control elsewhere, and a
      binding asks for exactly the modifiers it names. */
  predicate ModHeld(e: KeyEvent, mac: bool) {
    if mac then e.meta && !e.ctrl else e.ctrl && !e.meta
  }

  predicate NoModifier(e: KeyEvent) {
    !e.meta && !e.ctrl
  }

  /** A single character, which the library looks up without its Shift. */
  predicate IsCharKey(name: string) {
    |name| == 1 && name != " "
  }

  /** The custom bindings, placed ahead of the library's stock keymaps:
      the command bound to a name with Mod and Shift held or not. */
  function Bound(name: string, mod: bool, shift: bool): Option<Command> {
    if !mod && !shift && name == "F1" then Some(ToggleNumbers)
    else if !mod && !shift && name == "F2" then Some(ToggleWrapping)
    else if !mod then None
    else if shift then (if name == "z" then Some(Redo) else None)
    else if name == "z" then Some(Undo)
    else if name == "y" then Some(Redo)
    else if name == "o" then Some(OpenFile)
    else if name == "s" then Some(Save)
    else if name == "e" then Some(ExportWithViewer)
    else None
  }

  /** The binding for `name` with the event's modifiers, Shift counted
      only when `withShift`. */
  function Lookup(name: string, e: KeyEvent, mac: bool, withShift: bool): Option<Command> {
    if ModHeld(e, mac) then Bound(name, true, withShift && e.shift)
    else if NoModifier(e) then Bound(name, false, withShift && e.shift)
    else None
  }

  /** The custom binding a key press runs. The reported name is tried
      first, Shift left out for a single character; a character held with
      Command or Control is then tried under its base name with Shift
      counted, and any other character held with Shift under its own name
      with Shift counted. None leaves the key to the library's stock
      bindings, which are not modelled, or to the page. */
  function KeymapCommand(e: KeyEvent, mac: bool): (r: Option<Command>)
    ensures r.Some? ==> ModHeld(e, mac) || NoModifier(e)
    ensures NoModifier(e) ==>
      (r == Some(ToggleNumbers) <==> e.key == "F1" && !e.shift) &&
      (r == Some(ToggleWrapping) <==> e.key == "F2" && !e.shift) &&
      (r.Some? ==> r == Some(ToggleNumbers) || r == Some(ToggleWrapping))
    ensures ModHeld(e, mac) && !e.shift ==>
      (e.key == "s" ==> r == Some(Save)) && (e.key == "e" ==> r == Some(ExportWithViewer)) &&
      (e.key == "o" ==> r == Some(OpenFile)) && (e.key == "z" ==> r == Some(Undo)) &&
      (e.key == "y" ==> r == Some(Redo))
    ensures ModHeld(e, mac) && e.shift && e.key == "Z" && e.base == "z" ==> r == Some(Redo)
    ensures r == Some(ExportWithViewer) ==> ModHeld(e, mac) && (e.key == "e" || (e.base == "e" && !e.shift))
    ensures r == Some(Save) ==> ModHeld(e, mac) && (e.key == "s" || (e.base == "s" && !e.shift))
    ensures e.key == "f" && e.base == "f" ==> r.None?
  {
    var isChar := IsCharKey(e.key);
    var first := Lookup(e.key, e, mac, !isChar);
    if first.Some? then first
    else if isChar && (e.meta || e.ctrl) && e.base != "" && e.base != e.key then Lookup(e.base, e, mac, true)
    else if isChar && e.shift then Lookup(e.key, e, mac, true)
    else None
  }

  // ---------------------------------------------------------------------
  // The input handler

  /** A change the handler dispatches: `doc[from..to]` replaced by `insert`
      and the cursor put at `cursor`. */
  datatype Change = Change(from: nat, to: nat, insert: string, cursor: int)

  function Apply(doc: string, c: Change): string
    requires c.from <= c.to <= |doc|
  {
    doc[..c.from] + c.insert + doc[c.to..]
  }

  /** The UTF-16 code units a character takes: two outside the Basic
      Multilingual Plane, one inside it. */
  function Utf16Width(c: char): nat {
    if c as int >= 0x1_0000 then 2 else 1
  }

  /** The UTF-16 code units `doc[i..j]` takes, the unit the editor's
      document offsets count. */
  function Utf16Span(doc: string, i: nat, j: nat): nat
    requires i <= j <= |doc|
    decreases j - i
  {
    if i == j then 0 else Utf16Width(doc[i]) + Utf16Span(doc, i + 1, j)
  }

  /** A range starting earlier takes at least one code unit more per
      extra character, and at most two. */
  lemma {:induction false} Utf16SpanBounds(doc: string, i: nat, j: nat, to: nat)
    requires i <= j <= to <= |doc|
    ensures Utf16Span(doc, i, to) >= Utf16Span(doc, j, to) + (j - i)
    ensures Utf16Span(doc, i, to) <= Utf16Span(doc, j, to) + 2 * (j - i)
    decreases j - i
  {
    if i < j {
      Utf16SpanBounds(doc, i + 1, j, to);
    }
  }

  /** Every character of `doc[i..j]` is inside the Basic Multilingual
      Plane. */
  predicate AllBmp(doc: string, i: nat, j: nat)
    requires i <= j <= |doc|
  {
    forall k :: i <= k < j ==> doc[k] as int < 0x1_0000
  }

  lemma {:induction false} BmpSpan(doc: string, i: nat, j: nat)
    requires i <= j <= |doc| && AllBmp(doc, i, j)
    ensures Utf16Span(doc, i, j) == j - i
    decreases j - i
  {
    if i < j {
      BmpSpan(doc, i + 1, j);
    }
  }

  /** Walking back from `k` with `used` code units already taken: whole
      characters are taken while they fit in 20 code units. */
  function TakeBack(doc: string, k: nat, used: nat): (i: nat)
    requires k <= |doc| && used <= 20
    ensures i <= k
    ensures i > 0 ==> used + 2 * (k - i) + 2 > 20
    decreases k
  {
    if k == 0 || used + Utf16Width(doc[k - 1]) > 20 then k
    else TakeBack(doc, k - 1, used + Utf16Width(doc[k - 1]))
  }

  /** The walk keeps `used` equal to the code units taken, so it stops at
      the longest range before `to` that fits. */
  lemma {:induction false} TakeBackFits(doc: string, to: nat, k: nat, used: nat)
    requires k <= to <= |doc| && used <= 20 && used == Utf16Span(doc, k, to)
    ensures var i := TakeBack(doc, k, used);
      Utf16Span(doc, i, to) <= 20 && (i > 0 ==> Utf16Span(doc, i - 1, to) > 20)
    decreases k
  {
    if k > 0 && used + Utf16Width(doc[k - 1]) <= 20 {
      TakeBackFits(doc, to, k - 1, used + Utf16Width(doc[k - 1]));
    }
  }

  /** Over text inside the Basic Multilingual Plane the walk takes exactly
      the last 20 characters. */
  lemma WindowOverBmp(doc: string, from: nat)
    requires from <= |doc|
    ensures AllBmp(doc, if from < 20 then 0 else from - 20, from) ==>
      from - TakeBack(doc, from, 0) == if from < 20 then from else 20
  {
    var k := if from < 20 then 0 else from - 20;
    if AllBmp(doc, k, from) {
      TakeBackFits(doc, from, from, 0);
      var i := TakeBack(doc, from, 0);
      BmpSpan(doc, k, from);
      if i > k {
        Utf16SpanBounds(doc, k, i - 1, from);
      } else if i < k {
        Utf16SpanBounds(doc, i, k, from);
      }
    }
  }

  /** The text the handler inspects: `sliceString(max(0, from - 20),
      from)`, the last 20 UTF-16 code units before `from`. A character cut
      in half by that bound is dropped whole; see the notes on what is
      left out. */
  function Window(doc: string, from: nat): (r: string)
    requires from <= |doc|
    ensures |r| <= from && r == doc[from - |r|..from]
    ensures |r| >= if from < 10 then from else 10
    ensures AllBmp(doc, if from < 20 then 0 else from - 20, from) ==> |r| == if from < 20 then from else 20
  {
    WindowOverBmp(doc, from);
    doc[TakeBack(doc, from, 0)..from]
  }

  /** The window is the longest run of whole characters before `from`
      that fits in 20 code units. */
  lemma WindowIsLast20CodeUnits(doc: string, from: nat)
    requires from <= |doc|
    ensures var r := Window(doc, from);
      Utf16Span(doc, from - |r|, from) <= 20 &&
      (|r| < from ==> Utf16Span(doc, from - |r| - 1, from) > 20)
  {
    TakeBackFits(doc, from, from, 0);
  }

  /** `/<(style|script)(\s[^>]*)?$/i` matches `w` at `p` with tag name
      `name`: `<`, the name in any case, then the end, or a whitespace
      character and no `>` up to the end. */
  predicate UnclosedTagAt(w: string, p: nat, name: string) {
    (name == "style" || name == "script") &&
    p + 1 + |name| <= |w| && w[p] == '<' && CiMatchAt(w, p + 1, name) &&
    (p + 1 + |name| == |w| ||
     (IsJsWhitespace(w[p + 1 + |name|]) && forall j :: p + 1 + |name| < j < |w| ==> w[j] != '>'))
  }

  predicate UnclosedTagStart(w: string, p: nat) {
    UnclosedTagAt(w, p, "style") || UnclosedTagAt(w, p, "script")
  }

  /** A tag match: where it starts and the name as written. */
  datatype TagMatch = TagMatch(start: nat, written: string)

  /** The regular expression's search from `i` on: the leftmost start with
      a match, trying `style` before `script` there. */
  function FindUnclosedTag(w: string, i: nat): (r: Option<TagMatch>)
    ensures r.Some? ==> i <= r.value.start < |w|
    decreases |w| - i
  {
    if i >= |w| then None
    else if UnclosedTagAt(w, i, "style") then Some(TagMatch(i, w[i + 1..i + 6]))
    else if UnclosedTagAt(w, i, "script") then Some(TagMatch(i, w[i + 1..i + 7]))
    else FindUnclosedTag(w, i + 1)
  }

  /** A match the search reports is a real one, and `match[1]` is the name
      as written there: folded (`toLowerCase()`), it is the name the
      pattern matched. */
  lemma {:induction false} FoundTagIsUnclosed(w: string, i: nat)
    requires FindUnclosedTag(w, i).Some?
    ensures var m := FindUnclosedTag(w, i).value;
      m.start + 1 + |m.written| <= |w| && m.written == w[m.start + 1..m.start + 1 + |m.written|] &&
      UnclosedTagAt(w, m.start, Lower(m.written))
    decreases |w| - i
  {
    if !UnclosedTagAt(w, i, "style") && !UnclosedTagAt(w, i, "script") {
      FoundTagIsUnclosed(w, i + 1);
    }
  }

  /** The search is leftmost: no match starts between `i` and the reported
      start, and when it reports nothing there is no match from `i` on. */
  lemma {:induction false} FoundTagIsLeftmost(w: string, i: nat)
    ensures var r := FindUnclosedTag(w, i);
      (r.Some? ==> forall p :: i <= p < r.value.start ==> !UnclosedTagStart(w, p)) &&
      (r.None? ==> forall p :: i <= p ==> !UnclosedTagStart(w, p))
    decreases |w| - i
  {
    if i < |w| && !UnclosedTagAt(w, i, "style") && !UnclosedTagAt(w, i, "script") {
      FoundTagIsLeftmost(w, i + 1);
    }
  }

  /** The closing tag for a tag name. */
  function ClosingTag(name: string): string {
    "</" + name + ">"
  }

  /** What the input handler does once it has read the text `before` the
      cursor. */
  function Respond(before: string, from: nat, to: nat, text: string): (r: Option<Change>)
    requires |before| <= from
  {
    if text != ">" then None
    else if EndsWith(before, "<!") then
      Some(Change(from - 2, from, ZineBoilerplate, BoilerplateCursorPos(from - 2)))
    else
      match FindUnclosedTag(before, 0)
      case None => None
      case Some(m) => Some(Change(from, to, ">" + ClosingTag(Lower(m.written)), from + 1))
  }

  /** The editor's input handler for text typed over `doc[from..to]`. None
      declines and lets the text be inserted as typed. */
  function InputHandler(doc: string, from: nat, to: nat, text: string): (r: Option<Change>)
    requires from <= to <= |doc|
    ensures text != ">" ==> r.None?
    ensures text == ">" && EndsWith(Window(doc, from), "<!") ==>
      from >= 2 &&
      r == Some(Change(from - 2, from, ZineBoilerplate, BoilerplateCursorPos(from - 2)))
    ensures text == ">" && !EndsWith(Window(doc, from), "<!") ==>
      match FindUnclosedTag(Window(doc, from), 0)
      case None => r.None?
      case Some(m) => r == Some(Change(from, to, ">" + ClosingTag(Lower(m.written)), from + 1))
  {
    Respond(Window(doc, from), from, to, text)
  }

  /** The expansion fires exactly when the two characters before the cursor
      are `<!`. */
  lemma ExpansionTrigger(doc: string, from: nat)
    requires from <= |doc|
    ensures EndsWith(Window(doc, from), "<!") <==> from >= 2 && doc[from - 2..from] == "<!"
  {
    var w := Window(doc, from);
    if from >= 2 {
      assert w[|w| - 2..] == doc[from - 2..from];
    }
  }

  /** A window of `pre + mid + post` inside `mid`. */
  lemma SpliceWindow(pre: string, mid: string, post: string, k: nat, n: nat)
    requires k + n <= |mid|
    ensures (pre + mid + post)[|pre| + k..|pre| + k + n] == mid[k..k + n]
  {
    var d := pre + mid + post;
    assert d == pre + (mid + post);
    assert d[|pre|..] == mid + post;
    assert d[|pre| + k..|pre| + k + n] == d[|pre|..][k..k + n];
    assert (mid + post)[k..k + n] == mid[k..k + n];
  }

  /** After the expansion, the `<!` is gone, the starter document stands in
      its place, the text around it is kept, and the cursor sits on the
      blank line inside the front cover, right before its `</div>`. */
  lemma ExpansionPlacesCursorInFrontCover(doc: string, from: nat, to: nat)
    requires from <= to <= |doc| && from >= 2 && doc[from - 2..from] == "<!"
    ensures InputHandler(doc, from, to, ">") == Some(Change(from - 2, from, ZineBoilerplate, from - 2 + 111))
    ensures var d := Apply(doc, Change(from - 2, from, ZineBoilerplate, from - 2 + 111));
      d == doc[..from - 2] + ZineBoilerplate + doc[from..] &&
      OccursAt(d, "\n\n\t\t", from - 2 + 107) && OccursAt(d, "</div>", from - 2 + 111)
  {
    ExpansionTrigger(doc, from);
    var c := InputHandler(doc, from, to, ">").value;
    assert c == Change(from - 2, from, ZineBoilerplate, BoilerplateCursorPos(from - 2));
    BoilerplateCursorInsideFrontCover(from - 2);
    var pre := doc[..from - 2];
    assert |pre| == from - 2;
    SpliceWindow(pre, ZineBoilerplate, doc[from..], 107, 4);
    SpliceWindow(pre, ZineBoilerplate, doc[from..], 111, 6);
  }

  /** Typing `>` after an unclosed `<style` or `<script` completes the tag
      and appends its lower-case closing tag, leaving the cursor between
      the two; `before` is the text the handler read. */
  lemma TagCompletion(doc: string, from: nat, to: nat, before: string)
    requires from <= to <= |doc| && |before| <= from
    requires !EndsWith(before, "<!") && FindUnclosedTag(before, 0).Some?
    ensures var name := Lower(FindUnclosedTag(before, 0).value.written);
      (name == "style" || name == "script") &&
      Respond(before, from, to, ">") == Some(Change(from, to, ">" + ClosingTag(name), from + 1))
    ensures var name := Lower(FindUnclosedTag(before, 0).value.written);
      var d := Apply(doc, Change(from, to, ">" + ClosingTag(name), from + 1));
      d[..from + 1] == doc[..from] + ">" && d[from + 1..from + 1 + |ClosingTag(name)|] == ClosingTag(name)
  {
    FoundNameIsTag(before);
    var name := Lower(FindUnclosedTag(before, 0).value.written);
    CursorAfterFirst(doc, from, to, ">", ClosingTag(name));
  }

  /** The name a reported match carries folds to one of the two tags. */
  lemma FoundNameIsTag(w: string)
    requires FindUnclosedTag(w, 0).Some?
    ensures var name := Lower(FindUnclosedTag(w, 0).value.written);
      name == "style" || name == "script"
  {
    FoundTagIsUnclosed(w, 0);
  }

  /** Inserting `a + b` over `doc[from..to]` with the cursor after `a`
      leaves `a` before the cursor and `b` right after it. */
  lemma CursorAfterFirst(doc: string, from: nat, to: nat, a: string, b: string)
    requires from <= to <= |doc|
    ensures var d := Apply(doc, Change(from, to, a + b, from + |a|));
      d[..from + |a|] == doc[..from] + a && d[from + |a|..from + |a| + |b|] == b
  {
    var d := doc[..from] + (a + b) + doc[to..];
    assert d == (doc[..from] + a) + (b + doc[to..]);
  }

  /** A cursor at most 20 characters into text inside the Basic
      Multilingual Plane sees everything before it. */
  lemma ShortWindowIsWholePrefix(doc: string, from: nat)
    requires from <= |doc| && from <= 20 && AllBmp(doc, 0, from)
    ensures Window(doc, from) == doc[..from]
  {
  }

  /** The search is leftmost: in `<style <script` the first tag is still
      open (everything after its space is attribute text), so the style
      tag is the one closed. */
  lemma LeftmostTagWins(doc: string)
    requires |doc| >= 14 && doc[..14] == "<style <script"
    ensures InputHandler(doc, 14, 14, ">") == Some(Change(14, 14, "></style>", 15))
  {
    var w := "<style <script";
    assert AllBmp(doc, 0, 14) by {
      forall k | 0 <= k < 14 ensures doc[k] as int < 0x1_0000 {
        assert doc[k] == w[k];
      }
    }
    ShortWindowIsWholePrefix(doc, 14);
    LeftmostOnText();
  }

  lemma LeftmostOnText()
    ensures Respond("<style <script", 14, 14, ">") == Some(Change(14, 14, "></style>", 15))
  {
    var w := "<style <script";
    assert w[1..6] == "style";
    assert Lower(w[1..6]) == "style";
    assert UnclosedTagAt(w, 0, "style");
    assert !EndsWith(w, "<!") by {
      assert w[12] == 'p';
    }
    assert FindUnclosedTag(w, 0) == Some(TagMatch(0, "style"));
    assert ">" + ClosingTag("style") == "></style>";
  }
}

=== FILE: constants.dfy ===
/** The fixed pagination tables of the zine: eight named pages, five spreads,
    the left/right page groups, the page geometry and the starter document
    (resources/constants.js). */
module Constants {
  import opened Wrappers
  import opened Strings

  /** Page geometry in inches. */
  const PageWidthIn: real := 2.75
  const PageHeightIn: real := 4.25
  const PagePaddingIn: real := 0.2

  /** Height of the viewer's navigation bar, in pixels. */
  const NavHeight: int := 60

  /** The eight named regions of an authored zine. */
  datatype PageId = FrontCover | Page1 | Page2 | Page3 | Page4 | Page5 | Page6 | BackCover {
    /** The element id the page has in the authored document. */
    function Name(): string {
      match this
      case FrontCover => "front-cover"
      case Page1 => "page1"
      case Page2 => "page2"
      case Page3 => "page3"
      case Page4 => "page4"
      case Page5 => "page5"
      case Page6 => "page6"
      case BackCover => "back-cover"
    }

    /** The page's position in reading order. */
    function Index(): nat {
      match this
      case FrontCover => 0
      case Page1 => 1
      case Page2 => 2
      case Page3 => 3
      case Page4 => 4
      case Page5 => 5
      case Page6 => 6
      case BackCover => 7
    }
  }

  /** The pages in reading order. */
  const PageIds: seq<PageId> := [FrontCover, Page1, Page2, Page3, Page4, Page5, Page6, BackCover]

  /** A spread: zero or one page on each side, and the label text shown for it. */
  datatype Spread = Spread(left: Option<PageId>, right: Option<PageId>, labelText: string)

  const Spreads: seq<Spread> := [
    Spread(None, Some(FrontCover), "Front Cover"),
    Spread(Some(Page1), Some(Page2), "Pages 1-2"),
    Spread(Some(Page3), Some(Page4), "Pages 3-4"),
    Spread(Some(Page5), Some(Page6), "Pages 5-6"),
    Spread(Some(BackCover), None, "Back Cover")
  ]

  const LastSpread: int := |Spreads| - 1

  /** `SPREADS[i]`: outside the table JavaScript yields `undefined`. */
  function SpreadAt(i: int): (r: Option<Spread>)
    ensures r.Some? <==> 0 <= i < |Spreads|
    ensures r.Some? ==> r.value == Spreads[i]
  {
    if 0 <= i < |Spreads| then Some(Spreads[i]) else None
  }

  /** The pages a spread shows, left before right, absent sides skipped
      (`[spread.left, spread.right].filter(Boolean)`). */
  function VisiblePages(s: Spread): (r: seq<PageId>)
    ensures |r| <= 2
    ensures forall p :: p in r <==> Some(p) == s.left || Some(p) == s.right
  {
    (if s.left.Some? then [s.left.value] else []) +
    (if s.right.Some? then [s.right.value] else [])
  }

  /** A CSS selector list naming the pages of `ids` from index `i` on:
      `#id` for each, joined with `", "`. */
  function SelectorFrom(ids: seq<PageId>, i: nat): string
    decreases |ids| - i
  {
    if i >= |ids| then ""
    else if i + 1 == |ids| then "#" + ids[i].Name()
    else "#" + ids[i].Name() + ", " + SelectorFrom(ids, i + 1)
  }

  function Selector(ids: seq<PageId>): string {
    SelectorFrom(ids, 0)
  }

  const AllPagesSelector: string := Selector(PageIds)

  /** The two hand-written selector literals of the source and the page
      groups they name. */
  const RightPagesSelector: string := "#front-cover" + ", " + "#page2" + ", " + "#page4" + ", " + "#page6"
  const LeftPagesSelector: string := "#back-cover" + ", " + "#page1" + ", " + "#page3" + ", " + "#page5"
  const RightPages: seq<PageId> := [FrontCover, Page2, Page4, Page6]
  const LeftPages: seq<PageId> := [BackCover, Page1, Page3, Page5]

  /** The pages of the spreads from index `i` on, read left then right,
      absent sides skipped. */
  function ReadingOrderFrom(spreads: seq<Spread>, i: nat): seq<PageId>
    decreases |spreads| - i
  {
    if i >= |spreads| then [] else VisiblePages(spreads[i]) + ReadingOrderFrom(spreads, i + 1)
  }

  /** The spread table's shape: five spreads, a lone front cover on the
      right, a lone back cover on the left, full spreads between, and no
      empty spread. */
  lemma SpreadTableShape()
    ensures |Spreads| == 5 && LastSpread == 4
    ensures Spreads[0].left == None && Spreads[0].right == Some(FrontCover)
    ensures Spreads[4].left == Some(BackCover) && Spreads[4].right == None
    ensures forall i :: 1 <= i <= 3 ==> Spreads[i].left.Some? && Spreads[i].right.Some?
    ensures forall i :: 0 <= i < |Spreads| ==> Spreads[i].left.Some? || Spreads[i].right.Some?
  {
  }

  /** The pages each spread shows. */
  lemma VisiblePagesTable()
    ensures VisiblePages(Spreads[0]) == [FrontCover]
    ensures VisiblePages(Spreads[1]) == [Page1, Page2]
    ensures VisiblePages(Spreads[2]) == [Page3, Page4]
    ensures VisiblePages(Spreads[3]) == [Page5, Page6]
    ensures VisiblePages(Spreads[4]) == [BackCover]
  {
    assert VisiblePages(Spreads[0]) == [] + [FrontCover];
    assert VisiblePages(Spreads[4]) == [BackCover] + [];
  }

  /** Reading the spreads in order, left then right and skipping absent
      sides, gives back exactly the page list. */
  lemma SpreadsReadInPageOrder()
    ensures ReadingOrderFrom(Spreads, 0) == PageIds
  {
    VisiblePagesTable();
    assert ReadingOrderFrom(Spreads, 4) == [BackCover];
    assert ReadingOrderFrom(Spreads, 3) == [Page5, Page6, BackCover];
    assert ReadingOrderFrom(Spreads, 2) == [Page3, Page4, Page5, Page6, BackCover];
    assert ReadingOrderFrom(Spreads, 1) == [Page1, Page2, Page3, Page4, Page5, Page6, BackCover];
  }

  /** The page list names every page exactly once, so, read through the
      spreads, each page occupies exactly one slot of one spread. */
  lemma PageIdsListEachPageOnce()
    ensures forall i, j :: 0 <= i < |PageIds| && 0 <= j < |PageIds| && PageIds[i] == PageIds[j] ==> i == j
    ensures forall p: PageId :: p in PageIds && PageIds[p.Index()] == p
  {
    forall i | 0 <= i < |PageIds|
      ensures PageIds[i].Index() == i
    {
    }
    forall p: PageId
      ensures p in PageIds && PageIds[p.Index()] == p
    {
      match p
      case FrontCover =>
      case Page1 =>
      case Page2 =>
      case Page3 =>
      case Page4 =>
      case Page5 =>
      case Page6 =>
      case BackCover =>
    }
  }

  /** The right and left groups split the eight pages between them, and each
      spread's right page is in the right group and its left page in the
      left group. */
  lemma SidesPartitionPages()
    ensures forall p: PageId :: (p in RightPages) != (p in LeftPages)
    ensures forall i :: 0 <= i < |Spreads| ==>
      (Spreads[i].right.Some? ==> Spreads[i].right.value in RightPages) &&
      (Spreads[i].left.Some? ==> Spreads[i].left.value in LeftPages)
  {
    forall p: PageId
      ensures (p in RightPages) != (p in LeftPages)
    {
      match p
      case FrontCover => assert RightPages[0] == p;
      case Page2 => assert RightPages[1] == p;
      case Page4 => assert RightPages[2] == p;
      case Page6 => assert RightPages[3] == p;
      case BackCover => assert LeftPages[0] == p;
      case Page1 => assert LeftPages[1] == p;
      case Page3 => assert LeftPages[2] == p;
      case Page5 => assert LeftPages[3] == p;
    }
  }

  /** The hand-written right-pages selector literal names exactly the right
      page group. */
  lemma RightSelectorNamesGroup()
    ensures Selector(RightPages) == RightPagesSelector
  {
    assert SelectorFrom(RightPages, 3) == "#page6";
    assert SelectorFrom(RightPages, 2) == "#page4" + ", " + "#page6";
    assert SelectorFrom(RightPages, 1) == "#page2" + ", " + ("#page4" + ", " + "#page6");
  }

  /** The hand-written left-pages selector literal names exactly the left page
      group. */
  lemma LeftSelectorNamesGroup()
    ensures Selector(LeftPages) == LeftPagesSelector
  {
    assert SelectorFrom(LeftPages, 3) == "#page5";
    assert SelectorFrom(LeftPages, 2) == "#page3" + ", " + "#page5";
    assert SelectorFrom(LeftPages, 1) == "#page1" + ", " + ("#page3" + ", " + "#page5");
  }

  /** The generated selector for every page lists all eight ids in page
      order, each prefixed with `#`, separated by a comma and a space. */
  lemma AllPagesSelectorSpelledOut()
    ensures AllPagesSelector ==
      "#" + "front-cover" + ", " + ("#" + "page1" + ", " + ("#" + "page2" + ", " + ("#" + "page3" + ", " +
      ("#" + "page4" + ", " + ("#" + "page5" + ", " + ("#" + "page6" + ", " + ("#" + "back-cover")))))))
  {
    var t7 := "#" + "back-cover";
    assert SelectorFrom(PageIds, 7) == t7;
    var t6 := "#" + "page6" + ", " + t7;
    assert SelectorFrom(PageIds, 6) == t6;
    var t5 := "#" + "page5" + ", " + t6;
    assert SelectorFrom(PageIds, 5) == t5;
    var t4 := "#" + "page4" + ", " + t5;
    assert SelectorFrom(PageIds, 4) == t4;
    var t3 := "#" + "page3" + ", " + t4;
    assert SelectorFrom(PageIds, 3) == t3;
    var t2 := "#" + "page2" + ", " + t3;
    assert SelectorFrom(PageIds, 2) == t2;
    var t1 := "#" + "page1" + ", " + t2;
    assert SelectorFrom(PageIds, 1) == t1;
  }
}

=== FILE: editor.dfy ===
/** The host page's wiring (resources/editor.js): the listener for the
    preview frame's messages, the document-level shortcuts, the resize
    rule for fullscreen, and how the editor's own key bindings, edits and
    file loading reach the same state. The preview itself is summarised by
    the navigation state's refresh counter; what a refresh renders is
    `PreviewManager.UpdatePreview`. */
module Editor {
  import opened Wrappers
  import opened SpreadNavigation
  import opened PreviewManager
  import opened Constants
  import FileOperations
  import CodemirrorConfig
  import Storage

  /** The preview pane's background grid: the four custom properties and
      the `grid-ready` class. */
  datatype Grid = Grid(width: real, height: real, left: real, top: real, ready: bool)

  const NoGrid: Grid := Grid(0.0, 0.0, 0.0, 0.0, false)

  /** Where the preview frame's box sits inside the pane's box; the host
      measures it when a scale report arrives. */
  datatype Offset = Offset(x: real, y: real)

  /** Which window a print request reached. */
  datatype Printed = PrintedFrame | PrintedHost

  /** The viewer stylesheet and script an export embeds; their text is
      generated elsewhere. */
  datatype Viewer = Viewer(css: string, js: string)

  /** The host page's state. `pending` is the document text a scheduled
      preview refresh is waiting for; `pickers` counts file pickers
      opened. */
  datatype Host = Host(
    nav: Nav,
    grid: Grid,
    doc: string,
    store: Storage.Store,
    settings: Storage.EditorSettings,
    downloads: seq<FileOperations.Download>,
    searchOpen: bool,
    prints: seq<Printed>,
    pickers: nat,
    pending: Option<string>)

  /** `updatePreviewWrapper`, as seen by the navigation state. */
  function Refresh(n: Nav): Nav {
    n.(refreshes := n.refreshes + 1)
  }

  /** `window.saveFile`. */
  function Save(h: Host): Host {
    h.(downloads := h.downloads + [FileOperations.SaveFile(h.doc)])
  }

  /** `window.saveFileWithViewer`. */
  function Export(h: Host, v: Viewer): Host {
    h.(downloads := h.downloads + [FileOperations.ExportWithViewer(h.doc, v.css, v.js)])
  }

  /** `initializeEditor` against a store: the saved work (or the
      boilerplate), as the editor's text model stores it, and the saved
      view settings, the first spread, no grid yet, and one preview
      refresh. */
  function InitialHost(st: Storage.Store): (r: Host)
    ensures Consistent(r.nav) && r.nav.current == 0 && !r.nav.fullscreen
    ensures r.doc == Strings.NormalizeLineBreaks(Storage.LoadContent(st).content)
    ensures r.settings == Storage.LoadEditorSettings(st)
    ensures r.nav.refreshes == 1 && r.downloads == [] && !r.grid.ready
  {
    Host(Refresh(InitialNav()), NoGrid, Strings.NormalizeLineBreaks(Storage.LoadContent(st).content), st,
         Storage.LoadEditorSettings(st), [], false, [], 0, None)
  }

  // ---------------------------------------------------------------------
  // Messages from the preview frame

  /** The host's `message` listener. A scale report moves the grid only
      when both the pane and the frame exist (`pane` is then the frame's
      offset in the pane); the grid's origin is the spread's corner in
      pane coordinates. */
  function HandleMessage(h: Host, m: Message, v: Viewer, pane: Option<Offset>): (r: Host)
    ensures m == ToggleFullscreenMsg ==>
      r.nav.fullscreen == !h.nav.fullscreen && r.nav.current == h.nav.current &&
      r.nav.refreshes == h.nav.refreshes + 1 && r.(nav := h.nav) == h
    ensures m == PrevSpreadMsg ==> r == h.(nav := NavigateSpread(h.nav, -1))
    ensures m == NextSpreadMsg ==> r == h.(nav := NavigateSpread(h.nav, 1))
    ensures m == SaveFileMsg ==>
      r.downloads == h.downloads + [FileOperations.SaveFile(h.doc)] && r.(downloads := h.downloads) == h
    ensures m == SaveFileWithViewerMsg ==>
      r.downloads == h.downloads + [FileOperations.ExportWithViewer(h.doc, v.css, v.js)] &&
      r.(downloads := h.downloads) == h
    ensures m.ScaleChange? && pane.Some? ==>
      r.grid.ready && r.grid.width == m.gridWidth && r.grid.height == m.gridHeight &&
      r.grid.left - pane.value.x == m.spreadLeft && r.grid.top - pane.value.y == m.spreadTop &&
      r.(grid := h.grid) == h
    ensures m.ScaleChange? && pane.None? ==> r == h
    ensures m == Unrecognised ==> r == h
    ensures Consistent(h.nav) ==> Consistent(r.nav)
  {
    match m
    case ToggleFullscreenMsg => h.(nav := Refresh(ToggleFullscreen(h.nav)))
    case PrevSpreadMsg => h.(nav := NavigateSpread(h.nav, -1))
    case NextSpreadMsg => h.(nav := NavigateSpread(h.nav, 1))
    case SaveFileMsg => Save(h)
    case SaveFileWithViewerMsg => Export(h, v)
    case ScaleChange(w, ht, l, t) =>
      (match pane
       case Some(o) => h.(grid := Grid(w, ht, o.x + l, o.y + t, true))
       case None => h)
    case Unrecognised => h
  }

  /** Whether a message asks for a download. */
  predicate IsSaveRequest(m: Message) {
    m == SaveFileMsg || m == SaveFileWithViewerMsg
  }

  /** The number of download requests among some messages. */
  function SaveRequests(ms: seq<Message>): nat {
    if |ms| == 0 then 0 else (if IsSaveRequest(ms[0]) then 1 else 0) + SaveRequests(ms[1..])
  }

  /** The listener run over messages in arrival order. */
  function HandleAll(h: Host, ms: seq<Message>, v: Viewer, pane: Option<Offset>): Host
    decreases |ms|
  {
    if |ms| == 0 then h else HandleAll(HandleMessage(h, ms[0], v, pane), ms[1..], v, pane)
  }

  /** Whatever the frame posts, the spread index stays a valid index with
      a matching indicator, the document is untouched, and each save or
      export request adds exactly one download. */
  lemma {:induction false} HandleAllKeepsState(h: Host, ms: seq<Message>, v: Viewer, pane: Option<Offset>)
    requires Consistent(h.nav)
    ensures Consistent(HandleAll(h, ms, v, pane).nav)
    ensures HandleAll(h, ms, v, pane).doc == h.doc
    ensures |HandleAll(h, ms, v, pane).downloads| == |h.downloads| + SaveRequests(ms)
    ensures HandleAll(h, ms, v, pane).downloads[..|h.downloads|] == h.downloads
    decreases |ms|
  {
    if |ms| > 0 {
      var h1 := HandleMessage(h, ms[0], v, pane);
      HandleAllKeepsState(h1, ms[1..], v, pane);
      var r := HandleAll(h1, ms[1..], v, pane);
      assert |h1.downloads| == |h.downloads| + (if IsSaveRequest(ms[0]) then 1 else 0);
      assert h1.downloads[..|h.downloads|] == h.downloads;
      assert r.downloads[..|h.downloads|] == r.downloads[..|h1.downloads|][..|h.downloads|];
    }
  }

  /** A scale report followed by a re-render keeps the grid: only another
      scale report moves it, and the last one wins. */
  lemma GridFollowsScaleReports(h: Host, w: real, ht: real, l: real, t: real, o: Offset, v: Viewer)
    ensures var h1 := HandleMessage(h, ScaleChange(w, ht, l, t), v, Some(o));
      HandleMessage(h1, ToggleFullscreenMsg, v, Some(o)).grid == h1.grid &&
      HandleMessage(h1, ScaleChange(w, ht, l, t), v, Some(o)) == h1
  {
  }

  // ---------------------------------------------------------------------
  // Keys

  /** The document's `keydown` listener; `mod` is Meta or Control held and
      `frameReachable` says whether the preview frame's window could be
      asked to print. The three tests are independent. */
  function DocumentKey(h: Host, key: string, mod: bool, editorHasFocus: bool, frameReachable: bool, v: Viewer): (r: Host)
    ensures r.searchOpen <==> (if mod && key == "f" then !h.searchOpen else h.searchOpen)
    ensures !editorHasFocus && mod && key == "e" ==>
      r.downloads == h.downloads + [FileOperations.ExportWithViewer(h.doc, v.css, v.js)]
    ensures !(!editorHasFocus && mod && key == "e") ==> r.downloads == h.downloads
    ensures mod && key == "p" ==>
      r.prints == h.prints + [if frameReachable then PrintedFrame else PrintedHost]
    ensures !(mod && key == "p") ==> r.prints == h.prints
    ensures r.(searchOpen := h.searchOpen, downloads := h.downloads, prints := h.prints) == h
  {
    var h1 := if mod && key == "f" then h.(searchOpen := !h.searchOpen) else h;
    var h2 := if !editorHasFocus && mod && key == "e" then Export(h1, v) else h1;
    if mod && key == "p" then
      h2.(prints := h2.prints + [if frameReachable then PrintedFrame else PrintedHost])
    else
      h2
  }

  /** What a custom editor binding does to the host. Undo and redo act on
      the editor's history, which is not part of this state. */
  function RunCommand(h: Host, c: CodemirrorConfig.Command, v: Viewer): (r: Host)
    ensures c.Save? ==> r == Save(h)
    ensures c.ExportWithViewer? ==> r == Export(h, v)
    ensures c.OpenFile? ==> r == h.(pickers := h.pickers + 1)
    ensures c.ToggleNumbers? ==>
      r.settings.showLineNumbers == !h.settings.showLineNumbers &&
      r.settings.enableLineWrapping == h.settings.enableLineWrapping
    ensures c.ToggleWrapping? ==>
      r.settings.enableLineWrapping == !h.settings.enableLineWrapping &&
      r.settings.showLineNumbers == h.settings.showLineNumbers
    ensures c.Undo? || c.Redo? ==> r == h
    ensures r.doc == h.doc && r.nav == h.nav && r.searchOpen == h.searchOpen && r.prints == h.prints
  {
    match c
    case Undo => h
    case Redo => h
    case OpenFile => h.(pickers := h.pickers + 1)
    case Save => Save(h)
    case ExportWithViewer => Export(h, v)
    case ToggleNumbers =>
      var (s, st) := CodemirrorConfig.ToggleLineNumbers(h.settings, h.store);
      h.(settings := s, store := st)
    case ToggleWrapping =>
      var (s, st) := CodemirrorConfig.ToggleLineWrapping(h.settings, h.store);
      h.(settings := s, store := st)
  }

  /** A key press on the host page: with the editor focused its custom
      bindings run first, and the press then bubbles to the document's
      listener. The two read the event differently: the bindings want
      exactly the platform's Mod and may fall back to the base key, the
      listener takes Meta or Control and the reported key. */
  function KeyDown(h: Host, e: CodemirrorConfig.KeyEvent, mac: bool, editorHasFocus: bool, frameReachable: bool, v: Viewer): (r: Host)
    ensures r.searchOpen <==> (if (e.meta || e.ctrl) && e.key == "f" then !h.searchOpen else h.searchOpen)
    ensures r.prints == h.prints + (if (e.meta || e.ctrl) && e.key == "p" then [if frameReachable then PrintedFrame else PrintedHost] else [])
    ensures r.doc == h.doc && r.nav == h.nav
    ensures !editorHasFocus ==> r == DocumentKey(h, e.key, e.meta || e.ctrl, false, frameReachable, v)
  {
    var h1 :=
      if editorHasFocus then
        match CodemirrorConfig.KeymapCommand(e, mac)
        case Some(c) => RunCommand(h, c, v)
        case None => h
      else h;
    DocumentKey(h1, e.key, e.meta || e.ctrl, editorHasFocus, frameReachable, v)
  }

  /** The letter `c` pressed with the platform's Mod key. */
  function ModKey(c: string, mac: bool): CodemirrorConfig.KeyEvent {
    CodemirrorConfig.KeyEvent(c, c, false, mac, !mac)
  }

  /** Export with viewer from the keyboard produces exactly one download,
      whether the editor has focus (its binding runs and the document's
      listener stands back) or not (the document's listener runs). */
  lemma ExportOnce(h: Host, mac: bool, editorHasFocus: bool, frameReachable: bool, v: Viewer)
    ensures KeyDown(h, ModKey("e", mac), mac, editorHasFocus, frameReachable, v).downloads ==
            h.downloads + [FileOperations.ExportWithViewer(h.doc, v.css, v.js)]
  {
  }

  /** With Shift also held the browser reports "E": neither the editor's
      binding nor the document's listener exports. */
  lemma ShiftedExportDoesNothing(h: Host, mac: bool, editorHasFocus: bool, frameReachable: bool, v: Viewer)
    ensures KeyDown(h, CodemirrorConfig.KeyEvent("E", "e", true, mac, !mac), mac, editorHasFocus, frameReachable, v) == h
  {
  }

  /** On a Mac, Control+E is not the editor's Mod-e: with the editor
      focused nothing exports, without focus the document's listener
      does. */
  lemma MacControlExportNeedsNoFocus(h: Host, editorHasFocus: bool, frameReachable: bool, v: Viewer)
    ensures var r := KeyDown(h, CodemirrorConfig.KeyEvent("e", "e", false, false, true), true, editorHasFocus, frameReachable, v);
      r.downloads == if editorHasFocus then h.downloads
                     else h.downloads + [FileOperations.ExportWithViewer(h.doc, v.css, v.js)]
  {
  }

  /** Saving from the keyboard on the host page needs the editor's focus
      and the platform's Mod key: the document's listener has no save
      shortcut. */
  lemma SaveNeedsEditorFocus(h: Host, mac: bool, frameReachable: bool, v: Viewer)
    ensures KeyDown(h, ModKey("s", mac), mac, true, frameReachable, v).downloads ==
            h.downloads + [FileOperations.SaveFile(h.doc)]
    ensures KeyDown(h, ModKey("s", mac), mac, false, frameReachable, v) == h
    ensures KeyDown(h, CodemirrorConfig.KeyEvent("s", "s", false, !mac, mac), mac, true, frameReachable, v) == h
  {
  }

  /** The search shortcut toggles the panel once whatever the focus and
      whichever of Meta and Control is held: the editor's own binding for
      it is removed, so only the document's listener acts, and pressing it
      twice restores the panel. */
  lemma SearchToggles(h: Host, shift: bool, meta: bool, ctrl: bool, mac: bool, editorHasFocus: bool, frameReachable: bool, v: Viewer)
    requires meta || ctrl
    ensures var e := CodemirrorConfig.KeyEvent("f", "f", shift, meta, ctrl);
      KeyDown(h, e, mac, editorHasFocus, frameReachable, v) == h.(searchOpen := !h.searchOpen)
    ensures var e := CodemirrorConfig.KeyEvent("f", "f", shift, meta, ctrl);
      var h1 := KeyDown(h, e, mac, editorHasFocus, frameReachable, v);
      KeyDown(h1, e, mac, editorHasFocus, frameReachable, v) == h
  {
  }

  /** A key press inside the preview frame: its listener posts a message
      that the host's listener then reads, or prints the host page. */
  function FrameKey(h: Host, e: CodemirrorConfig.KeyEvent, v: Viewer, pane: Option<Offset>): (r: Host)
    ensures (e.meta || e.ctrl) && e.key == "p" ==> r == h.(prints := h.prints + [PrintedHost])
    ensures e.key == "ArrowLeft" ==> r.nav == NavigateSpread(h.nav, -1)
    ensures e.key == "ArrowRight" ==> r.nav == NavigateSpread(h.nav, 1)
    ensures r.doc == h.doc
  {
    match PreviewKey(e.key, e.meta || e.ctrl)
    case Post(m) =>
      WireRoundTrip(m);
      HandleMessage(h, ReadMessage(Text(WireText(m).value)), v, pane)
    case PrintHostWindow => h.(prints := h.prints + [PrintedHost])
    case Ignore => h
  }

  /** The arrow keys in the frame step the host's navigation by one
      spread, with or without a modifier. */
  lemma PreviewKeysDriveNavigation(h: Host, shift: bool, meta: bool, ctrl: bool, v: Viewer, pane: Option<Offset>)
    ensures FrameKey(h, CodemirrorConfig.KeyEvent("ArrowLeft", "ArrowLeft", shift, meta, ctrl), v, pane) ==
            h.(nav := NavigateSpread(h.nav, -1))
    ensures FrameKey(h, CodemirrorConfig.KeyEvent("ArrowRight", "ArrowRight", shift, meta, ctrl), v, pane) ==
            h.(nav := NavigateSpread(h.nav, 1))
  {
    WireRoundTrip(PrevSpreadMsg);
    WireRoundTrip(NextSpreadMsg);
  }

  /** The print shortcut depends on where it is pressed: on the host page
      it prints the preview frame while the frame can be reached, but the
      frame's own listener runs in the host page's realm and prints the
      host page. */
  lemma FramePrintDiffersFromHost(h: Host, mac: bool, v: Viewer, pane: Option<Offset>, editorHasFocus: bool)
    ensures FrameKey(h, ModKey("p", mac), v, pane).prints == h.prints + [PrintedHost]
    ensures KeyDown(h, ModKey("p", mac), mac, editorHasFocus, true, v).prints == h.prints + [PrintedFrame]
    ensures FrameKey(h, ModKey("p", mac), v, pane) != KeyDown(h, ModKey("p", mac), mac, editorHasFocus, true, v)
  {
    assert PrintedHost != PrintedFrame;
    assert FrameKey(h, ModKey("p", mac), v, pane).prints[|h.prints|] == PrintedHost;
  }

  /** The frame's save shortcut has the same effect as pressing it in the
      focused editor. */
  lemma FrameSaveMatchesEditor(h: Host, mac: bool, v: Viewer, pane: Option<Offset>)
    ensures FrameKey(h, ModKey("s", mac), v, pane) == KeyDown(h, ModKey("s", mac), mac, true, true, v)
  {
    WireRoundTrip(SaveFileMsg);
    assert CodemirrorConfig.KeymapCommand(ModKey("s", mac), mac) == Some(CodemirrorConfig.Save);
  }

  /** The frame's export shortcut has the same effect as pressing it in
      the focused editor. */
  lemma FrameExportMatchesEditor(h: Host, mac: bool, v: Viewer, pane: Option<Offset>)
    ensures FrameKey(h, ModKey("e", mac), v, pane) == KeyDown(h, ModKey("e", mac), mac, true, true, v)
  {
    WireRoundTrip(SaveFileWithViewerMsg);
    assert CodemirrorConfig.KeymapCommand(ModKey("e", mac), mac) == Some(CodemirrorConfig.ExportWithViewer);
  }

  /** The frame accepts Meta or Control for save on every platform, where
      the editor wants the platform's Mod: Control+S on a Mac saves from
      the frame and does nothing in the focused editor. */
  lemma FrameSaveTakesEitherModifier(h: Host, v: Viewer, pane: Option<Offset>)
    ensures var e := CodemirrorConfig.KeyEvent("s", "s", false, false, true);
      FrameKey(h, e, v, pane).downloads == h.downloads + [FileOperations.SaveFile(h.doc)] &&
      KeyDown(h, e, true, true, true, v) == h
  {
    WireRoundTrip(SaveFileMsg);
  }

  // ---------------------------------------------------------------------
  // Fullscreen

  /** A click on the frame's fullscreen button. */
  function ButtonClick(h: Host, v: Viewer, pane: Option<Offset>): (r: Host)
    ensures r.nav.fullscreen == !h.nav.fullscreen && r.nav.current == h.nav.current
    ensures r.nav.refreshes == h.nav.refreshes + 1
    ensures r.(nav := h.nav) == h
  {
    OnlyTheButtonToggles("", false);
    HandleMessage(h, ReadMessage(Text(WireText(FullscreenButtonMessage).value)), v, pane)
  }

  /** The window's `resize` listener: a viewport at most 200 pixels tall
      leaves fullscreen (and refreshes the preview); nothing else
      changes. */
  function Resize(h: Host, innerHeight: real): (r: Host)
    ensures innerHeight <= 200.0 ==> !r.nav.fullscreen
    ensures innerHeight > 200.0 || !h.nav.fullscreen ==> r == h
    ensures h.nav.fullscreen && innerHeight <= 200.0 ==>
      r == ButtonClick(h, Viewer("", ""), None).(grid := h.grid)
  {
    if h.nav.fullscreen && innerHeight <= 200.0 then
      OnlyTheButtonToggles("", false);
      h.(nav := Refresh(ToggleFullscreen(h.nav)))
    else
      h
  }

  /** Resizing twice to the same height is resizing once. */
  lemma ResizeIdempotent(h: Host, innerHeight: real)
    ensures Resize(Resize(h, innerHeight), innerHeight) == Resize(h, innerHeight)
  {
  }

  /** Two clicks on the fullscreen button come back to the starting mode
      and spread, with two preview refreshes. */
  lemma ButtonTwiceRestores(h: Host, v: Viewer, pane: Option<Offset>)
    ensures var r := ButtonClick(ButtonClick(h, v, pane), v, pane);
      r.nav.fullscreen == h.nav.fullscreen && r.nav.current == h.nav.current &&
      r.nav.refreshes == h.nav.refreshes + 2 && r.(nav := h.nav) == h
  {
    OnlyTheButtonToggles("", false);
  }

  /** Entering fullscreen re-renders the preview, and the frame's load
      handler builds a fresh button titled "Toggle fullscreen": the title
      the toggle gave it ("Exit fullscreen") does not survive the
      re-render. */
  lemma ReloadResetsButtonTitle(h: Host, v: Viewer, pane: Option<Offset>, held: set<PageId>)
    requires Consistent(h.nav) && !h.nav.fullscreen
    ensures var r := ButtonClick(h, v, pane);
      r.nav.fullscreen &&
      ToggleTitle(r.nav.fullscreen) == "Exit fullscreen" &&
      OnLoad(r.nav.current, held, true).buttonTitle == Some("Toggle fullscreen")
  {
    OnlyTheButtonToggles("", false);
  }

  // ---------------------------------------------------------------------
  // Edits and files

  /** The editor's update listener for a change of the document: the text
      is saved right away and a preview refresh is (re)scheduled for it. */
  function Edit(h: Host, text: string): (r: Host)
    ensures r.doc == text && r.pending == Some(text)
    ensures r.store == Storage.SaveToStorage(h.store, text)
    ensures r.nav == h.nav
  {
    h.(doc := text, store := Storage.SaveToStorage(h.store, text), pending := Some(text))
  }

  /** The scheduled refresh fires: one refresh if one is pending. */
  function TimerFires(h: Host): (r: Host)
    ensures h.pending.Some? ==> r.nav.refreshes == h.nav.refreshes + 1 && r.pending.None?
    ensures h.pending.None? ==> r == h
  {
    if h.pending.Some? then h.(nav := Refresh(h.nav), pending := None) else h
  }

  /** A burst of edits, one after the other. */
  function EditAll(h: Host, texts: seq<string>): Host
    decreases |texts|
  {
    if |texts| == 0 then h else EditAll(Edit(h, texts[0]), texts[1..])
  }

  /** However many edits come before the timer fires, the preview is
      refreshed once, and the document and the store hold the last one. */
  lemma {:induction false} EditsAreDebounced(h: Host, texts: seq<string>)
    requires |texts| > 0
    ensures var r := EditAll(h, texts);
      r.doc == texts[|texts| - 1] && r.pending == Some(texts[|texts| - 1]) &&
      r.nav == h.nav &&
      (!h.store.failing ==>
        Storage.StorageKey in r.store.items && r.store.items[Storage.StorageKey] == texts[|texts| - 1])
    ensures TimerFires(EditAll(h, texts)).nav.refreshes == h.nav.refreshes + 1
    decreases |texts|
  {
    var h1 := Edit(h, texts[0]);
    if |texts| > 1 {
      EditsAreDebounced(h1, texts[1..]);
      assert texts[1..][|texts[1..]| - 1] == texts[|texts| - 1];
    }
  }

  /** Work typed in one visit comes back when the editor is opened again
      with the same store, unless it is only whitespace, and the view
      settings come back unchanged. The editor's own text never holds a
      `\r`, so it comes back exactly. */
  lemma ReopenRestoresWork(h: Host, text: string)
    requires !h.store.failing && !Strings.IsBlank(text)
    ensures InitialHost(Edit(h, text).store).doc == Strings.NormalizeLineBreaks(text)
    ensures '\r' !in text ==> InitialHost(Edit(h, text).store).doc == text
    ensures InitialHost(Edit(h, text).store).settings == Storage.LoadEditorSettings(h.store)
  {
    Storage.ContentRoundTrip(h.store, text);
  }

  /** The editor replaces its whole document with `text`, normalising its
      line breaks. The update listener runs unless the change is empty,
      which happens only when both texts are empty. */
  function ReplaceDocument(h: Host, text: string): (r: Host)
    ensures |h.doc| == 0 && |text| == 0 ==> r == h
    ensures |h.doc| > 0 || |text| > 0 ==> r == Edit(h, Strings.NormalizeLineBreaks(text))
    ensures '\r' !in r.doc
  {
    if |h.doc| == 0 && |text| == 0 then h else Edit(h, Strings.NormalizeLineBreaks(text))
  }

  /** The file picker closes: a chosen file's text is dispatched into the
      editor, which normalises its line breaks and whose update listener
      saves the normalised text and re-arms the scheduled refresh for it;
      `loadFile` then saves the text as read over it, goes back to the front
      cover and refreshes the preview once itself; cancelling changes
      nothing. */
  function FileChosen(h: Host, file: Option<string>): (r: Host)
    requires Consistent(h.nav)
    ensures file.None? ==> r == h
    ensures file.Some? ==>
      r.doc == Strings.NormalizeLineBreaks(file.value) && r.nav.current == 0 && Consistent(r.nav) &&
      r.nav.refreshes == h.nav.refreshes + 1 &&
      r.store == Storage.SaveToStorage(h.store, file.value) &&
      r.downloads == h.downloads && r.settings == h.settings
    ensures file.Some? && (|h.doc| > 0 || |file.value| > 0) ==> r.pending == Some(Strings.NormalizeLineBreaks(file.value))
    ensures file.Some? && |h.doc| == 0 && |file.value| == 0 ==> r.pending == h.pending
  {
    match file
    case None => h
    case Some(text) =>
      var h1 := ReplaceDocument(h, text);
      Storage.LaterSaveWins(h.store, Strings.NormalizeLineBreaks(text), text);
      var s := FileOperations.LoadFile(FileOperations.Session(h1.doc, h1.store, h1.nav), file);
      h1.(doc := s.doc, store := s.store, nav := s.nav)
  }

  /** A loaded file is shown twice: once by `loadFile` directly and once
      more when the refresh its dispatch scheduled fires. */
  lemma LoadedFileRefreshesTwice(h: Host, text: string)
    requires Consistent(h.nav) && |text| > 0
    ensures TimerFires(FileChosen(h, Some(text))).nav.refreshes == h.nav.refreshes + 2
    ensures TimerFires(FileChosen(h, Some(text))).pending.None?
  {
  }

  /** Opening a file and then saving it saves the file's text with its
      line breaks normalised, which is the file's own text exactly when it
      holds no `\r`. */
  lemma OpenThenSave(h: Host, text: string)
    requires Consistent(h.nav)
    ensures Save(FileChosen(h, Some(text))).downloads ==
            h.downloads + [FileOperations.Download(Strings.NormalizeLineBreaks(text), FileOperations.DefaultFilename)]
    ensures Save(FileChosen(h, Some(text))).downloads[|h.downloads|].content == text <==> '\r' !in text
  {
  }
}

=== FILE: file_operations.dfy ===
/** Saving the editor's document, exporting it with the embedded viewer, and
    loading a file into the editor (resources/file-operations.js). The
    viewer's CSS and script text come from the viewer generator and are
    parameters here; the download itself is a value naming the file and its
    content. */
module FileOperations {
  import opened Wrappers
  import opened Strings
  import opened HtmlUtils
  import Storage
  import SpreadNavigation

  /** A file handed to the browser for download. */
  datatype Download = Download(content: string, filename: string)

  const DefaultFilename: string := "my-zine.html"

  /** `saveFile`: the document as it stands, under the default name. */
  function SaveFile(code: string): (r: Download)
    ensures r.content == code && r.filename == DefaultFilename
  {
    Download(code, DefaultFilename)
  }

  /** The export path is chosen by whether the document has both an opening
      `<head…>` tag and a `</head>`, in any case and in any order. */
  predicate HasHead(code: string) {
    HeadOpenMatch(code).Some? && CiFind(code, "</head>").Some?
  }

  /** The viewer stylesheet as inserted after the opening head tag. */
  function StyleTag(css: string): string {
    "\n<style id=\"zine-viewer-css\">" + css + "</style>"
  }

  /** The viewer script as inserted before the closing head tag. */
  function ScriptTag(js: string): string {
    "<script id=\"zine-viewer-js\">" + js + "</script>\n"
  }

  const WrapperPrefix: string := "<!DOCTYPE html>\n<html>\n<head>\n"
  const WrapperBodyOpen: string := "\n</head>\n<body>\n"
  const WrapperSuffix: string := "\n</body>\n</html>"

  /** The document built around code that has no usable head. */
  function Wrapped(code: string, css: string, js: string): string {
    WrapperPrefix + "<style id=\"zine-viewer-css\">" + css + "</style>\n" +
    "<script id=\"zine-viewer-js\">" + js + "</script>" + WrapperBodyOpen + code + WrapperSuffix
  }

  /** `saveFileWithViewer`: with a head, the stylesheet goes right after the
      opening tag (so the author's styles come later and win) and the script
      right before the closing tag; without one, the code is wrapped in a
      fresh document. */
  function ExportWithViewer(code: string, css: string, js: string): (r: Download)
    ensures r.filename == DefaultFilename
    ensures !HasHead(code) ==> r.content == Wrapped(code, css, js)
    ensures !HasHead(code) ==>
      StartsWith(r.content, WrapperPrefix) && EndsWith(r.content, WrapperBodyOpen + code + WrapperSuffix)
  {
    if HasHead(code) then
      Download(InsertBeforeHeadClose(InsertAfterHead(code, StyleTag(css)), ScriptTag(js)), DefaultFilename)
    else
      var w := Wrapped(code, css, js);
      var tail := WrapperBodyOpen + code + WrapperSuffix;
      assert w == (WrapperPrefix + "<style id=\"zine-viewer-css\">" + css + "</style>\n" +
                   "<script id=\"zine-viewer-js\">" + js + "</script>") + tail;
      Download(w, DefaultFilename)
  }

  /** No case-insensitive `</head>` can start inside `s`: every `<` in it is
      followed, within `s`, by something other than `/h`. */
  predicate NoCloseHeadStart(s: string) {
    forall o :: 0 <= o < |s| ==>
      s[o] != '<' || (o + 2 < |s| && (s[o + 1] != '/' || LowerChar(s[o + 2]) != 'h'))
  }

  /** The viewer stylesheet tag cannot start a `</head>` when the CSS has no
      `<` in it. */
  lemma StyleTagHasNoCloseHead(css: string)
    requires forall i :: 0 <= i < |css| ==> css[i] != '<'
    ensures NoCloseHeadStart(StyleTag(css))
  {
    var a := "\n<style id=\"zine-viewer-css\">";
    var b := "</style>";
    var s := StyleTag(css);
    assert s == a + css + b;
    forall o | 0 <= o < |s|
      ensures s[o] != '<' || (o + 2 < |s| && (s[o + 1] != '/' || LowerChar(s[o + 2]) != 'h'))
    {
      if o < |a| {
        assert s[o] == a[o];
        if o == 1 {
          assert s[2] == 's';
        }
      } else if o < |a| + |css| {
        assert s[o] == css[o - |a|];
      } else {
        assert s[o] == b[o - |a| - |css|];
        if o == |a| + |css| {
          assert s[o + 2] == b[2] == 's';
        }
      }
    }
  }

  /** Facts about a document with a `<head…>` tag ending at `e` and its first
      `</head>` at `q`. */
  predicate HeadTags(code: string, e: nat, q: nat) {
    HeadOpenMatch(code).Some? && e == HeadOpenMatch(code).value.end &&
    CiFind(code, "</head>") == Some(q)
  }

  lemma HeadTagsFacts(code: string, e: nat, q: nat)
    requires HeadTags(code, e, q)
    ensures 6 <= e <= |code| && code[e - 1] == '>'
    ensures q + 7 <= |code| && CiMatchAt(code, q, "</head>")
    ensures forall j :: 0 <= j < q ==> !CiMatchAt(code, j, "</head>")
  {
  }

  /** `p` is `code` with `s` spliced in at `e`, told by where each of its
      characters comes from. */
  predicate Spliced(p: string, code: string, s: string, e: nat) {
    e <= |code| && |p| == |code| + |s| &&
    p[..e] == code[..e] && p[e..e + |s|] == s && p[e + |s|..] == code[e..]
  }

  lemma SpliceParts(code: string, s: string, e: nat)
    requires e <= |code|
    ensures Spliced(code[..e] + s + code[e..], code, s, e)
  {
    var p := code[..e] + s + code[e..];
    assert p == (code[..e] + s) + code[e..];
  }

  /** No `</head>` in the spliced text starts before the opening tag's end:
      such a window is either the old text or crosses the tag's final `>`. */
  lemma NoCloseBeforeOpenEnd(p: string, code: string, s: string, e: nat, q: nat, j: nat)
    requires Spliced(p, code, s, e) && HeadTags(code, e, q) && e <= q && j < e
    ensures !CiMatchAt(p, j, "</head>")
  {
    HeadTagsFacts(code, e, q);
    if j + 7 <= e {
      assert p[j..j + 7] == p[..e][j..j + 7] == code[j..j + 7];
      SameWindow(p, j, code, j, "</head>");
    } else if j + 7 <= |p| {
      var k := e - 1 - j;
      assert p[j + k] == p[..e][e - 1] == '>';
      assert "</head>"[k] != '>';
      CiMismatch(p, j, "</head>", k);
    }
  }

  /** No `</head>` starts inside the inserted text. */
  lemma NoCloseInInsert(p: string, code: string, s: string, e: nat, j: nat)
    requires Spliced(p, code, s, e) && e <= j < e + |s| && NoCloseHeadStart(s)
    ensures !CiMatchAt(p, j, "</head>")
  {
    var o := j - e;
    assert p[j] == p[e..e + |s|][o] == s[o];
    assert s[o] != '<' || (o + 2 < |s| && (s[o + 1] != '/' || LowerChar(s[o + 2]) != 'h'));
    if s[o] != '<' {
      CiMismatch(p, j, "</head>", 0);
    } else if s[o + 1] != '/' {
      assert p[j + 1] == p[e..e + |s|][o + 1] == s[o + 1];
      CiMismatch(p, j, "</head>", 1);
    } else {
      assert p[j + 2] == p[e..e + |s|][o + 2] == s[o + 2];
      CiMismatch(p, j, "</head>", 2);
    }
  }

  /** Past the inserted text the windows are the old ones, shifted. */
  lemma ShiftedWindow(p: string, code: string, s: string, e: nat, j: nat)
    requires Spliced(p, code, s, e) && e + |s| <= j && j + 7 <= |p|
    ensures CiMatchAt(p, j, "</head>") <==> CiMatchAt(code, j - |s|, "</head>")
  {
    var d := j - e - |s|;
    assert p[j..j + 7] == p[e + |s|..][d..d + 7] == code[e..][d..d + 7] == code[j - |s|..j - |s| + 7];
    SameWindow(p, j, code, j - |s|, "</head>");
  }

  /** After the stylesheet goes in at the end of the opening tag, the first
      `</head>` is the old one, moved along by the inserted text. */
  lemma CloseTagAfterInsert(p: string, code: string, s: string, e: nat, q: nat)
    requires Spliced(p, code, s, e) && HeadTags(code, e, q) && e <= q && NoCloseHeadStart(s)
    ensures CiFind(p, "</head>") == Some(q + |s|)
  {
    ShiftedCloseMatches(p, code, s, e, q);
    NoCloseBeforeShifted(p, code, s, e, q);
    CiFindFromIs(p, "</head>", 0, q + |s|);
  }

  /** The old `</head>`, moved along by the inserted text, still matches. */
  lemma ShiftedCloseMatches(p: string, code: string, s: string, e: nat, q: nat)
    requires Spliced(p, code, s, e) && HeadTags(code, e, q) && e <= q
    ensures CiMatchAt(p, q + |s|, "</head>")
  {
    HeadTagsFacts(code, e, q);
    ShiftedWindow(p, code, s, e, q + |s|);
  }

  lemma NoCloseBeforeShifted(p: string, code: string, s: string, e: nat, q: nat)
    requires Spliced(p, code, s, e) && HeadTags(code, e, q) && e <= q && NoCloseHeadStart(s)
    ensures forall j :: 0 <= j < q + |s| ==> !CiMatchAt(p, j, "</head>")
  {
    forall j | 0 <= j < q + |s|
      ensures !CiMatchAt(p, j, "</head>")
    {
      NoEarlierClose(p, code, s, e, q, j);
    }
  }

  lemma NoEarlierClose(p: string, code: string, s: string, e: nat, q: nat, j: nat)
    requires Spliced(p, code, s, e) && HeadTags(code, e, q) && e <= q && NoCloseHeadStart(s)
    requires j < q + |s|
    ensures !CiMatchAt(p, j, "</head>")
  {
    if j < e {
      NoCloseBeforeOpenEnd(p, code, s, e, q, j);
    } else if j < e + |s| {
      NoCloseInInsert(p, code, s, e, j);
    } else if j + 7 <= |p| {
      HeadTagsFacts(code, e, q);
      ShiftedWindow(p, code, s, e, j);
    }
  }

  /** When the first `</head>` ends before the opening tag does, the
      stylesheet insertion leaves it where it was. */
  lemma CloseTagBeforeInsert(p: string, code: string, s: string, e: nat, q: nat)
    requires Spliced(p, code, s, e) && HeadTags(code, e, q) && q + 7 <= e
    ensures CiFind(p, "</head>") == Some(q)
  {
    HeadTagsFacts(code, e, q);
    var pat := "</head>";
    forall j | 0 <= j <= q
      ensures CiMatchAt(p, j, pat) <==> CiMatchAt(code, j, pat)
    {
      assert p[j..j + 7] == p[..e][j..j + 7] == code[j..j + 7];
      SameWindow(p, j, code, j, pat);
    }
    CiFindFromIs(p, pat, 0, q);
  }

  /** Splitting a spliced text at a point past the insertion. */
  lemma SplitAfterInsert(p: string, code: string, s: string, e: nat, q: nat)
    requires Spliced(p, code, s, e) && e <= q <= |code|
    ensures p[..q + |s|] == code[..e] + s + code[e..q] && p[q + |s|..] == code[q..]
  {
    assert p[..q + |s|] == p[..e] + p[e..e + |s|] + p[e + |s|..][..q - e];
    assert p[q + |s|..] == p[e + |s|..][q - e..];
  }

  /** Splitting a spliced text at a point before the insertion. */
  lemma SplitBeforeInsert(p: string, code: string, s: string, e: nat, q: nat)
    requires Spliced(p, code, s, e) && q <= e
    ensures p[..q] == code[..q] && p[q..] == code[q..e] + s + code[e..]
  {
    assert p[..q] == p[..e][..q];
    assert p[q..] == p[..e][q..] + p[e..e + |s|] + p[e + |s|..];
  }

  /** The export of a document whose head closes after it opens is the
      document itself with the stylesheet spliced in right after the opening
      tag and the script right before the closing one, for any stylesheet
      without a `<`. */
  lemma ViewerExportSplices(code: string, css: string, js: string)
    requires HasHead(code)
    requires HeadOpenMatch(code).value.end <= CiFind(code, "</head>").value
    requires forall i :: 0 <= i < |css| ==> css[i] != '<'
    ensures var e := HeadOpenMatch(code).value.end;
      var q := CiFind(code, "</head>").value;
      e <= q <= |code| &&
      ExportWithViewer(code, css, js).content ==
        code[..e] + StyleTag(css) + code[e..q] + ScriptTag(js) + code[q..]
  {
    StyleTagHasNoCloseHead(css);
    BothInsertionsInOrder(code, StyleTag(css), ScriptTag(js));
  }

  lemma BothInsertionsInOrder(code: string, s: string, t: string)
    requires HasHead(code) && NoCloseHeadStart(s)
    requires HeadOpenMatch(code).value.end <= CiFind(code, "</head>").value
    ensures var e := HeadOpenMatch(code).value.end;
      var q := CiFind(code, "</head>").value;
      e <= q <= |code| &&
      InsertBeforeHeadClose(InsertAfterHead(code, s), t) == code[..e] + s + code[e..q] + t + code[q..]
  {
    var e := HeadOpenMatch(code).value.end;
    var q := CiFind(code, "</head>").value;
    AfterHeadSpliced(code, s);
    InsertionsCompose(code, s, t, e, q, InsertAfterHead(code, s));
  }

  /** With the stylesheet spliced in at `e`, the script goes in before the
      old first `</head>`, now at `q + |s|`. */
  lemma InsertionsCompose(code: string, s: string, t: string, e: nat, q: nat, p: string)
    requires Spliced(p, code, s, e) && HeadTags(code, e, q) && e <= q && NoCloseHeadStart(s)
    ensures q <= |code| && InsertBeforeHeadClose(p, t) == code[..e] + s + code[e..q] + t + code[q..]
  {
    HeadTagsFacts(code, e, q);
    var a, b := p[..q + |s|], p[q + |s|..];
    assert InsertBeforeHeadClose(p, t) == a + t + b by {
      CloseTagAfterInsert(p, code, s, e, q);
    }
    assert a == code[..e] + s + code[e..q] && b == code[q..] by {
      SplitAfterInsert(p, code, s, e, q);
    }
  }

  /** The stylesheet insertion, as a splice at the opening tag's end. */
  lemma AfterHeadSpliced(code: string, s: string)
    requires HasHead(code)
    ensures var e := HeadOpenMatch(code).value.end;
      HeadTags(code, e, CiFind(code, "</head>").value) &&
      Spliced(InsertAfterHead(code, s), code, s, e)
  {
    var e := HeadOpenMatch(code).value.end;
    SpliceParts(code, s, e);
  }

  /** When the first `</head>` comes before the opening tag ends, the script
      lands at that earlier `</head>`, ahead of the stylesheet. */
  lemma ViewerExportCloseFirst(code: string, css: string, js: string)
    requires HasHead(code)
    requires CiFind(code, "</head>").value + 7 <= HeadOpenMatch(code).value.end
    ensures var e := HeadOpenMatch(code).value.end;
      var q := CiFind(code, "</head>").value;
      q <= e <= |code| &&
      ExportWithViewer(code, css, js).content ==
        code[..q] + ScriptTag(js) + code[q..e] + StyleTag(css) + code[e..]
  {
    var e := HeadOpenMatch(code).value.end;
    var q := CiFind(code, "</head>").value;
    var s := StyleTag(css);
    var t := ScriptTag(js);
    var p := InsertAfterHead(code, s);
    AfterHeadSpliced(code, s);
    CloseTagBeforeInsert(p, code, s, e, q);
    SplitBeforeInsert(p, code, s, e, q);
    assert ExportWithViewer(code, css, js).content == p[..q] + t + p[q..];
    assert p[..q] + t + p[q..] == code[..q] + t + (code[q..e] + s + code[e..]);
  }

  /** The editor session that loading a file acts on: the document, the
      store and the navigation state. */
  datatype Session = Session(doc: string, store: Storage.Store, nav: SpreadNavigation.Nav)

  /** `loadFile` once the picker closes: no file leaves everything alone; a
      file's text replaces the document, with its line breaks normalised by
      the editor, the text as read is saved, and the preview goes back to
      the front cover and is refreshed once, directly. The refresh the
      editor's update listener schedules for the same edit is the host's
      (`Editor.FileChosen`). */
  function LoadFile(s: Session, file: Option<string>): (r: Session)
    requires SpreadNavigation.Consistent(s.nav)
    ensures file.None? ==> r == s
    ensures file.Some? ==>
      r.doc == NormalizeLineBreaks(file.value) && r.store == Storage.SaveToStorage(s.store, file.value) &&
      r.nav.current == 0 && SpreadNavigation.Consistent(r.nav) &&
      r.nav.refreshes == s.nav.refreshes + 1 &&
      r.nav.fullscreen == s.nav.fullscreen && r.nav.toggleTitle == s.nav.toggleTitle
  {
    match file
    case None => s
    case Some(text) =>
      var nav := SpreadNavigation.SetCurrentSpread(s.nav, 0);
      var shown := SpreadNavigation.UpdateSpreadIndicator(nav).value;
      Session(NormalizeLineBreaks(text), Storage.SaveToStorage(s.store, text), shown.(refreshes := shown.refreshes + 1))
  }

  /** A loaded file survives a reload of the editor: it is the content the
      store gives back, unless it is only whitespace or the store fails. */
  lemma LoadedFilePersists(s: Session, text: string)
    requires SpreadNavigation.Consistent(s.nav) && !s.store.failing && !IsBlank(text)
    ensures Storage.LoadContent(LoadFile(s, Some(text)).store).content == text
  {
    Storage.ContentRoundTrip(s.store, text);
  }
}

=== FILE: font_registry.dfy ===
/** The bundled fonts (resources/font-registry.js): the table of font files,
    the `@font-face` rules generated from it, and the list of family names
    offered to authors. */
module FontRegistry {
  import opened Strings

  datatype FontEntry = FontEntry(family: string, file: string, weight: nat, style: string)

  /** `FONT_ENTRIES`, in source order. */
  const FontEntries: seq<FontEntry> := [
    FontEntry("Baskervville", "resources/fonts/baskervvile/Baskervville-Regular.ttf", 400, "normal"),
    FontEntry("Baskervville", "resources/fonts/baskervvile/Baskervville-Italic.ttf", 400, "italic"),
    FontEntry("Baskervville", "resources/fonts/baskervvile/Baskervville-Bold.ttf", 700, "normal"),
    FontEntry("Baskervville", "resources/fonts/baskervvile/Baskervville-BoldItalic.ttf", 700, "italic"),
    FontEntry("Baskervville SemiBold", "resources/fonts/baskervvile/Baskervville-SemiBold.ttf", 600, "normal"),
    FontEntry("Baskervville SemiBold", "resources/fonts/baskervvile/Baskervville-SemiBoldItalic.ttf", 600, "italic"),
    FontEntry("Basteleur Bold", "resources/fonts/basteleur-master/Basteleur-Bold.ttf", 700, "normal"),
    FontEntry("Basteleur Moonlight", "resources/fonts/basteleur-master/Basteleur-Moonlight.ttf", 400, "normal"),
    FontEntry("Cut Me Out 2", "resources/fonts/CutMeOut/CutMeOut2.ttf", 400, "normal"),
    FontEntry("Elb-Tunnel", "resources/fonts/ElbtunnelTT/Elb-Tunnel.ttf", 400, "normal"),
    FontEntry("Elb-Tunnel Schatten", "resources/fonts/ElbtunnelTT/Elb-Tunnel Schatten.ttf", 400, "normal"),
    FontEntry("Eureka", "resources/fonts/Eureka/Eureka.ttf", 400, "normal"),
    FontEntry("Indira K", "resources/fonts/Indira_K/Indira_K.ttf", 400, "normal"),
    FontEntry("Instrument Serif", "resources/fonts/Instrument_Serif/InstrumentSerif-Regular.ttf", 400, "normal"),
    FontEntry("Instrument Serif", "resources/fonts/Instrument_Serif/InstrumentSerif-Italic.ttf", 400, "italic"),
    FontEntry("Kanalisirung", "resources/fonts/Kanalisirung/Kanalisirung.otf", 400, "normal"),
    FontEntry("Karrik", "resources/fonts/karrik_fonts-main/Karrik-Regular.ttf", 400, "normal"),
    FontEntry("Karrik", "resources/fonts/karrik_fonts-main/Karrik-Italic.ttf", 400, "italic"),
    FontEntry("Mon Hugo", "resources/fonts/Mon_Hugo_freefont/MonHugo-in.ttf", 400, "normal"),
    FontEntry("Mon Hugo Out", "resources/fonts/Mon_Hugo_freefont/MonHugo-out.ttf", 400, "normal"),
    FontEntry("Murrx", "resources/fonts/Murrx/Murrx.ttf", 400, "normal"),
    FontEntry("Neo-castel", "resources/fonts/N\U{00E9}o-castel/webfont/Neo-castel.woff2", 400, "normal"),
    FontEntry("Ouest", "resources/fonts/OUEST/Ouest-Regular.ttf", 400, "normal"),
    FontEntry("Resistance", "resources/fonts/resistance-generale-master/Resistance g\U{00E9}n\U{00E9}rale.otf", 400, "normal"),
    FontEntry("Special Gothic Expanded One", "resources/fonts/Special_Gothic_Expanded_One/SpecialGothicExpandedOne-Regular.ttf", 400, "normal")
  ]

  /** No file name ends in two of the extensions the hint looks for, so
      the order in which they are tested does not matter. */
  lemma ExtensionsExclusive(file: string)
    ensures !(EndsWith(file, ".woff2") && EndsWith(file, ".woff"))
    ensures !(EndsWith(file, ".woff2") && EndsWith(file, ".otf"))
    ensures !(EndsWith(file, ".woff") && EndsWith(file, ".otf"))
  {
    if EndsWith(file, ".woff2") {
      assert file[|file| - 1] == '2';
    }
    if EndsWith(file, ".woff") {
      assert file[|file| - 2] == 'f';
    }
  }

  /** The `format()` hint for a font file: each of the three web and
      OpenType extensions names its own format, and every other file is
      taken for TrueType. */
  function FormatName(file: string): (r: string)
    ensures r == "woff2" <==> EndsWith(file, ".woff2")
    ensures r == "woff" <==> EndsWith(file, ".woff")
    ensures r == "opentype" <==> EndsWith(file, ".otf")
    ensures r == "truetype" <==>
      !EndsWith(file, ".woff2") && !EndsWith(file, ".woff") && !EndsWith(file, ".otf")
  {
    ExtensionsExclusive(file);
    if EndsWith(file, ".woff2") then "woff2"
    else if EndsWith(file, ".woff") then "woff"
    else if EndsWith(file, ".otf") then "opentype"
    else "truetype"
  }

  /** `formatForCSS`: the file's path inside `url('…')`, exactly as
      written, followed by its format hint. */
  function FormatForCss(file: string): (r: string)
    ensures StartsWith(r, "url('" + file + "')")
    ensures EndsWith(r, " format('" + FormatName(file) + "')")
    ensures |r| == |file| + |FormatName(file)| + 18
  {
    var u := "url('" + file + "')";
    var f := " format('" + FormatName(file) + "')";
    Framed(u, "", f);
    assert u + "" + f == u + f;
    u + f
  }

  /** One `@font-face` rule: the family and source first, the weight in
      decimal between, the style and the `swap` display last, the whole in
      braces. */
  function FontFaceBlock(e: FontEntry): (r: string)
    ensures StartsWith(r, "@font-face {\n\tfont-family: '" + e.family + "';\n\tsrc: " + FormatForCss(e.file) + ";")
    ensures EndsWith(r, "\n\tfont-style: " + e.style + ";\n\tfont-display: swap;\n}")
    ensures var h := |"@font-face {\n\tfont-family: '" + e.family + "';\n\tsrc: " + FormatForCss(e.file) + ";"|;
            var t := |"\n\tfont-style: " + e.style + ";\n\tfont-display: swap;\n}"|;
            h + t <= |r| && r[h..|r| - t] == "\n\tfont-weight: " + NatText(e.weight) + ";"
  {
    var head := "@font-face {\n\tfont-family: '" + e.family + "';\n\tsrc: " + FormatForCss(e.file) + ";";
    var tail := "\n\tfont-style: " + e.style + ";\n\tfont-display: swap;\n}";
    Framed(head, "\n\tfont-weight: " + NatText(e.weight) + ";", tail);
    head + ("\n\tfont-weight: " + NatText(e.weight) + ";") + tail
  }

  /** A text framed by a head and a tail starts with the head and ends
      with the tail. */
  lemma Framed(head: string, mid: string, tail: string)
    ensures StartsWith(head + mid + tail, head) && EndsWith(head + mid + tail, tail)
  {
    assert (head + mid + tail)[..|head|] == head;
    assert (head + mid + tail)[|head + mid + tail| - |tail|..] == tail;
  }

  /** The rules for a list of entries, one per entry, in order. */
  function Blocks(entries: seq<FontEntry>): (r: seq<string>)
    ensures |r| == |entries|
    ensures forall i :: 0 <= i < |entries| ==> r[i] == FontFaceBlock(entries[i])
  {
    seq(|entries|, i requires 0 <= i < |entries| => FontFaceBlock(entries[i]))
  }

  /** `generateFontFaceCSS` over a list of entries: empty exactly when
      there are no entries, and the first entry's rule comes first. */
  function FontFaceCss(entries: seq<FontEntry>): (r: string)
    ensures r == "" <==> |entries| == 0
    ensures |entries| > 0 ==> StartsWith(r, FontFaceBlock(entries[0]))
  {
    Join(Blocks(entries), "\n")
  }

  /** The generated CSS grows one rule at a time: a new entry adds a line
      break and its own rule after the rules already there, and the first
      entry's rule is the whole text. */
  lemma FontFaceCssAppend(entries: seq<FontEntry>, e: FontEntry)
    ensures |entries| == 0 ==> FontFaceCss(entries + [e]) == FontFaceBlock(e)
    ensures |entries| > 0 ==>
      FontFaceCss(entries + [e]) == FontFaceCss(entries) + "\n" + FontFaceBlock(e)
  {
    assert Blocks(entries + [e]) == Blocks(entries) + [FontFaceBlock(e)];
    JoinAppend(Blocks(entries), FontFaceBlock(e), "\n");
  }

  /** The family names of a list of entries, in order. */
  function Families(entries: seq<FontEntry>): (r: seq<string>)
    ensures |r| == |entries|
    ensures forall i :: 0 <= i < |entries| ==> r[i] == entries[i].family
  {
    seq(|entries|, i requires 0 <= i < |entries| => entries[i].family)
  }

  /** The index of the first occurrence of `x` in `xs`. */
  function FirstIndex<T(==)>(xs: seq<T>, x: T): (k: nat)
    requires x in xs
    ensures k < |xs| && xs[k] == x && forall j :: 0 <= j < k ==> xs[j] != x
  {
    if xs[0] == x then 0 else 1 + FirstIndex(xs[1..], x)
  }

  /** `[...new Set(xs)]` for the items not already in `seen`: each item
      kept once, at its first occurrence. */
  function DedupFrom<T(==)>(xs: seq<T>, seen: set<T>): seq<T>
    decreases |xs|
  {
    if |xs| == 0 then []
    else if xs[0] in seen then DedupFrom(xs[1..], seen)
    else [xs[0]] + DedupFrom(xs[1..], seen + {xs[0]})
  }

  predicate NoDuplicates<T(==)>(r: seq<T>) {
    forall i, j :: 0 <= i < j < |r| ==> r[i] != r[j]
  }

  lemma TailMembers<T>(xs: seq<T>)
    requires |xs| > 0
    ensures forall x :: x in xs <==> x == xs[0] || x in xs[1..]
  {
    assert xs == [xs[0]] + xs[1..];
  }

  /** What `DedupFrom` keeps: every item of `xs` outside `seen`, and
      nothing else. */
  lemma {:induction false} DedupFromMembers<T>(xs: seq<T>, seen: set<T>)
    ensures forall x :: x in DedupFrom(xs, seen) ==> x in xs && x !in seen
    ensures forall x :: x in xs && x !in seen ==> x in DedupFrom(xs, seen)
    decreases |xs|
  {
    if |xs| > 0 {
      TailMembers(xs);
      if xs[0] in seen {
        DedupFromMembers(xs[1..], seen);
      } else {
        DedupFromMembers(xs[1..], seen + {xs[0]});
      }
    }
  }

  /** `DedupFrom` keeps each item once. */
  lemma {:induction false} DedupFromNoDuplicates<T>(xs: seq<T>, seen: set<T>)
    ensures NoDuplicates(DedupFrom(xs, seen))
    decreases |xs|
  {
    if |xs| > 0 {
      if xs[0] in seen {
        DedupFromNoDuplicates(xs[1..], seen);
      } else {
        var rest := DedupFrom(xs[1..], seen + {xs[0]});
        DedupFromNoDuplicates(xs[1..], seen + {xs[0]});
        DedupFromMembers(xs[1..], seen + {xs[0]});
        assert xs[0] !in rest;
      }
    }
  }

  /** `r` lists items of `xs` in the order of their first occurrence. */
  predicate InFirstOccurrenceOrder<T(==)>(xs: seq<T>, r: seq<T>) {
    forall i, j :: 0 <= i < j < |r| ==> r[i] in xs && r[j] in xs && FirstIndex(xs, r[i]) < FirstIndex(xs, r[j])
  }

  /** Items of the tail other than the head keep their order when the head
      is put back, and the head can go in front of them. */
  lemma OrderCons<T>(xs: seq<T>, rest: seq<T>, withHead: bool)
    requires |xs| > 0
    requires forall x :: x in rest ==> x in xs[1..] && x != xs[0]
    requires InFirstOccurrenceOrder(xs[1..], rest)
    ensures InFirstOccurrenceOrder(xs, if withHead then [xs[0]] + rest else rest)
  {
    TailMembers(xs);
    var r := if withHead then [xs[0]] + rest else rest;
    forall i, j | 0 <= i < j < |r|
      ensures r[i] in xs && r[j] in xs && FirstIndex(xs, r[i]) < FirstIndex(xs, r[j])
    {
      if withHead {
        assert r[j] == rest[j - 1] && r[j] in rest;
        if i > 0 {
          assert r[i] == rest[i - 1] && r[i] in rest;
        }
      } else {
        assert r[i] in rest && r[j] in rest;
      }
    }
  }

  /** `DedupFrom` keeps the items in the order of their first
      occurrence. */
  lemma {:induction false} DedupFromOrder<T>(xs: seq<T>, seen: set<T>)
    ensures InFirstOccurrenceOrder(xs, DedupFrom(xs, seen))
    decreases |xs|
  {
    if |xs| > 0 {
      var tail := xs[1..];
      var seen1 := if xs[0] in seen then seen else seen + {xs[0]};
      var rest := DedupFrom(tail, seen1);
      DedupFromOrder(tail, seen1);
      DedupFromMembers(tail, seen1);
      OrderCons(xs, rest, xs[0] !in seen);
    }
  }

  /** `getAvailableFontFamilies` as a loop that remembers the names it has
      already emitted. */
  method AvailableFontFamilies(entries: seq<FontEntry>) returns (r: seq<string>)
    ensures r == DedupFrom(Families(entries), {})
    ensures forall f :: f in r <==> exists i :: 0 <= i < |entries| && entries[i].family == f
    ensures NoDuplicates(r)
    ensures InFirstOccurrenceOrder(Families(entries), r)
  {
    var xs := Families(entries);
    var seen: set<string> := {};
    r := [];
    var i := 0;
    while i < |xs|
      invariant 0 <= i <= |xs|
      invariant forall x :: x in seen <==> x in r
      invariant r + DedupFrom(xs[i..], seen) == DedupFrom(xs, {})
      decreases |xs| - i
    {
      assert xs[i..][1..] == xs[i + 1..];
      if xs[i] !in seen {
        assert r + DedupFrom(xs[i..], seen) == (r + [xs[i]]) + DedupFrom(xs[i + 1..], seen + {xs[i]});
        r := r + [xs[i]];
        seen := seen + {xs[i]};
      }
      i := i + 1;
    }
    assert xs[i..] == [];
    FamilyListFacts(entries);
  }

  /** The de-duplicated family list names exactly the entries' families,
      each once, in order of first occurrence. */
  lemma FamilyListFacts(entries: seq<FontEntry>)
    ensures var r := DedupFrom(Families(entries), {});
      (forall f :: f in r <==> exists i :: 0 <= i < |entries| && entries[i].family == f) &&
      NoDuplicates(r) && InFirstOccurrenceOrder(Families(entries), r)
  {
    var xs := Families(entries);
    var r := DedupFrom(xs, {});
    DedupFromMembers(xs, {});
    DedupFromNoDuplicates(xs, {});
    DedupFromOrder(xs, {});
    forall f | f in r
      ensures exists i :: 0 <= i < |entries| && entries[i].family == f
    {
      var k := FirstIndex(xs, f);
      assert entries[k].family == f;
    }
  }
}

=== FILE: html_utils.dfy ===
/** String surgery on the editor's HTML and the host page's title and icon
    (resources/html-utils.js). */
module HtmlUtils {
  import opened Wrappers
  import opened Strings

  /** The first `>` at or after index `i`. */
  function GtFrom(s: string, i: nat): (r: Option<nat>)
    ensures r.Some? ==> i <= r.value < |s| && s[r.value] == '>'
    ensures r.Some? ==> forall j :: i <= j < r.value ==> s[j] != '>'
    ensures r.None? ==> forall j :: i <= j < |s| ==> s[j] != '>'
    decreases |s| - i
  {
    if i >= |s| then None
    else if s[i] == '>' then Some(i)
    else GtFrom(s, i + 1)
  }

  /** A `>` with none before it from `i` on is what `GtFrom` finds. */
  lemma {:induction false} GtFromIs(s: string, i: nat, q: nat)
    requires i <= q < |s| && s[q] == '>'
    requires forall j :: i <= j < q ==> s[j] != '>'
    ensures GtFrom(s, i) == Some(q)
    decreases q - i
  {
    if i < q {
      GtFromIs(s, i + 1, q);
    }
  }

  /** `/<head[^>]*>/i` matches at `p`: `<head` in any case, then everything
      up to the first `>`. `[^>]*` cannot run past a `>`, so the match at
      `p`, when there is one, ends at that first `>`. */
  predicate HeadOpenAt(s: string, p: int) {
    CiMatchAt(s, p, "<head") && GtFrom(s, p + 5).Some?
  }

  /** A stretch `s[start..end]` of a string. */
  datatype Span = Span(start: nat, end: nat)

  /** The leftmost match of `/<head[^>]*>/i` starting at or after `i`. */
  function FindHeadOpenFrom(s: string, i: nat): (r: Option<Span>)
    ensures r.Some? ==> i <= r.value.start && HeadOpenAt(s, r.value.start)
    ensures r.Some? ==> r.value.end == GtFrom(s, r.value.start + 5).value + 1
    ensures r.Some? ==> forall j :: i <= j < r.value.start ==> !HeadOpenAt(s, j)
    ensures r.None? ==> forall j :: i <= j ==> !HeadOpenAt(s, j)
    decreases |s| - i
  {
    if i + 5 > |s| then None
    else if HeadOpenAt(s, i) then Some(Span(i, GtFrom(s, i + 5).value + 1))
    else FindHeadOpenFrom(s, i + 1)
  }

  /** `html.match(/<head[^>]*>/i)`. */
  function HeadOpenMatch(s: string): Option<Span> {
    FindHeadOpenFrom(s, 0)
  }

  /** An exact copy `t` of the text of a match is itself a match wherever it
      occurs. */
  lemma CopyOfHeadOpen(s: string, p: nat, e: nat, t: string)
    requires HeadOpenAt(s, p) && e == GtFrom(s, p + 5).value + 1 && t == s[p..e]
    ensures forall j :: OccursAt(s, t, j) ==> HeadOpenAt(s, j)
  {
    forall j | OccursAt(s, t, j)
      ensures HeadOpenAt(s, j)
    {
      forall k | 0 <= k < |t|
        ensures t[k] == s[j + k] && t[k] == s[p + k]
      {
        assert s[j + k] == s[j..j + |t|][k];
      }
      assert s[j..j + 5] == t[..5] == s[p..p + 5];
      assert CiMatchAt(s, j, "<head");
      forall x | j + 5 <= x < j + |t| - 1
        ensures s[x] != '>'
      {
        assert s[x] == t[x - j] == s[p + (x - j)];
      }
      assert s[j + |t| - 1] == t[|t| - 1] == s[e - 1];
      GtFromIs(s, j + 5, j + |t| - 1);
    }
  }

  /** `indexOf` of the matched text finds the match itself: no exact copy of
      it starts earlier. */
  lemma IndexOfHeadOpenMatch(s: string)
    requires HeadOpenMatch(s).Some?
    ensures var m := HeadOpenMatch(s).value;
      m.start <= m.end <= |s| && IndexOf(s, s[m.start..m.end]) == m.start
  {
    var m := HeadOpenMatch(s).value;
    var t := s[m.start..m.end];
    CopyOfHeadOpen(s, m.start, m.end, t);
    IndexOfIsFirst(s, t, m.start);
  }

  /** `insertAfterHead`: when `html` has a `<head…>` tag, `content` goes right
      after the first one (found by searching for the matched text again);
      otherwise `html` comes back unchanged. */
  function InsertAfterHead(html: string, content: string): (r: string)
    ensures HeadOpenMatch(html).None? ==> r == html
    ensures HeadOpenMatch(html).Some? ==>
      var e := HeadOpenMatch(html).value.end;
      e <= |html| && r == html[..e] + content + html[e..]
  {
    match HeadOpenMatch(html)
    case None => html
    case Some(m) =>
      IndexOfHeadOpenMatch(html);
      var text := html[m.start..m.end];
      var pos := IndexOf(html, text) + |text|;
      html[..pos] + content + html[pos..]
  }

  /** `insertBeforeHeadClose`: when `html` has a `</head>` in any case,
      `content` goes right before the first one; otherwise `html` comes back
      unchanged. */
  function InsertBeforeHeadClose(html: string, content: string): (r: string)
    ensures CiFind(html, "</head>").None? ==> r == html
    ensures CiFind(html, "</head>").Some? ==>
      var q := CiFind(html, "</head>").value;
      q <= |html| && r == html[..q] + content + html[q..]
  {
    match CiFind(html, "</head>")
    case None => html
    case Some(q) =>
      IndexOfFirstCiMatch(html, "</head>");
      var pos := IndexOf(html, html[q..q + 7]);
      html[..pos] + content + html[pos..]
  }

  /** Both insertions keep `html` whole: the result is `html` with `content`
      spliced in once at the insertion point, or `html` itself. */
  lemma InsertionsSplice(html: string, content: string)
    ensures var r := InsertAfterHead(html, content);
      |r| == |html| + (if HeadOpenMatch(html).Some? then |content| else 0)
    ensures var r := InsertBeforeHeadClose(html, content);
      |r| == |html| + (if CiFind(html, "</head>").Some? then |content| else 0)
    ensures InsertAfterHead(html, "") == html && InsertBeforeHeadClose(html, "") == html
  {
    if HeadOpenMatch(html).Some? {
      var e := HeadOpenMatch(html).value.end;
      assert html[..e] + "" + html[e..] == html;
    }
    if CiFind(html, "</head>").Some? {
      var q := CiFind(html, "</head>").value;
      assert html[..q] + "" + html[q..] == html;
    }
  }

  /** The pattern has no word boundary, so a `<header>` before the document
      head takes the insertion. */
  lemma HeaderTagMatches()
    ensures InsertAfterHead("<header><head>", "X") == "<header>X<head>"
  {
    var s := "<header><head>";
    assert CiMatchAt(s, 0, "<head");
    GtFromIs(s, 5, 7);
    assert HeadOpenAt(s, 0);
    assert HeadOpenMatch(s) == Some(Span(0, 8));
    assert InsertAfterHead(s, "X") == s[..8] + "X" + s[8..];
    assert s[..8] == "<header>" && s[8..] == "<head>";
  }

  /** A `<link>` element of the editor's document: its `rel` and `href`
      attributes (None when absent). */
  datatype Link = Link(rel: string, href: Option<string>)

  /** The parts of the parsed editor document that `extractTitleAndFavicon`
      reads: the text of each `<title>` element and each `<link>`, in
      document order. */
  datatype ParsedDoc = ParsedDoc(titles: seq<string>, links: seq<Link>)

  /** The `rel` values tried for the icon, in priority order. */
  const FaviconRels: seq<string> := ["icon", "shortcut icon", "apple-touch-icon"]

  /** `querySelector('link[rel="…"]')`: the first link whose `rel` equals
      `rel`; HTML compares `rel` in attribute selectors ignoring ASCII case. */
  function FirstLinkWithRel(links: seq<Link>, rel: string): (r: Option<Link>)
    ensures r.Some? ==> r.value in links && Lower(r.value.rel) == rel
    ensures r.None? ==> forall l :: l in links ==> Lower(l.rel) != rel
    decreases |links|
  {
    if |links| == 0 then None
    else if Lower(links[0].rel) == rel then Some(links[0])
    else FirstLinkWithRel(links[1..], rel)
  }

  /** The selected link for `rel` has an `href` that is not empty. */
  predicate Usable(links: seq<Link>, rel: string) {
    var l := FirstLinkWithRel(links, rel);
    l.Some? && l.value.href.Some? && l.value.href.value != ""
  }

  function UsableHref(links: seq<Link>, rel: string): string
    requires Usable(links, rel)
  {
    FirstLinkWithRel(links, rel).value.href.value
  }

  /** The favicon loop from selector `k` on: the first selector whose element
      exists and has a non-empty `href` gives the icon. */
  function FaviconFrom(links: seq<Link>, k: nat): (r: Option<string>)
    requires k <= |FaviconRels|
    ensures r.Some? <==> exists i :: k <= i < |FaviconRels| && Usable(links, FaviconRels[i])
    ensures r.Some? ==> exists i :: k <= i < |FaviconRels| && Usable(links, FaviconRels[i]) &&
                                   r.value == UsableHref(links, FaviconRels[i]) &&
                                   forall i' :: k <= i' < i ==> !Usable(links, FaviconRels[i'])
    decreases |FaviconRels| - k
  {
    if k == |FaviconRels| then None
    else if Usable(links, FaviconRels[k]) then Some(UsableHref(links, FaviconRels[k]))
    else FaviconFrom(links, k + 1)
  }

  /** What `extractTitleAndFavicon` returns. */
  datatype TitleAndFavicon = TitleAndFavicon(title: Option<string>, favicon: Option<string>)

  /** `extractTitleAndFavicon`: the first title's text, trimmed, and the
      first usable icon. */
  function ExtractTitleAndFavicon(doc: ParsedDoc): (r: TitleAndFavicon)
    ensures r.title.Some? <==> |doc.titles| > 0
    ensures r.title.Some? ==> r.title.value == Trim(doc.titles[0])
  {
    TitleAndFavicon(if |doc.titles| > 0 then Some(Trim(doc.titles[0])) else None, FaviconFrom(doc.links, 0))
  }

  /** The icon priority: an `icon` link wins whenever it has an `href`; a
      `shortcut icon` only when no usable `icon` exists; an
      `apple-touch-icon` only when neither does; with none of the three
      usable there is no icon. */
  lemma FaviconPriority(doc: ParsedDoc)
    ensures var f := ExtractTitleAndFavicon(doc).favicon;
      (Usable(doc.links, "icon") ==> f == Some(UsableHref(doc.links, "icon"))) &&
      (!Usable(doc.links, "icon") && Usable(doc.links, "shortcut icon") ==>
        f == Some(UsableHref(doc.links, "shortcut icon"))) &&
      ((!Usable(doc.links, "icon") && !Usable(doc.links, "shortcut icon") &&
        Usable(doc.links, "apple-touch-icon")) ==> f == Some(UsableHref(doc.links, "apple-touch-icon"))) &&
      ((!Usable(doc.links, "icon") && !Usable(doc.links, "shortcut icon") &&
        !Usable(doc.links, "apple-touch-icon")) ==> f.None?)
  {
    assert FaviconRels[0] == "icon" && FaviconRels[1] == "shortcut icon" && FaviconRels[2] == "apple-touch-icon";
  }

  /** The selector takes the first `icon` link only: when it has no `href`,
      a later `icon` link with one is not consulted. */
  lemma FirstIconLinkDecides()
    ensures ExtractTitleAndFavicon(ParsedDoc([], [Link("icon", None), Link("icon", Some("a.png"))])).favicon.None?
  {
    var links := [Link("icon", None), Link("icon", Some("a.png"))];
    assert Lower("icon") == "icon";
    assert FirstLinkWithRel(links, "icon") == Some(Link("icon", None));
    assert Lower("icon") != "shortcut icon" && Lower("icon") != "apple-touch-icon";
    assert FirstLinkWithRel(links, "shortcut icon") == None;
    assert FirstLinkWithRel(links, "apple-touch-icon") == None;
  }

  /** The host page's title and the `href` of its icon link (None while the
      page has no `link[rel="icon"]`). */
  datatype HostHead = HostHead(title: string, iconHref: Option<string>)

  const DefaultTitle: string := "zine.html"

  /** The printer emoji drawn as an SVG data URL. */
  const DefaultFavicon: string :=
    "data:image/svg+xml,<svg xmlns=%22http://www.w3.org/2000/svg%22 viewBox=%220 0 100 100%22><text y=%22.9em%22 font-size=%2290%22>\U{1F5A8}\U{FE0F}</text></svg>"

  /** `updateMainPageTitleAndFavicon`: an empty or missing title falls back
      to `zine.html`, an empty or missing icon to the printer emoji; the icon
      link is created when the page has none. */
  function UpdateMainPageTitleAndFavicon(h: HostHead, title: Option<string>, favicon: Option<string>): (r: HostHead)
    ensures title.Some? && title.value != "" ==> r.title == title.value
    ensures !(title.Some? && title.value != "") ==> r.title == DefaultTitle
    ensures r.iconHref.Some?
    ensures favicon.Some? && favicon.value != "" ==> r.iconHref.value == favicon.value
    ensures !(favicon.Some? && favicon.value != "") ==> r.iconHref.value == DefaultFavicon
  {
    HostHead(
      if title.Some? && title.value != "" then title.value else DefaultTitle,
      Some(if favicon.Some? && favicon.value != "" then favicon.value else DefaultFavicon))
  }

  /** A document whose title is only whitespace gives the host page the
      default title, because the trimmed title is empty. */
  lemma BlankTitleFallsBack(h: HostHead, doc: ParsedDoc)
    requires |doc.titles| > 0 && IsBlank(doc.titles[0])
    ensures var e := ExtractTitleAndFavicon(doc);
      UpdateMainPageTitleAndFavicon(h, e.title, e.favicon).title == DefaultTitle
  {
  }
}

=== FILE: page_flip_animation.dfy ===
/** The page-flip scheduler of resources/page-flip-animation.js.

    The module-level variables of the source (`isAnimating`,
    `currentSpreadIndex`, `pendingFlipQueue`, `bookContainer`) and the DOM
    state the code writes (each leaf's `data-state`, rotation and
    z-index; the book's transform) are one `Engine` value. The browser
    re-enters the code through four doors, each an `Event`: a flip request,
    the leaf's `transitionend`, the 800 ms fallback timer, and an immediate
    jump. Each armed cleanup closure is identified by a serial number so
    that a stale or repeated trigger can be told apart from the live one. */
module PageFlipAnimation {
  import opened Wrappers
  import opened Constants
  import BookPosition

  /** The two pages printed on either side of one leaf. */
  datatype LeafPages = LeafPages(front: PageId, back: PageId)

  const PageLeaves: seq<LeafPages> := [
    LeafPages(FrontCover, Page1),
    LeafPages(Page2, Page3),
    LeafPages(Page4, Page5),
    LeafPages(Page6, BackCover)
  ]

  /** Leaf `i` turns spread `i` into spread `i + 1`: its front is the right
      page of spread `i`, its back the left page of spread `i + 1`. */
  lemma LeavesJoinAdjacentSpreads()
    ensures |PageLeaves| == |Spreads| - 1
    ensures forall i :: 0 <= i < |PageLeaves| ==>
      Spreads[i].right == Some(PageLeaves[i].front) &&
      Spreads[i + 1].left == Some(PageLeaves[i].back)
  {
    forall i | 0 <= i < |PageLeaves|
      ensures Spreads[i].right == Some(PageLeaves[i].front)
      ensures Spreads[i + 1].left == Some(PageLeaves[i].back)
    {
      assert i == 0 || i == 1 || i == 2 || i == 3;
    }
  }

  datatype LeafState = Closed | Flipping | Open

  /** A leaf element: its `data-state`, its rotation in degrees and its
      z-index. */
  datatype Leaf = Leaf(state: LeafState, rotateY: int, zIndex: int)

  /** Where `updateLeafStates(spreadIndex)` puts leaf `i`: leaves before the
      spread lie open on the left, the rest closed on the right. */
  function SettledLeaf(i: int, spreadIndex: int): (r: Leaf)
    ensures r.state == Open <==> i < spreadIndex
    ensures r.state != Flipping
  {
    if i < spreadIndex then Leaf(Open, -180, i + 1)
    else Leaf(Closed, 0, 20 - i)
  }

  /** `updateLeafStates`: every leaf the document holds is settled. */
  function UpdateLeafStates(leaves: seq<Leaf>, spreadIndex: int): (r: seq<Leaf>)
    ensures |r| == |leaves|
    ensures forall i :: 0 <= i < |r| ==> r[i] == SettledLeaf(i, spreadIndex)
  {
    seq(|leaves|, i => SettledLeaf(i, spreadIndex))
  }

  /** With at most four leaves (z-indexes 1..4 and 17..20) the open stack is
      wholly under the closed one, the leaf nearest the spine is on top of
      each stack, and open leaves are turned over while closed ones are
      not. */
  lemma SettledStacking(leaves: seq<Leaf>, spreadIndex: int)
    requires |leaves| <= 4
    ensures var r := UpdateLeafStates(leaves, spreadIndex);
      (forall i, j :: 0 <= i < |r| && 0 <= j < |r| && r[i].state == Open && r[j].state == Closed ==>
         r[i].zIndex < r[j].zIndex) &&
      (forall i, j :: 0 <= i < j < |r| && r[j].state == Open ==> r[i].state == Open && r[i].zIndex < r[j].zIndex) &&
      (forall i, j :: 0 <= i < j < |r| && r[i].state == Closed ==> r[j].state == Closed && r[i].zIndex > r[j].zIndex) &&
      (forall i :: 0 <= i < |r| ==> (r[i].rotateY == -180 <==> r[i].state == Open))
  {
  }

  type CallbackId = nat

  /** An entry of `pendingFlipQueue`; the container and document it also
      carries are the same for every entry and are not modelled. */
  datatype FlipRequest = FlipRequest(fromSpread: int, toSpread: int, onComplete: Option<CallbackId>)

  /** A flip whose cleanup is armed: which leaf turns, which way, between
      which spreads, and whom to call back. */
  datatype Flip = Flip(serial: nat, leaf: nat, forward: bool, fromSpread: int, toSpread: int,
                       onComplete: Option<CallbackId>)

  datatype Engine = Engine(
    isAnimating: bool,
    currentSpreadIndex: int,
    queue: seq<FlipRequest>,
    leaves: seq<Leaf>,
    /** The book's transform; None when there is no book container. */
    book: Option<string>,
    /** The flip whose cleanup has not yet run, if any. */
    inFlight: Option<Flip>,
    /** The serial the next armed cleanup gets. */
    nextSerial: nat,
    /** The completion callbacks called so far, in order. */
    completed: seq<CallbackId>)

  datatype Event =
    | Request(fromSpread: int, toSpread: int, onComplete: Option<CallbackId>)
    | TransitionEnd(serial: nat)
    | FallbackTimeout(serial: nat)
    | SetSpreadImmediate(spreadIndex: int)

  /** What every engine reachable from `InitPageFlip` satisfies. */
  predicate WellFormed(e: Engine) {
    (!e.isAnimating ==> e.queue == [] && e.inFlight.None?) &&
    (e.inFlight.Some? ==>
       e.isAnimating && e.inFlight.value.leaf < |e.leaves| && e.inFlight.value.serial < e.nextSerial)
  }

  /** Animating with no armed cleanup: nothing can ever finish the flip. */
  predicate Stalled(e: Engine) {
    e.isAnimating && e.inFlight.None?
  }

  function MoveBook(book: Option<string>, spreadIndex: int): (r: Option<string>)
    ensures r.Some? <==> book.Some?
  {
    match book
    case None => None
    case Some(t) => Some(BookPosition.UpdateBookTransform(t, spreadIndex))
  }

  /** The engine after `initPageFlip`: four leaves settled at the front
      cover and the new book's empty transform shifted for spread 0. */
  function InitPageFlip(): (r: Engine)
    ensures WellFormed(r) && !r.isAnimating && r.currentSpreadIndex == 0
    ensures |r.leaves| == |PageLeaves|
    ensures forall i :: 0 <= i < |r.leaves| ==> r.leaves[i].state == Closed
  {
    Engine(false, 0, [], UpdateLeafStates([Leaf(Closed, 0, 0), Leaf(Closed, 0, 0), Leaf(Closed, 0, 0), Leaf(Closed, 0, 0)], 0),
           Some(BookPosition.UpdateBookTransform("", 0)), None, 0, [])
  }

  /** The leaf a flip from `fromSpread` to `toSpread` turns. */
  function LeafToFlip(fromSpread: int, toSpread: int): int {
    if toSpread > fromSpread then fromSpread else toSpread
  }

  /** `executePageFlip`: commit the target spread at once, move the book,
      and start turning the leaf if the document has it. When it does not
      (a forward flip from the last spread, or a backward one to it), no
      cleanup is armed and the engine stays animating. */
  function ExecutePageFlip(e: Engine, fromSpread: int, toSpread: int, onComplete: Option<CallbackId>): (r: Engine)
    ensures r.isAnimating && r.currentSpreadIndex == toSpread
    ensures r.queue == e.queue && r.completed == e.completed && |r.leaves| == |e.leaves|
    ensures r.book == MoveBook(e.book, toSpread)
    ensures var i := LeafToFlip(fromSpread, toSpread);
      if 0 <= i < |e.leaves| then
        r.leaves == e.leaves[i := Leaf(Flipping, if toSpread > fromSpread then -180 else 0, 100)] &&
        r.inFlight == Some(Flip(e.nextSerial, i, toSpread > fromSpread, fromSpread, toSpread, onComplete)) &&
        r.nextSerial == e.nextSerial + 1
      else
        r.leaves == e.leaves && r.inFlight == e.inFlight && r.nextSerial == e.nextSerial
  {
    var moved := e.(isAnimating := true, currentSpreadIndex := toSpread, book := MoveBook(e.book, toSpread));
    var forward := toSpread > fromSpread;
    var i := LeafToFlip(fromSpread, toSpread);
    if 0 <= i < |e.leaves| then
      moved.(leaves := e.leaves[i := Leaf(Flipping, if forward then -180 else 0, 100)],
             inFlight := Some(Flip(e.nextSerial, i, forward, fromSpread, toSpread, onComplete)),
             nextSerial := e.nextSerial + 1)
    else
      moved
  }

  /** `processNextFlip`: idle when the queue is empty, otherwise run its head
      from wherever the engine now stands. */
  function ProcessNextFlip(e: Engine): (r: Engine)
    ensures |e.queue| == 0 ==> !r.isAnimating && r.(isAnimating := e.isAnimating) == e
    ensures |e.queue| > 0 ==>
      r.isAnimating && r.queue == e.queue[1..] && r.currentSpreadIndex == e.queue[0].toSpread
    ensures r.completed == e.completed && |r.leaves| == |e.leaves|
  {
    if |e.queue| == 0 then e.(isAnimating := false)
    else
      var next := e.queue[0];
      ExecutePageFlip(e.(queue := e.queue[1..]), e.currentSpreadIndex, next.toSpread, next.onComplete)
  }

  /** The leaf as the cleanup leaves it: its rotation is kept, only its
      state and z-index change. */
  function CleanedLeaf(l: Leaf, f: Flip): Leaf {
    if f.forward then l.(state := Open, zIndex := f.fromSpread + 1)
    else l.(state := Closed, zIndex := 20 - f.toSpread)
  }

  function CallbackList(cb: Option<CallbackId>): seq<CallbackId> {
    match cb
    case None => []
    case Some(id) => [id]
  }

  /** The armed cleanup closure: settle the leaf, disarm (so a second
      trigger does nothing), call back, and go on with the queue. */
  function Cleanup(e: Engine, f: Flip): (r: Engine)
    requires f.leaf < |e.leaves|
    ensures r.completed == e.completed + CallbackList(f.onComplete)
    ensures |e.queue| == 0 ==>
      !r.isAnimating && r.inFlight.None? && r.queue == e.queue &&
      r.leaves == e.leaves[f.leaf := CleanedLeaf(e.leaves[f.leaf], f)]
    ensures |e.queue| > 0 ==> r.queue == e.queue[1..] && r.currentSpreadIndex == e.queue[0].toSpread
  {
    ProcessNextFlip(e.(leaves := e.leaves[f.leaf := CleanedLeaf(e.leaves[f.leaf], f)],
                       inFlight := None,
                       completed := e.completed + CallbackList(f.onComplete)))
  }

  /** Either trigger of cleanup number `serial`; a trigger of any other
      cleanup, or of one that has already run, changes nothing. */
  function Fire(e: Engine, serial: nat): (r: Engine)
    requires WellFormed(e)
  {
    match e.inFlight
    case Some(f) => if f.serial == serial then Cleanup(e, f) else e
    case None => e
  }

  /** `animatePageFlip`: queue the request while a flip runs, unless the
      last queued request already has the same target; otherwise start it
      at once. */
  function AnimatePageFlip(e: Engine, fromSpread: int, toSpread: int, onComplete: Option<CallbackId>): (r: Engine)
    ensures e.isAnimating && (|e.queue| == 0 || e.queue[|e.queue| - 1].toSpread != toSpread) ==>
      r == e.(queue := e.queue + [FlipRequest(fromSpread, toSpread, onComplete)])
    ensures e.isAnimating && |e.queue| > 0 && e.queue[|e.queue| - 1].toSpread == toSpread ==> r == e
    ensures !e.isAnimating ==>
      r.isAnimating && r.currentSpreadIndex == toSpread && r.queue == e.queue && r.completed == e.completed
    ensures r.completed == e.completed && |r.leaves| == |e.leaves|
  {
    if e.isAnimating then
      var last := if |e.queue| == 0 then None else Some(e.queue[|e.queue| - 1]);
      if last.None? || last.value.toSpread != toSpread then
        e.(queue := e.queue + [FlipRequest(fromSpread, toSpread, onComplete)])
      else e
    else
      ExecutePageFlip(e, fromSpread, toSpread, onComplete)
  }

  /** `setSpreadImmediate`: jump without animation. The queue, the animating
      flag and any armed cleanup are left as they are. */
  function SetSpread(e: Engine, spreadIndex: int): (r: Engine)
    ensures r.currentSpreadIndex == spreadIndex
    ensures r.leaves == UpdateLeafStates(e.leaves, spreadIndex)
    ensures r.book == MoveBook(e.book, spreadIndex)
    ensures r.isAnimating == e.isAnimating && r.queue == e.queue && r.inFlight == e.inFlight
    ensures r.completed == e.completed
  {
    e.(currentSpreadIndex := spreadIndex, leaves := UpdateLeafStates(e.leaves, spreadIndex),
       book := MoveBook(e.book, spreadIndex))
  }

  /** Every event keeps the engine well formed, and no event changes how
      many leaves there are. */
  function Step(e: Engine, ev: Event): (r: Engine)
    requires WellFormed(e)
    ensures WellFormed(r) && |r.leaves| == |e.leaves|
  {
    match ev
    case Request(fromSpread, toSpread, cb) => AnimatePageFlip(e, fromSpread, toSpread, cb)
    case TransitionEnd(serial) => Fire(e, serial)
    case FallbackTimeout(serial) => Fire(e, serial)
    case SetSpreadImmediate(i) => SetSpread(e, i)
  }

  /** Run a sequence of events from `e`. */
  function Run(e: Engine, evs: seq<Event>): (r: Engine)
    requires WellFormed(e)
    ensures WellFormed(r) && |r.leaves| == |e.leaves|
    decreases |evs|
  {
    if |evs| == 0 then e
    else
      Run(Step(e, evs[0]), evs[1..])
  }

  // ---- One flip at a time ----

  /** A request that arrives while a flip runs starts nothing: the spread,
      the leaves, the book, the armed cleanup and the callbacks are
      untouched, and the request is buffered exactly when its target
      differs from the last buffered one. */
  lemma RequestWhileAnimatingIsBuffered(e: Engine, fromSpread: int, toSpread: int, cb: Option<CallbackId>)
    requires WellFormed(e) && e.isAnimating
    ensures var r := Step(e, Request(fromSpread, toSpread, cb));
      r.isAnimating && r.currentSpreadIndex == e.currentSpreadIndex && r.leaves == e.leaves &&
      r.book == e.book && r.inFlight == e.inFlight && r.completed == e.completed &&
      (if e.queue != [] && e.queue[|e.queue| - 1].toSpread == toSpread then r.queue == e.queue
       else r.queue == e.queue + [FlipRequest(fromSpread, toSpread, cb)])
  {
  }

  /** A request to an idle engine commits its target at once, before any
      callback, and turns leaf `from` forward (toward open) or leaf `to`
      backward (toward closed). */
  lemma RequestWhenIdleStarts(e: Engine, fromSpread: int, toSpread: int, cb: Option<CallbackId>)
    requires WellFormed(e) && !e.isAnimating
    requires 0 <= fromSpread <= 4 && 0 <= toSpread <= 4 && !(fromSpread == 4 && toSpread == 4)
    requires |e.leaves| == |PageLeaves|
    ensures var r := Step(e, Request(fromSpread, toSpread, cb));
      r.isAnimating && r.currentSpreadIndex == toSpread && r.completed == e.completed &&
      r.queue == [] &&
      (toSpread > fromSpread ==>
         r.leaves[fromSpread] == Leaf(Flipping, -180, 100) && r.inFlight.value.leaf == fromSpread) &&
      (toSpread <= fromSpread ==>
         r.leaves[toSpread] == Leaf(Flipping, 0, 100) && r.inFlight.value.leaf == toSpread) &&
      (forall i :: 0 <= i < |e.leaves| && i != r.inFlight.value.leaf ==> r.leaves[i] == e.leaves[i])
  {
  }

  // ---- The cleanup ----

  /** The `transitionend` listener and the fallback timer run the same
      closure. */
  lemma TriggersAgree(e: Engine, serial: nat)
    requires WellFormed(e)
    ensures Step(e, TransitionEnd(serial)) == Step(e, FallbackTimeout(serial))
  {
  }

  /** The live cleanup settles its leaf (keeping the rotation the flip gave
      it), calls its callback once, and then either goes idle on an empty
      queue or starts the head of the queue from the current spread. */
  lemma LiveCleanupSettles(e: Engine)
    requires WellFormed(e) && e.inFlight.Some?
    ensures var f := e.inFlight.value;
      var r := Fire(e, f.serial);
      var settled := e.leaves[f.leaf := CleanedLeaf(e.leaves[f.leaf], f)];
      r.completed == e.completed + CallbackList(f.onComplete) &&
      (f.forward ==> settled[f.leaf].state == Open && settled[f.leaf].zIndex == f.fromSpread + 1) &&
      (!f.forward ==> settled[f.leaf].state == Closed && settled[f.leaf].zIndex == 20 - f.toSpread) &&
      settled[f.leaf].rotateY == e.leaves[f.leaf].rotateY &&
      (e.queue == [] ==> !r.isAnimating && r.inFlight.None? && r.leaves == settled &&
                         r.currentSpreadIndex == e.currentSpreadIndex) &&
      (e.queue != [] ==> r.isAnimating && r.queue == e.queue[1..] && r.currentSpreadIndex == e.queue[0].toSpread &&
                         (r.inFlight.Some? ==> r.inFlight.value.fromSpread == e.currentSpreadIndex))
  {
  }

  /** However often the cleanup is triggered, it runs once: a second
      trigger of the same serial, by either door, changes nothing. */
  lemma CleanupRunsOnce(e: Engine, serial: nat)
    requires WellFormed(e)
    ensures WellFormed(Fire(e, serial))
    ensures Fire(Fire(e, serial), serial) == Fire(e, serial)
  {
  }

  /** Once an engine is animating with no armed cleanup, it never recovers:
      every event keeps it animating, completes nothing, and starts no
      flip; requests only pile up in the queue. */
  lemma {:induction false} StalledStaysStalled(e: Engine, evs: seq<Event>)
    requires WellFormed(e) && Stalled(e)
    ensures var r := Run(e, evs);
      Stalled(r) && r.completed == e.completed && |r.queue| >= |e.queue|
    decreases |evs|
  {
    if |evs| > 0 {
      StalledStaysStalled(Step(e, evs[0]), evs[1..]);
    }
  }

  /** A forward request from the back cover has no leaf to turn: it commits
      spread 5 and stalls the engine. */
  lemma ForwardFromBackCoverStalls(e: Engine, cb: Option<CallbackId>)
    requires WellFormed(e) && !e.isAnimating && |e.leaves| == |PageLeaves|
    ensures var r := Step(e, Request(4, 5, cb));
      Stalled(r) && r.currentSpreadIndex == 5
  {
  }

  // ---- Callbacks are conserved ----

  function QueueCallbacks(q: seq<FlipRequest>): seq<CallbackId>
    decreases |q|
  {
    if |q| == 0 then [] else CallbackList(q[0].onComplete) + QueueCallbacks(q[1..])
  }

  /** The callbacks still owed, in the order they will be called. */
  function Outstanding(e: Engine): seq<CallbackId> {
    (match e.inFlight
     case Some(f) => CallbackList(f.onComplete)
     case None => []) + QueueCallbacks(e.queue)
  }

  /** The callback a request adds to what is owed: none when it is dropped
      as a duplicate of the last queued target. */
  function AcceptedCallbacks(e: Engine, ev: Event): seq<CallbackId> {
    match ev
    case Request(_, toSpread, cb) =>
      if e.isAnimating && e.queue != [] && e.queue[|e.queue| - 1].toSpread == toSpread then []
      else CallbackList(cb)
    case _ => []
  }

  /** The event starts a flip whose leaf the document does not have. */
  predicate StartsStall(e: Engine, ev: Event) {
    match ev
    case Request(fromSpread, toSpread, _) =>
      !e.isAnimating && !(0 <= LeafToFlip(fromSpread, toSpread) < |e.leaves|)
    case SetSpreadImmediate(_) => false
    case _ =>
      e.inFlight.Some? && e.inFlight.value.serial == ev.serial && e.queue != [] &&
      !(0 <= LeafToFlip(e.currentSpreadIndex, e.queue[0].toSpread) < |e.leaves|)
  }

  lemma QueueCallbacksAppend(q: seq<FlipRequest>, req: FlipRequest)
    ensures QueueCallbacks(q + [req]) == QueueCallbacks(q) + CallbackList(req.onComplete)
    decreases |q|
  {
    if |q| > 0 {
      assert (q + [req])[1..] == q[1..] + [req];
    }
  }

  /** Every callback is called at most once and in the order its request was
      accepted: what has been called followed by what is still owed only
      grows, by the accepted request's callback. Only a flip that finds no
      leaf loses its callback. */
  lemma CallbacksConserved(e: Engine, ev: Event)
    requires WellFormed(e) && !StartsStall(e, ev)
    ensures Step(e, ev).completed + Outstanding(Step(e, ev)) ==
            e.completed + Outstanding(e) + AcceptedCallbacks(e, ev)
  {
    match ev
    case Request(fromSpread, toSpread, cb) =>
      RequestConservesCallbacks(e, fromSpread, toSpread, cb);
    case SetSpreadImmediate(_) =>
    case _ =>
      if e.inFlight.Some? && e.inFlight.value.serial == ev.serial {
        CleanupConservesCallbacks(e);
        assert Step(e, ev) == Fire(e, e.inFlight.value.serial);
      }
  }

  lemma RequestConservesCallbacks(e: Engine, fromSpread: int, toSpread: int, cb: Option<CallbackId>)
    requires WellFormed(e) && !StartsStall(e, Request(fromSpread, toSpread, cb))
    ensures var r := AnimatePageFlip(e, fromSpread, toSpread, cb);
      r.completed + Outstanding(r) == e.completed + Outstanding(e) + AcceptedCallbacks(e, Request(fromSpread, toSpread, cb))
  {
    if e.isAnimating {
      QueueCallbacksAppend(e.queue, FlipRequest(fromSpread, toSpread, cb));
    } else {
      assert QueueCallbacks(e.queue) == [];
      var r := AnimatePageFlip(e, fromSpread, toSpread, cb);
      assert r.inFlight.value.onComplete == cb && r.queue == [];
    }
  }

  lemma CleanupConservesCallbacks(e: Engine)
    requires WellFormed(e) && e.inFlight.Some?
    requires e.queue != [] ==> 0 <= LeafToFlip(e.currentSpreadIndex, e.queue[0].toSpread) < |e.leaves|
    ensures var r := Fire(e, e.inFlight.value.serial);
      r.completed + Outstanding(r) == e.completed + Outstanding(e)
  {
    var f := e.inFlight.value;
    var r := Cleanup(e, f);
    assert Fire(e, f.serial) == r;
    var owedBefore := CallbackList(f.onComplete) + QueueCallbacks(e.queue);
    assert Outstanding(e) == owedBefore;
    assert r.completed == e.completed + CallbackList(f.onComplete);
    if e.queue == [] {
      assert Outstanding(r) == [];
    } else {
      var m := e.(leaves := e.leaves[f.leaf := CleanedLeaf(e.leaves[f.leaf], f)], inFlight := None,
                  completed := r.completed);
      var n := e.queue[0];
      assert r == ExecutePageFlip(m.(queue := e.queue[1..]), e.currentSpreadIndex, n.toSpread, n.onComplete);
      assert r.inFlight.value.onComplete == n.onComplete && r.queue == e.queue[1..];
      assert Outstanding(r) == CallbackList(n.onComplete) + QueueCallbacks(e.queue[1..]) == QueueCallbacks(e.queue);
    }
  }

  // ---- The leaves agree with the spread ----

  /** The leaves as they will be once the armed cleanup has run. */
  function Settled(e: Engine): seq<Leaf>
    requires WellFormed(e)
  {
    match e.inFlight
    case Some(f) => e.leaves[f.leaf := CleanedLeaf(e.leaves[f.leaf], f)]
    case None => e.leaves
  }

  /** One turn of one leaf, within the five spreads. */
  predicate OneStep(fromSpread: int, toSpread: int) {
    0 <= toSpread < |Spreads| && (toSpread == fromSpread + 1 || toSpread == fromSpread - 1)
  }

  /** The spread the engine will stand at when the queue has drained. */
  function Horizon(e: Engine): int {
    if e.queue == [] then e.currentSpreadIndex else e.queue[|e.queue| - 1].toSpread
  }

  /** The queue is a chain of one-step flips starting at the current
      spread. */
  predicate Chained(e: Engine) {
    (e.queue != [] ==> e.queue[0].fromSpread == e.currentSpreadIndex) &&
    (forall i :: 0 <= i < |e.queue| - 1 ==> e.queue[i + 1].fromSpread == e.queue[i].toSpread) &&
    (forall i :: 0 <= i < |e.queue| ==> OneStep(e.queue[i].fromSpread, e.queue[i].toSpread))
  }

  /** Four leaves which, once the armed cleanup has run, are exactly what
      `updateLeafStates` would make of the current spread; and no stall. */
  predicate InSync(e: Engine) {
    WellFormed(e) && |e.leaves| == |PageLeaves| && 0 <= e.currentSpreadIndex < |Spreads| &&
    (e.isAnimating <==> e.inFlight.Some?) &&
    Settled(e) == UpdateLeafStates(e.leaves, e.currentSpreadIndex) && Chained(e)
  }

  /** A caller that asks for one-step flips, each from where the previous
      request ended, and jumps only while no flip runs. */
  predicate Disciplined(e: Engine, ev: Event) {
    match ev
    case Request(fromSpread, toSpread, _) => fromSpread == Horizon(e) && OneStep(fromSpread, toSpread)
    case SetSpreadImmediate(i) => !e.isAnimating && 0 <= i < |Spreads|
    case _ => true
  }

  /** A one-step flip started from a synchronised idle position keeps the
      leaves synchronised with the new spread. */
  lemma StartKeepsSync(e: Engine, fromSpread: int, toSpread: int, cb: Option<CallbackId>)
    requires WellFormed(e) && e.inFlight.None? && |e.leaves| == |PageLeaves|
    requires e.leaves == UpdateLeafStates(e.leaves, fromSpread)
    requires 0 <= fromSpread < |Spreads| && OneStep(fromSpread, toSpread)
    ensures var r := ExecutePageFlip(e, fromSpread, toSpread, cb);
      r.inFlight.Some? && WellFormed(r) &&
      Settled(r) == UpdateLeafStates(r.leaves, toSpread)
  {
    var r := ExecutePageFlip(e, fromSpread, toSpread, cb);
    var f := r.inFlight.value;
    var s := Settled(r);
    forall i | 0 <= i < |s|
      ensures s[i] == SettledLeaf(i, toSpread)
    {
      if i != f.leaf {
        assert s[i] == e.leaves[i] == SettledLeaf(i, fromSpread);
      }
    }
  }

  /** Under a disciplined caller the engine never stalls, and the leaves,
      once the armed cleanup has run, always show the current spread. */
  lemma DisciplinedStepKeepsSync(e: Engine, ev: Event)
    requires InSync(e) && Disciplined(e, ev)
    ensures !StartsStall(e, ev)
    ensures InSync(Step(e, ev))
  {
    match ev
    case Request(fromSpread, toSpread, cb) =>
      if !e.isAnimating {
        StartKeepsSync(e, fromSpread, toSpread, cb);
      } else {
        BufferKeepsSync(e, fromSpread, toSpread, cb);
      }
    case SetSpreadImmediate(i) =>
    case _ =>
      if e.inFlight.Some? && e.inFlight.value.serial == ev.serial {
        CleanupKeepsSync(e);
      }
  }

  lemma BufferKeepsSync(e: Engine, fromSpread: int, toSpread: int, cb: Option<CallbackId>)
    requires InSync(e) && e.isAnimating
    requires fromSpread == Horizon(e) && OneStep(fromSpread, toSpread)
    ensures InSync(Step(e, Request(fromSpread, toSpread, cb)))
  {
    assert Chained(e);
    var r := Step(e, Request(fromSpread, toSpread, cb));
    forall i | 0 <= i < |r.queue|
      ensures OneStep(r.queue[i].fromSpread, r.queue[i].toSpread)
      ensures i < |r.queue| - 1 ==> r.queue[i + 1].fromSpread == r.queue[i].toSpread
    {
      if i < |e.queue| {
        assert r.queue[i] == e.queue[i];
      } else {
        assert r.queue[i] == FlipRequest(fromSpread, toSpread, cb);
      }
    }
  }

  lemma CleanupKeepsSync(e: Engine)
    requires InSync(e) && e.inFlight.Some?
    ensures !StartsStall(e, FallbackTimeout(e.inFlight.value.serial))
    ensures InSync(Fire(e, e.inFlight.value.serial))
  {
    assert Chained(e);
    var f := e.inFlight.value;
    var mid := e.(leaves := Settled(e), inFlight := None,
                  completed := e.completed + CallbackList(f.onComplete));
    assert Cleanup(e, f) == ProcessNextFlip(mid);
    if e.queue != [] {
      var next := e.queue[0];
      var m2 := mid.(queue := e.queue[1..]);
      assert next.fromSpread == e.currentSpreadIndex && OneStep(next.fromSpread, next.toSpread);
      StartKeepsSync(m2, e.currentSpreadIndex, next.toSpread, next.onComplete);
      var r := Fire(e, f.serial);
      forall i | 0 <= i < |r.queue|
        ensures OneStep(r.queue[i].fromSpread, r.queue[i].toSpread)
        ensures i < |r.queue| - 1 ==> r.queue[i + 1].fromSpread == r.queue[i].toSpread
      {
        assert r.queue[i] == e.queue[i + 1];
      }
    }
  }

  /** The events are all disciplined, each in the state it meets. */
  predicate DisciplinedRun(e: Engine, evs: seq<Event>)
    requires InSync(e)
    decreases |evs|
  {
    |evs| == 0 ||
    (Disciplined(e, evs[0]) &&
     (DisciplinedStepKeepsSync(e, evs[0]);
      DisciplinedRun(Step(e, evs[0]), evs[1..])))
  }

  /** Whatever the interleaving of requests, transition ends and timeouts, a
      disciplined caller never stalls the engine, and whenever it is idle
      the leaves are settled for exactly the spread it stands at. */
  lemma {:induction false} DisciplinedRunStaysInSync(e: Engine, evs: seq<Event>)
    requires InSync(e) && DisciplinedRun(e, evs)
    ensures InSync(Run(e, evs))
    ensures var r := Run(e, evs);
      !r.isAnimating ==> r.leaves == UpdateLeafStates(r.leaves, r.currentSpreadIndex)
    decreases |evs|
  {
    if |evs| > 0 {
      DisciplinedStepKeepsSync(e, evs[0]);
      DisciplinedRunStaysInSync(Step(e, evs[0]), evs[1..]);
    }
  }

  /** The engine `initPageFlip` builds is synchronised. */
  lemma InitIsInSync()
    ensures InSync(InitPageFlip())
  {
  }

  /** A jump in the middle of a flip desynchronises the leaves: the late
      cleanup marks leaf 0 open although the jump turned it back to 0
      degrees. */
  lemma JumpDuringFlipDesyncs()
    ensures var e := Step(Step(Step(InitPageFlip(), Request(0, 1, None)), SetSpreadImmediate(0)), FallbackTimeout(0));
      !e.isAnimating && e.currentSpreadIndex == 0 &&
      e.leaves[0].state == Open && e.leaves[0].rotateY == 0 &&
      e.leaves != UpdateLeafStates(e.leaves, 0)
  {
  }

  // ---- The fallback timer drains the queue ----

  /** Fire every armed cleanup by its timer until none is armed. */
  function DrainByTimeouts(e: Engine): (r: Engine)
    requires InSync(e)
    ensures InSync(r) && !r.isAnimating
    decreases |e.queue| + (if e.inFlight.Some? then 1 else 0)
  {
    if e.inFlight.None? then e
    else
      var ev := FallbackTimeout(e.inFlight.value.serial);
      DisciplinedStepKeepsSync(e, ev);
      LiveCleanupSettles(e);
      DrainByTimeouts(Step(e, ev))
  }

  /** Even if no `transitionend` ever arrives (the surface was torn down),
      the timers alone settle the flip in flight and every queued one: the
      engine ends idle at the last requested spread, with its leaves settled
      for it and every owed callback called, in order. */
  lemma {:induction false} TimeoutsDrainQueue(e: Engine)
    requires InSync(e)
    ensures var r := DrainByTimeouts(e);
      r.currentSpreadIndex == Horizon(e) &&
      r.leaves == UpdateLeafStates(r.leaves, Horizon(e)) &&
      r.completed == e.completed + Outstanding(e)
    decreases |e.queue| + (if e.inFlight.Some? then 1 else 0)
  {
    if e.inFlight.Some? {
      var ev := FallbackTimeout(e.inFlight.value.serial);
      DisciplinedStepKeepsSync(e, ev);
      LiveCleanupSettles(e);
      CallbacksConserved(e, ev);
      var s := Step(e, ev);
      assert Horizon(s) == Horizon(e) by {
        if e.queue != [] && e.queue[1..] != [] {
          assert s.queue[|s.queue| - 1] == e.queue[|e.queue| - 1];
        }
      }
      TimeoutsDrainQueue(s);
      assert DrainByTimeouts(e) == DrainByTimeouts(s);
    }
  }

  // ---- Scenarios ----

  /** The engine standing idle at spread `i` with four settled leaves. The
      book container is left out: these scenarios are about scheduling, and
      the book's transform never feeds back into it. */
  function IdleAt(i: int): (r: Engine)
    requires 0 <= i < |Spreads|
    ensures InSync(r) && !r.isAnimating && r.currentSpreadIndex == i && r.completed == []
    ensures r.leaves == UpdateLeafStates(r.leaves, i)
  {
    Engine(false, i, [], UpdateLeafStates([Leaf(Closed, 0, 0), Leaf(Closed, 0, 0), Leaf(Closed, 0, 0), Leaf(Closed, 0, 0)], i),
           None, None, 0, [])
  }

  /** From spread 2, a flip to 4 and then, before it ends, one to 3: the
      second is queued, both callbacks run in order, and the book ends at
      spread 3 with leaves 0, 1 and 2 open and leaf 3 closed. */
  lemma JumpThenBackScenario()
    ensures var r := Step(Step(Step(Step(IdleAt(2), Request(2, 4, Some(1))), Request(4, 3, Some(2))),
                               TransitionEnd(0)), FallbackTimeout(1));
      !r.isAnimating && r.currentSpreadIndex == 3 && r.completed == [1, 2] &&
      r.leaves[0].state == Open && r.leaves[1].state == Open && r.leaves[2].state == Open &&
      r.leaves[3].state == Closed
  {
    var e1 := Step(IdleAt(2), Request(2, 4, Some(1)));
    assert e1.inFlight == Some(Flip(0, 2, true, 2, 4, Some(1))) && e1.currentSpreadIndex == 4;
    var e2 := Step(e1, Request(4, 3, Some(2)));
    assert e2.queue == [FlipRequest(4, 3, Some(2))];
    var e3 := Step(e2, TransitionEnd(0));
    assert e3.completed == [1] && e3.inFlight == Some(Flip(1, 3, false, 4, 3, Some(2)));
    assert e3.leaves[2].state == Open;
  }

  /** A jump of two spreads turns a single leaf: after 2 to 4 settles, leaf 3
      is still closed although the book stands at the back cover. */
  lemma JumpTurnsOneLeaf()
    ensures var r := Step(Step(IdleAt(2), Request(2, 4, None)), FallbackTimeout(0));
      !r.isAnimating && r.currentSpreadIndex == 4 && r.leaves[3].state == Closed &&
      r.leaves != UpdateLeafStates(r.leaves, 4)
  {
    var e1 := Step(IdleAt(2), Request(2, 4, None));
    assert e1.inFlight == Some(Flip(0, 2, true, 2, 4, None));
    var r := Step(e1, FallbackTimeout(0));
    assert r.leaves[3] != UpdateLeafStates(r.leaves, 4)[3];
  }

  /** Two forward requests in quick succession: two callbacks, in order. */
  lemma TwoQuickForwardFlips()
    ensures var r := Step(Step(Step(Step(IdleAt(0), Request(0, 1, Some(1))), Request(1, 2, Some(2))),
                               TransitionEnd(0)), TransitionEnd(1));
      !r.isAnimating && r.currentSpreadIndex == 2 && r.completed == [1, 2]
  {
    var e1 := Step(IdleAt(0), Request(0, 1, Some(1)));
    assert e1.inFlight == Some(Flip(0, 0, true, 0, 1, Some(1)));
    var e2 := Step(e1, Request(1, 2, Some(2)));
    assert e2.queue == [FlipRequest(1, 2, Some(2))];
    var e3 := Step(e2, TransitionEnd(0));
    assert e3.completed == [1] && e3.inFlight == Some(Flip(1, 1, true, 1, 2, Some(2)));
  }

  /** The first half of `SameTargetDuplicates`: the third request is
      dropped, and when the first flip ends the second starts on leaf 1,
      backward, although spread 1 is already current. */
  lemma SameTargetDuplicatesFirstFlip()
    ensures var e := Step(Step(Step(Step(IdleAt(0), Request(0, 1, Some(1))), Request(0, 1, Some(2))),
                               Request(0, 1, Some(3))), TransitionEnd(0));
      e.completed == [1] && e.inFlight == Some(Flip(1, 1, false, 1, 1, Some(2))) && e.queue == [] &&
      e.currentSpreadIndex == 1 &&
      e.leaves == [Leaf(Open, -180, 1), Leaf(Flipping, 0, 100), Leaf(Closed, 0, 18), Leaf(Closed, 0, 17)]
  {
    var e1 := Step(IdleAt(0), Request(0, 1, Some(1)));
    assert e1.inFlight == Some(Flip(0, 0, true, 0, 1, Some(1)));
    var e2 := Step(e1, Request(0, 1, Some(2)));
    assert e2.queue == [FlipRequest(0, 1, Some(2))];
    var e3 := Step(e2, Request(0, 1, Some(3)));
    assert e3.queue == e2.queue;
  }

  /** Duplicates are only checked against the last queued request, not the
      flip in flight: three requests for spread 1 give two callbacks, the
      second request turning leaf 1 "back" to where it already is. */
  lemma SameTargetDuplicates()
    ensures var r := Step(Step(Step(Step(Step(IdleAt(0), Request(0, 1, Some(1))), Request(0, 1, Some(2))),
                                    Request(0, 1, Some(3))), TransitionEnd(0)), TransitionEnd(1));
      !r.isAnimating && r.currentSpreadIndex == 1 && r.completed == [1, 2] &&
      r.leaves == UpdateLeafStates(r.leaves, 1)
  {
    SameTargetDuplicatesFirstFlip();
    var e4 := Step(Step(Step(Step(IdleAt(0), Request(0, 1, Some(1))), Request(0, 1, Some(2))),
                        Request(0, 1, Some(3))), TransitionEnd(0));
    var r := Step(e4, TransitionEnd(1));
    var settled := [Leaf(Open, -180, 1), Leaf(Closed, 0, 19), Leaf(Closed, 0, 18), Leaf(Closed, 0, 17)];
    assert r.leaves == settled;
    assert UpdateLeafStates(settled, 1) == settled;
  }

  /** The same duplicate at spread 3 wedges the engine: the queued flip from
      4 to 4 looks for leaf 4, which does not exist, so its callback never
      runs and nothing is ever animated again. */
  lemma SameTargetAtBackCoverStalls()
    ensures var r := Step(Step(Step(IdleAt(3), Request(3, 4, Some(1))), Request(3, 4, Some(2))), TransitionEnd(0));
      Stalled(r) && r.completed == [1] && r.currentSpreadIndex == 4
  {
    var e1 := Step(IdleAt(3), Request(3, 4, Some(1)));
    assert e1.inFlight == Some(Flip(0, 3, true, 3, 4, Some(1)));
  }
}

=== FILE: preview_manager.dfy ===
/** Rendering the editor's code into the preview frame and the messages the
    frame sends back to the host page (resources/preview-manager.js). The
    frame's document is its `srcdoc` text plus what the load handler builds
    in it; parsing that text is not modelled, so the parts the handlers read
    (the title and icon links, which page ids it holds, whether it has a
    body) are parameters. */
module PreviewManager {
  import opened Wrappers
  import opened Constants
  import opened HtmlUtils
  import opened SpreadLayout

  /** What the frame's document posts to the host page, as the host reads
      it. `ScaleChange` is posted by frame code that is not part of this
      model; `Unrecognised` is anything else. */
  datatype Message =
    | ToggleFullscreenMsg
    | PrevSpreadMsg
    | NextSpreadMsg
    | SaveFileMsg
    | SaveFileWithViewerMsg
    | ScaleChange(gridWidth: real, gridHeight: real, spreadLeft: real, spreadTop: real)
    | Unrecognised

  /** A posted value: a string, a record with a `type` field and the four
      numbers a scale report carries, or anything else. */
  datatype PostedData =
    | Text(text: string)
    | Record(kind: string, gridWidth: real, gridHeight: real, spreadLeft: real, spreadTop: real)
    | OtherData

  /** The string a message is posted as; None for the scale report, which is
      a record. */
  function WireText(m: Message): Option<string> {
    match m
    case ToggleFullscreenMsg => Some("toggleFullscreen")
    case PrevSpreadMsg => Some("prevSpread")
    case NextSpreadMsg => Some("nextSpread")
    case SaveFileMsg => Some("saveFile")
    case SaveFileWithViewerMsg => Some("saveFileWithViewer")
    case ScaleChange(_, _, _, _) => None
    case Unrecognised => None
  }

  /** How the host's message listener reads a posted value: one of five
      exact strings, a record whose `type` is `scaleChange`, or nothing it
      acts on. */
  function ReadMessage(d: PostedData): (r: Message)
    ensures d.Text? && r != Unrecognised ==> WireText(r) == Some(d.text)
    ensures d.Text? && r == Unrecognised ==> forall m :: WireText(m) != Some(d.text)
    ensures d.Record? ==> (r.ScaleChange? <==> d.kind == "scaleChange")
    ensures d.OtherData? ==> r == Unrecognised
    ensures r.ScaleChange? ==> d.Record?
  {
    match d
    case Text(t) =>
      if t == "toggleFullscreen" then ToggleFullscreenMsg
      else if t == "prevSpread" then PrevSpreadMsg
      else if t == "nextSpread" then NextSpreadMsg
      else if t == "saveFile" then SaveFileMsg
      else if t == "saveFileWithViewer" then SaveFileWithViewerMsg
      else
        assert forall m :: WireText(m) != Some(t);
        Unrecognised
    case Record(kind, w, h, l, t) =>
      if kind == "scaleChange" then ScaleChange(w, h, l, t) else Unrecognised
    case OtherData => Unrecognised
  }

  /** Every string message the frame posts reads back as itself. */
  lemma WireRoundTrip(m: Message)
    requires WireText(m).Some?
    ensures ReadMessage(Text(WireText(m).value)) == m
  {
  }

  /** A scale report reads back with its numbers unchanged. */
  lemma ScaleReportRoundTrip(w: real, h: real, l: real, t: real)
    ensures ReadMessage(Record("scaleChange", w, h, l, t)) == ScaleChange(w, h, l, t)
  {
  }

  /** What a key press inside the frame does. The listener is a closure
      of the host page's script, so the `window` it prints is the host
      page's, not the frame's. */
  datatype KeyOutcome = Post(message: Message) | PrintHostWindow | Ignore

  /** The frame's `keydown` listener; `mod` is Meta or Control held. The
      arrows need no modifier; print, save and export do. Printing posts
      nothing. */
  function PreviewKey(key: string, mod: bool): (r: KeyOutcome)
    ensures key == "ArrowLeft" ==> r == Post(PrevSpreadMsg)
    ensures key == "ArrowRight" ==> r == Post(NextSpreadMsg)
    ensures mod && key == "p" ==> r == PrintHostWindow
    ensures mod && key == "s" ==> r == Post(SaveFileMsg)
    ensures mod && key == "e" ==> r == Post(SaveFileWithViewerMsg)
    ensures r == Ignore <==>
      key != "ArrowLeft" && key != "ArrowRight" && !(mod && (key == "p" || key == "s" || key == "e"))
    ensures r.Post? ==> WireText(r.message).Some? && r.message != ToggleFullscreenMsg
  {
    if key == "ArrowLeft" then Post(PrevSpreadMsg)
    else if key == "ArrowRight" then Post(NextSpreadMsg)
    else if mod && key == "p" then PrintHostWindow
    else if mod && key == "s" then Post(SaveFileMsg)
    else if mod && key == "e" then Post(SaveFileWithViewerMsg)
    else Ignore
  }

  /** The only message the frame's fullscreen button posts. */
  const FullscreenButtonMessage: Message := ToggleFullscreenMsg

  /** Nothing but the fullscreen button asks to toggle fullscreen: no key
      in the frame does, and the button's message reads back as the
      toggle. */
  lemma OnlyTheButtonToggles(key: string, mod: bool)
    ensures PreviewKey(key, mod) != Post(FullscreenButtonMessage)
    ensures ReadMessage(Text(WireText(FullscreenButtonMessage).value)) == ToggleFullscreenMsg
  {
  }

  /** The opening tag of the stylesheet the preview adds. */
  function SpreadStyleTag(css: string): string {
    "<style id=\"zine-editor-spread-css\">" + css + "</style>"
  }

  /** What the frame shows when the processed code comes out empty. */
  const EmptyDocument: string := "<!DOCTYPE html><html><head></head><body></body></html>"

  /** The editor code with the spread stylesheet for the current spread
      inserted right after its `<head…>` tag, so that the author's own
      styles come later and win. */
  function ProcessedCode(code: string, spreadCss: string): (r: string)
    ensures HeadOpenMatch(code).Some? ==>
      var e := HeadOpenMatch(code).value.end;
      e <= |code| && r == code[..e] + SpreadStyleTag(spreadCss) + code[e..]
    ensures HeadOpenMatch(code).None? ==> r == code
  {
    InsertAfterHead(code, SpreadStyleTag(spreadCss))
  }

  /** The processed code is empty exactly when the editor is empty: a
      document with a head grows by the stylesheet, one without is kept. */
  lemma ProcessedEmptyIffCodeEmpty(code: string, spreadCss: string)
    ensures ProcessedCode(code, spreadCss) == "" <==> code == ""
  {
    if HeadOpenMatch(code).Some? {
      var e := HeadOpenMatch(code).value.end;
      assert |ProcessedCode(code, spreadCss)| == |code| + |SpreadStyleTag(spreadCss)|;
    }
  }

  /** The frame's `srcdoc`. */
  function Srcdoc(code: string, spreadCss: string): (r: string)
    ensures code == "" ==> r == EmptyDocument
    ensures code != "" && HeadOpenMatch(code).None? ==> r == code
    ensures HeadOpenMatch(code).Some? ==>
      var e := HeadOpenMatch(code).value.end;
      e <= |code| && r == code[..e] + SpreadStyleTag(spreadCss) + code[e..]
  {
    var processed := ProcessedCode(code, spreadCss);
    ProcessedEmptyIffCodeEmpty(code, spreadCss);
    if processed == "" then EmptyDocument else processed
  }

  /** Without a `<head…>` tag the spread stylesheet is not added at all: the
      frame shows the code exactly as typed. */
  lemma NoHeadNoSpreadStyle(code: string, spreadCss: string)
    requires code != "" && HeadOpenMatch(code).None?
    ensures Srcdoc(code, spreadCss) == code
    ensures ProcessedCode(code, spreadCss) == ProcessedCode(code, "")
  {
  }

  /** Whether the editor is taking keystrokes from an on-screen keyboard. */
  datatype Device = Device(mobile: bool, editorFocused: bool, keyboardOpen: bool)

  predicate Typing(d: Device) {
    d.mobile && d.editorFocused && d.keyboardOpen
  }

  /** What `updatePreview` changes right away: the host page's title and
      icon and the frame's `srcdoc`. */
  datatype Preview = Preview(head: HostHead, srcdoc: string)

  /** `updatePreview`. While someone types on a phone's keyboard nothing is
      touched. Otherwise the host takes the document's title and icon (or
      the defaults) and the frame gets the processed code. `parsed` is what
      parsing `code` yields; `spreadCss` is the stylesheet generated for the
      current spread. */
  function UpdatePreview(p: Preview, d: Device, code: string, parsed: ParsedDoc, spreadCss: string): (r: Preview)
    ensures Typing(d) ==> r == p
    ensures !Typing(d) ==>
      r.srcdoc == Srcdoc(code, spreadCss) &&
      (|parsed.titles| > 0 && Strings.Trim(parsed.titles[0]) != "" ==> r.head.title == Strings.Trim(parsed.titles[0])) &&
      (|parsed.titles| == 0 || Strings.Trim(parsed.titles[0]) == "" ==> r.head.title == DefaultTitle) &&
      r.head.iconHref.Some?
  {
    if Typing(d) then p
    else
      var tf := ExtractTitleAndFavicon(parsed);
      Preview(UpdateMainPageTitleAndFavicon(p.head, tf.title, tf.favicon), Srcdoc(code, spreadCss))
  }

  /** What the load handler builds in the frame: the fullscreen button with
      its title, and the spread container's children; both need a body. */
  datatype Surface = Surface(buttonTitle: Option<string>, layout: Option<seq<Slot>>)

  const ButtonTitle: string := "Toggle fullscreen"

  /** The frame's load handler for the spread that was current when
      `updatePreview` ran; `held` is the set of page ids the document
      holds. The index comes from navigation, which keeps it in range. */
  function OnLoad(current: int, held: set<PageId>, hasBody: bool): (r: Surface)
    requires 0 <= current < |Spreads|
    ensures r.buttonTitle.Some? <==> hasBody
    ensures r.layout.Some? <==> hasBody
    ensures hasBody ==> r.buttonTitle == Some(ButtonTitle)
    ensures hasBody ==> r.layout == Some(SetupSpreadLayout(Spreads[current], held))
  {
    if hasBody then Surface(Some(ButtonTitle), Some(SetupSpreadLayout(Spreads[current], held)))
    else Surface(None, None)
  }

  /** The container shows exactly the current spread's pages that the
      document holds, with a placeholder only for a one-page spread; with
      every page present, that is always two slots. */
  lemma LoadedLayoutIsCurrentSpread(current: int, held: set<PageId>)
    requires 0 <= current < |Spreads|
    ensures var l := OnLoad(current, held, true).layout.value;
      (forall p :: PageSlot(p) in l <==> p in VisiblePages(Spreads[current]) && p in held) &&
      PlaceholderCount(l) == (if Spreads[current].left.Some? == Spreads[current].right.Some? then 0 else 1)
    ensures held == (set p: PageId | p in PageIds) ==> |OnLoad(current, held, true).layout.value| == 2
  {
    MissingPagesSkipped(Spreads[current], held);
    if held == (set p: PageId | p in PageIds) {
      TableSpreadsFillTwoSlots(current);
    }
  }
}

=== FILE: spread_layout.dfy ===
/** The layout of one spread and its fit to the viewport
    (resources/spread-layout.js). Elements are modelled by what they are: a
    page, named by its id, or the dashed empty placeholder. */
module SpreadLayout {
  import opened Wrappers
  import opened Constants

  datatype Slot = Placeholder | PageSlot(page: PageId)

  /** The visible pages of `ids` the document actually holds, in order. */
  function PresentSlots(ids: seq<PageId>, present: set<PageId>): (r: seq<Slot>)
    ensures |r| <= |ids|
    ensures forall k :: 0 <= k < |r| ==> r[k].PageSlot? && r[k].page in ids && r[k].page in present
    ensures forall p :: p in ids && p in present ==> PageSlot(p) in r
    decreases |ids|
  {
    if |ids| == 0 then []
    else if ids[0] in present then [PageSlot(ids[0])] + PresentSlots(ids[1..], present)
    else PresentSlots(ids[1..], present)
  }

  predicate Distinct(ids: seq<PageId>) {
    forall i, j :: 0 <= i < j < |ids| ==> ids[i] != ids[j]
  }

  lemma DistinctTail(ids: seq<PageId>)
    requires |ids| > 0 && Distinct(ids)
    ensures Distinct(ids[1..]) && ids[0] !in ids[1..]
  {
    var tail := ids[1..];
    forall i, j | 0 <= i < j < |tail| ensures tail[i] != tail[j] {
      assert tail[i] == ids[i + 1] && tail[j] == ids[j + 1];
    }
    forall j | 0 <= j < |tail| ensures tail[j] != ids[0] {
      assert tail[j] == ids[j + 1];
    }
  }

  /** `r` picks pages out of `ids` from left to right: the slots are pages
      of `ids`, in the order `ids` lists them. */
  predicate SlotsFollow(r: seq<Slot>, ids: seq<PageId>)
    decreases |ids|
  {
    |r| == 0 ||
    (|ids| > 0 &&
     ((r[0] == PageSlot(ids[0]) && SlotsFollow(r[1..], ids[1..])) || SlotsFollow(r, ids[1..])))
  }

  /** Slots that follow `ids` name pages of `ids`. */
  lemma {:induction false} FollowingSlotsAreInside(r: seq<Slot>, ids: seq<PageId>)
    requires SlotsFollow(r, ids)
    ensures forall k :: 0 <= k < |r| ==> r[k].PageSlot? && r[k].page in ids
    decreases |ids|
  {
    if |r| > 0 {
      if r[0] == PageSlot(ids[0]) && SlotsFollow(r[1..], ids[1..]) {
        FollowingSlotsAreInside(r[1..], ids[1..]);
        forall k | 0 <= k < |r| ensures r[k].PageSlot? && r[k].page in ids {
          if k > 0 { assert r[k] == r[1..][k - 1]; }
        }
      } else {
        FollowingSlotsAreInside(r, ids[1..]);
      }
    }
  }

  /** Slots that follow ids without repeats name no page twice. */
  lemma {:induction false} FollowingDistinctIsDistinct(r: seq<Slot>, ids: seq<PageId>)
    requires SlotsFollow(r, ids) && Distinct(ids)
    ensures forall k, m :: 0 <= k < m < |r| ==> r[k] != r[m]
    decreases |ids|
  {
    if |r| > 0 {
      DistinctTail(ids);
      if r[0] == PageSlot(ids[0]) && SlotsFollow(r[1..], ids[1..]) {
        FollowingDistinctIsDistinct(r[1..], ids[1..]);
        FollowingSlotsAreInside(r[1..], ids[1..]);
        forall k, m | 0 <= k < m < |r| ensures r[k] != r[m] {
          assert r[m] == r[1..][m - 1];
          if k > 0 { assert r[k] == r[1..][k - 1]; }
        }
      } else {
        FollowingDistinctIsDistinct(r, ids[1..]);
      }
    }
  }

  /** The slots keep the order of `ids`; when `ids` has no repeats, no page
      gets two slots. */
  lemma {:induction false} PresentSlotsKeepOrder(ids: seq<PageId>, present: set<PageId>)
    ensures SlotsFollow(PresentSlots(ids, present), ids)
    ensures Distinct(ids) ==>
      var r := PresentSlots(ids, present);
      forall k, m :: 0 <= k < m < |r| ==> r[k] != r[m]
    decreases |ids|
  {
    var r := PresentSlots(ids, present);
    if |ids| > 0 {
      PresentSlotsKeepOrder(ids[1..], present);
      if ids[0] in present {
        assert r[0] == PageSlot(ids[0]) && r[1..] == PresentSlots(ids[1..], present);
      }
    }
    if Distinct(ids) {
      FollowingDistinctIsDistinct(r, ids);
    }
  }

  function PlaceholderBefore(spread: Spread): seq<Slot> {
    if spread.left.None? && spread.right.Some? then [Placeholder] else []
  }

  function PlaceholderAfter(spread: Spread): seq<Slot> {
    if spread.left.Some? && spread.right.None? then [Placeholder] else []
  }

  /** `setupSpreadLayout`: the children appended to the spread container,
      given the set of page ids the document holds. */
  function SetupSpreadLayout(spread: Spread, present: set<PageId>): (r: seq<Slot>)
    ensures |r| <= 3
  {
    PlaceholderBefore(spread) + PresentSlots(VisiblePages(spread), present) + PlaceholderAfter(spread)
  }

  /** A lone right page gets a placeholder on its left. */
  lemma RightOnlyLayout(spread: Spread, present: set<PageId>)
    requires spread.left.None? && spread.right.Some? && spread.right.value in present
    ensures SetupSpreadLayout(spread, present) == [Placeholder, PageSlot(spread.right.value)]
  {
    assert VisiblePages(spread) == [spread.right.value];
  }

  /** A lone left page gets a placeholder on its right. */
  lemma LeftOnlyLayout(spread: Spread, present: set<PageId>)
    requires spread.left.Some? && spread.right.None? && spread.left.value in present
    ensures SetupSpreadLayout(spread, present) == [PageSlot(spread.left.value), Placeholder]
  {
    assert VisiblePages(spread) == [spread.left.value];
  }

  /** A full spread shows its two pages, left then right, and no
      placeholder. */
  lemma FullSpreadLayout(spread: Spread, present: set<PageId>)
    requires spread.left.Some? && spread.right.Some?
    requires spread.left.value in present && spread.right.value in present
    ensures SetupSpreadLayout(spread, present) == [PageSlot(spread.left.value), PageSlot(spread.right.value)]
  {
    assert VisiblePages(spread) == [spread.left.value, spread.right.value];
  }

  function PlaceholderCount(slots: seq<Slot>): nat
    decreases |slots|
  {
    if |slots| == 0 then 0
    else (if slots[0].Placeholder? then 1 else 0) + PlaceholderCount(slots[1..])
  }

  lemma {:induction false} PlaceholderCountAppend(a: seq<Slot>, b: seq<Slot>)
    ensures PlaceholderCount(a + b) == PlaceholderCount(a) + PlaceholderCount(b)
    decreases |a|
  {
    if |a| == 0 {
      assert a + b == b;
    } else {
      assert (a + b)[1..] == a[1..] + b;
      PlaceholderCountAppend(a[1..], b);
    }
  }

  lemma {:induction false} PresentSlotsHaveNoPlaceholder(ids: seq<PageId>, present: set<PageId>)
    ensures PlaceholderCount(PresentSlots(ids, present)) == 0
    decreases |ids|
  {
    if |ids| > 0 {
      PresentSlotsHaveNoPlaceholder(ids[1..], present);
      if ids[0] in present {
        assert ([PageSlot(ids[0])] + PresentSlots(ids[1..], present))[1..] == PresentSlots(ids[1..], present);
      }
    }
  }

  /** Missing pages are skipped without a trace: the placeholders depend on
      the spread alone (one for a one-page spread, none otherwise), and the
      pages shown are exactly the visible pages the document holds. */
  lemma MissingPagesSkipped(spread: Spread, present: set<PageId>)
    ensures var r := SetupSpreadLayout(spread, present);
      PlaceholderCount(r) == (if spread.left.Some? == spread.right.Some? then 0 else 1) &&
      (forall p :: PageSlot(p) in r <==> p in VisiblePages(spread) && p in present)
  {
    var r := SetupSpreadLayout(spread, present);
    var mid := PresentSlots(VisiblePages(spread), present);
    PlaceholderCountAppend(PlaceholderBefore(spread), mid);
    PlaceholderCountAppend(PlaceholderBefore(spread) + mid, PlaceholderAfter(spread));
    PresentSlotsHaveNoPlaceholder(VisiblePages(spread), present);
    forall p
      ensures PageSlot(p) in r <==> p in VisiblePages(spread) && p in present
    {
      if PageSlot(p) in r {
        var k :| 0 <= k < |r| && r[k] == PageSlot(p);
        var b := |PlaceholderBefore(spread)|;
        assert b <= k < b + |mid|;
        assert mid[k - b] == PageSlot(p);
      }
    }
  }

  /** Every spread of the table, with all its pages present, fills exactly
      two page-sized slots. */
  lemma TableSpreadsFillTwoSlots(i: int)
    requires 0 <= i < |Spreads|
    ensures |SetupSpreadLayout(Spreads[i], set p: PageId | p in PageIds)| == 2
  {
    var all := set p: PageId | p in PageIds;
    PageIdsListEachPageOnce();
    SpreadTableShape();
    var s := Spreads[i];
    if i == 0 {
      RightOnlyLayout(s, all);
    } else if i == 4 {
      LeftOnlyLayout(s, all);
    } else {
      FullSpreadLayout(s, all);
    }
  }

  function Min(a: real, b: real): real {
    if a <= b then a else b
  }

  /** `scaleSpreadToFit`: None when the container has no size (the
      transform is then left as it was); otherwise the larger of the two
      axis ratios that still fits both, inside a 40px margin. */
  function ScaleSpreadToFit(clientWidth: real, clientHeight: real, bottomPadding: real,
                            width: real, height: real): (r: Option<real>)
    ensures r.None? <==> width == 0.0 || height == 0.0
    ensures r.Some? && width > 0.0 && height > 0.0 ==>
      r.value * width <= clientWidth - 40.0 &&
      r.value * height <= clientHeight - bottomPadding - 40.0 &&
      (r.value * width == clientWidth - 40.0 || r.value * height == clientHeight - bottomPadding - 40.0)
  {
    if width == 0.0 || height == 0.0 then None
    else
      var vw := clientWidth;
      var vh := clientHeight - bottomPadding;
      Some(Min((vw - 40.0) / width, (vh - 40.0) / height))
  }

  lemma CancelPositive(a: real, b: real, w: real)
    requires w > 0.0 && a * w <= b * w
    ensures a <= b
  {
    assert (b - a) * w >= 0.0;
  }

  /** The scale is the largest uniform factor that fits: every factor that
      fits both axes is at most it. */
  lemma ScaleIsLargestFit(clientWidth: real, clientHeight: real, bottomPadding: real,
                          width: real, height: real, s: real)
    requires width > 0.0 && height > 0.0
    requires s * width <= clientWidth - 40.0 && s * height <= clientHeight - bottomPadding - 40.0
    ensures s <= ScaleSpreadToFit(clientWidth, clientHeight, bottomPadding, width, height).value
  {
    var sx := (clientWidth - 40.0) / width;
    var sy := (clientHeight - bottomPadding - 40.0) / height;
    assert sx * width == clientWidth - 40.0;
    assert sy * height == clientHeight - bottomPadding - 40.0;
    CancelPositive(s, sx, width);
    CancelPositive(s, sy, height);
  }
}

=== FILE: spread_navigation.dfy ===
/** The host's navigation state: the current spread index, the fullscreen
    flag, the spread indicator and its buttons (resources/spread-navigation.js). */
module SpreadNavigation {
  import opened Wrappers
  import opened Constants

  /** What the host's spread indicator shows: the label and whether each
      button is disabled. */
  datatype Indicator = Indicator(labelText: string, prevDisabled: bool, nextDisabled: bool)

  /** The navigation state. `toggleTitle` is the title of the fullscreen
      button inside the preview surface (None when the surface has no such
      button); `refreshes` counts calls of the preview-refresh callback. */
  datatype Nav = Nav(
    current: int,
    fullscreen: bool,
    indicator: Indicator,
    toggleTitle: Option<string>,
    refreshes: nat)

  predicate InRange(i: int) {
    0 <= i < |Spreads|
  }

  /** The indicator for spread `i`. */
  function IndicatorFor(i: int): (r: Indicator)
    requires InRange(i)
    ensures r.labelText == Spreads[i].labelText
    ensures r.prevDisabled <==> i == 0
    ensures r.nextDisabled <==> i == |Spreads| - 1
  {
    Indicator(Spreads[i].labelText, i == 0, i == |Spreads| - 1)
  }

  /** The indicator agrees with the index. */
  predicate Consistent(n: Nav) {
    InRange(n.current) && n.indicator == IndicatorFor(n.current)
  }

  /** The state when the module is loaded and `initializeSpreadNav` has run. */
  function InitialNav(): (r: Nav)
    ensures Consistent(r) && r.current == 0 && !r.fullscreen
  {
    Nav(0, false, IndicatorFor(0), None, 0)
  }

  /** `setCurrentSpread`: stores the index without any check. */
  function SetCurrentSpread(n: Nav, index: int): (r: Nav)
    ensures r.current == index
    ensures r.(current := n.current) == n
  {
    n.(current := index)
  }

  /** `updateSpreadIndicator`: reading `SPREADS[current].label` throws when
      the index is outside the table, which is None here. */
  function UpdateSpreadIndicator(n: Nav): (r: Option<Nav>)
    ensures r.Some? <==> InRange(n.current)
    ensures r.Some? ==> Consistent(r.value) && r.value.(indicator := n.indicator) == n
  {
    if InRange(n.current) then Some(n.(indicator := IndicatorFor(n.current))) else None
  }

  /** `navigateSpread(delta, callback)`: commits `current + delta` when it is
      a spread index, refreshing the indicator and calling the preview
      callback once; any other delta changes nothing. */
  function NavigateSpread(n: Nav, delta: int): (r: Nav)
    ensures InRange(n.current + delta) ==>
      r.current == n.current + delta && Consistent(r) &&
      r.refreshes == n.refreshes + 1 &&
      r.fullscreen == n.fullscreen && r.toggleTitle == n.toggleTitle
    ensures !InRange(n.current + delta) ==> r == n
  {
    var target := n.current + delta;
    if InRange(target) then
      n.(current := target, indicator := IndicatorFor(target), refreshes := n.refreshes + 1)
    else
      n
  }

  /** Title of the fullscreen button for a fullscreen flag. */
  function ToggleTitle(fullscreen: bool): string {
    if fullscreen then "Exit fullscreen" else "Toggle fullscreen"
  }

  /** `toggleFullscreen`: flips the flag and, when the surface has the
      button, retitles it for the new state. */
  function ToggleFullscreen(n: Nav): (r: Nav)
    ensures r.fullscreen == !n.fullscreen
    ensures r.toggleTitle.Some? == n.toggleTitle.Some?
    ensures r.toggleTitle.Some? ==> (r.toggleTitle.value == "Exit fullscreen" <==> r.fullscreen)
    ensures r.(fullscreen := n.fullscreen, toggleTitle := n.toggleTitle) == n
  {
    var on := !n.fullscreen;
    n.(fullscreen := on, toggleTitle := if n.toggleTitle.Some? then Some(ToggleTitle(on)) else None)
  }

  /** Toggling twice restores the flag and leaves a present button titled
      for the restored state. */
  lemma ToggleFullscreenTwice(n: Nav)
    ensures ToggleFullscreen(ToggleFullscreen(n)).fullscreen == n.fullscreen
    ensures n.toggleTitle == Some(ToggleTitle(n.fullscreen)) ==>
      ToggleFullscreen(ToggleFullscreen(n)) == n
  {
  }

  /** Applies `navigateSpread` for each delta in turn. */
  function NavigateAll(n: Nav, deltas: seq<int>): Nav
    decreases |deltas|
  {
    if |deltas| == 0 then n else NavigateAll(NavigateSpread(n, deltas[0]), deltas[1..])
  }

  /** The number of deltas in a run that `navigateSpread` commits. */
  function Committed(n: Nav, deltas: seq<int>): nat
    decreases |deltas|
  {
    if |deltas| == 0 then 0
    else
      (if InRange(n.current + deltas[0]) then 1 else 0) +
      Committed(NavigateSpread(n, deltas[0]), deltas[1..])
  }

  /** Starting from a spread index, every run of navigation requests stays
      on a spread index with a matching indicator, and the preview callback
      runs exactly once per committed request. */
  lemma {:induction false} NavigationStaysInRange(n: Nav, deltas: seq<int>)
    requires Consistent(n)
    ensures Consistent(NavigateAll(n, deltas))
    ensures NavigateAll(n, deltas).refreshes == n.refreshes + Committed(n, deltas)
    decreases |deltas|
  {
    if |deltas| > 0 {
      NavigationStaysInRange(NavigateSpread(n, deltas[0]), deltas[1..]);
    }
  }

  /** From any state, the delta `i - current` lands on any spread index `i`. */
  lemma NavigateReachesEverySpread(n: Nav, i: int)
    requires InRange(i)
    ensures NavigateSpread(n, i - n.current).current == i
  {
  }

  /** A committed move is undone by the opposite move. */
  lemma NavigateUndo(n: Nav, delta: int)
    requires InRange(n.current) && InRange(n.current + delta)
    ensures NavigateSpread(NavigateSpread(n, delta), -delta).current == n.current
  {
  }

  /** The buttons are disabled exactly when pressing them would be rejected:
      prev at the first spread, next at the last. */
  lemma DisabledButtonsMatchRejectedMoves(n: Nav)
    requires Consistent(n)
    ensures n.indicator.prevDisabled <==> NavigateSpread(n, -1) == n
    ensures n.indicator.nextDisabled <==> NavigateSpread(n, 1) == n
  {
    if !n.indicator.prevDisabled {
      assert NavigateSpread(n, -1).current != n.current;
    }
    if !n.indicator.nextDisabled {
      assert NavigateSpread(n, 1).current != n.current;
    }
  }

  /** Four forward moves from the front cover reach the back cover; a fifth
      is rejected. */
  lemma ForwardToBackCover()
    ensures NavigateAll(InitialNav(), [1, 1, 1, 1]).current == 4
    ensures NavigateAll(InitialNav(), [1, 1, 1, 1, 1]).current == 4
  {
    var n4 := NavigateAll(InitialNav(), [1, 1, 1, 1]);
    assert NavigateAll(InitialNav(), [1, 1, 1, 1, 1]) == NavigateAll(n4, [1]) by {
      NavigateAllAppend(InitialNav(), [1, 1, 1, 1], [1]);
      assert [1, 1, 1, 1] + [1] == [1, 1, 1, 1, 1];
    }
  }

  /** Navigating through `a` and then `b` is navigating through `a + b`. */
  lemma {:induction false} NavigateAllAppend(n: Nav, a: seq<int>, b: seq<int>)
    ensures NavigateAll(n, a + b) == NavigateAll(NavigateAll(n, a), b)
    decreases |a|
  {
    if |a| > 0 {
      assert (a + b)[0] == a[0] && (a + b)[1..] == a[1..] + b;
      NavigateAllAppend(NavigateSpread(n, a[0]), a[1..], b);
    } else {
      assert a + b == b;
    }
  }
}

=== FILE: storage.dfy ===
/** Persistence of the editor's content and settings in the browser's local
    storage (resources/storage.js). The store is a map from keys to strings
    plus a flag for a store whose every access throws (storage disabled,
    private browsing); every call swallows that failure. */
module Storage {
  import opened Strings
  import opened Boilerplate

  datatype Store = Store(items: map<string, string>, failing: bool)

  const StorageKey: string := "zine-editor-content"
  const LineNumbersKey: string := "zine-editor-line-numbers"
  const LineWrappingKey: string := "zine-editor-line-wrapping"

  /** `localStorage.setItem` inside a `try`: a failing store is left as it
      was. */
  function SetItem(st: Store, key: string, value: string): (r: Store)
    ensures r.failing == st.failing
    ensures !st.failing ==> key in r.items && r.items[key] == value
    ensures forall k :: k != key ==> (k in r.items <==> k in st.items)
    ensures forall k :: k != key && k in st.items ==> r.items[k] == st.items[k]
    ensures st.failing ==> r == st
  {
    if st.failing then st else st.(items := st.items[key := value])
  }

  /** `saveToStorage`: the work is kept under its own key, the settings
      beside it are untouched, and a failing store ignores the save. */
  function SaveToStorage(st: Store, content: string): (r: Store)
    ensures !st.failing ==> StorageKey in r.items && r.items[StorageKey] == content
    ensures forall k :: k != StorageKey ==> (k in r.items <==> k in st.items)
    ensures forall k :: k != StorageKey && k in st.items ==> r.items[k] == st.items[k]
    ensures st.failing ==> r == st
  {
    SetItem(st, StorageKey, content)
  }

  /** Of two saves in a row, the later one is what the store keeps. */
  lemma LaterSaveWins(st: Store, first: string, second: string)
    ensures SaveToStorage(SaveToStorage(st, first), second) == SaveToStorage(st, second)
  {
  }

  /** Saving the same work again changes nothing. */
  lemma SaveTwiceIsSaveOnce(st: Store, content: string)
    ensures SaveToStorage(SaveToStorage(st, content), content) == SaveToStorage(st, content)
  {
  }

  /** What `loadContent` resolves to. */
  datatype Loaded = Loaded(content: string, isBoilerplate: bool)

  /** The saved content, when the store can be read and it holds something
      other than whitespace. */
  predicate HasSavedContent(st: Store) {
    !st.failing && StorageKey in st.items && !IsBlank(st.items[StorageKey])
  }

  /** `loadContent`: the saved content when there is some worth keeping,
      otherwise the boilerplate; `isBoilerplate` says which text came back,
      by comparing it with the boilerplate. */
  function LoadContent(st: Store): (r: Loaded)
    ensures HasSavedContent(st) ==> r.content == st.items[StorageKey]
    ensures !HasSavedContent(st) ==> r.content == ZineBoilerplate
    ensures r.isBoilerplate <==> r.content == ZineBoilerplate
    ensures !IsBlank(r.content)
  {
    var content := if HasSavedContent(st) then st.items[StorageKey] else ZineBoilerplate;
    BoilerplateIsNotBlank();
    Loaded(content, content == ZineBoilerplate)
  }

  lemma BoilerplateIsNotBlank()
    ensures !IsBlank(ZineBoilerplate)
  {
    assert ZineBoilerplate[0] == '<';
  }

  /** Content saved to a working store is what the next load returns, unless
      it is only whitespace, in which case the boilerplate comes back. */
  lemma ContentRoundTrip(st: Store, content: string)
    requires !st.failing
    ensures !IsBlank(content) ==> LoadContent(SaveToStorage(st, content)).content == content
    ensures IsBlank(content) ==> LoadContent(SaveToStorage(st, content)).content == ZineBoilerplate
  {
  }

  /** A failing store always gives the boilerplate and saving to it changes
      nothing. */
  lemma FailingStoreGivesBoilerplate(st: Store, content: string)
    requires st.failing
    ensures LoadContent(st) == Loaded(ZineBoilerplate, true)
    ensures SaveToStorage(st, content) == st
  {
  }

  /** Saved text that happens to equal the boilerplate is reported as the
      boilerplate. */
  lemma SavedBoilerplateIsBoilerplate(st: Store)
    requires !st.failing
    ensures LoadContent(SaveToStorage(st, ZineBoilerplate)).isBoilerplate
  {
    BoilerplateIsNotBlank();
  }

  datatype EditorSettings = EditorSettings(showLineNumbers: bool, enableLineWrapping: bool)

  /** `loadEditorSettings`: line numbers only when stored as exactly `true`,
      wrapping unless stored as exactly `false`; a failing store gives the
      defaults, numbers off and wrapping on. */
  function LoadEditorSettings(st: Store): (r: EditorSettings)
    ensures st.failing ==> r == EditorSettings(false, true)
    ensures !st.failing ==>
      (r.showLineNumbers <==> LineNumbersKey in st.items && st.items[LineNumbersKey] == "true")
    ensures !st.failing ==>
      (!r.enableLineWrapping <==> LineWrappingKey in st.items && st.items[LineWrappingKey] == "false")
  {
    if st.failing then EditorSettings(false, true)
    else
      EditorSettings(
        LineNumbersKey in st.items && st.items[LineNumbersKey] == "true",
        !(LineWrappingKey in st.items && st.items[LineWrappingKey] == "false"))
  }

  /** A boolean's `toString`. */
  function BoolText(b: bool): (r: string)
    ensures r == "true" <==> b
    ensures r == "false" <==> !b
  {
    if b then "true" else "false"
  }

  /** `saveEditorSetting` with a boolean value: `value.toString()` under the
      setting's key, so the text is "true" exactly when the value is; no
      other key changes, and a failing store ignores the save. */
  function SaveEditorSetting(st: Store, key: string, value: bool): (r: Store)
    ensures !st.failing ==> key in r.items && (r.items[key] == "true" <==> value)
    ensures !st.failing ==> (r.items[key] == "false" <==> !value)
    ensures forall k :: k != key && k in st.items ==> k in r.items && r.items[k] == st.items[k]
    ensures st.failing ==> r == st
  {
    SetItem(st, key, BoolText(value))
  }

  /** A setting saved to a working store is what the next load reads back,
      and saving one setting leaves the other as it was. */
  lemma SettingsRoundTrip(st: Store, b: bool)
    requires !st.failing
    ensures LoadEditorSettings(SaveEditorSetting(st, LineNumbersKey, b)) ==
            LoadEditorSettings(st).(showLineNumbers := b)
    ensures LoadEditorSettings(SaveEditorSetting(st, LineWrappingKey, b)) ==
            LoadEditorSettings(st).(enableLineWrapping := b)
  {
  }

  /** Saving a setting never touches the saved content. */
  lemma SettingsLeaveContent(st: Store, key: string, b: bool)
    requires key == LineNumbersKey || key == LineWrappingKey
    ensures LoadContent(SaveEditorSetting(st, key, b)) == LoadContent(st)
  {
  }
}

=== FILE: strings.dfy ===
/** String helpers shared by the model: ASCII case folding (the folding that
    JavaScript's `/i` flag applies to the ASCII-only patterns used here),
    first-occurrence search, suffix tests, joining, and the whitespace class
    of JavaScript's `trim` and `\s`. */
module Strings {
  import opened Wrappers

  /** Lower-cases an ASCII capital letter and leaves every other character
      alone. For the patterns in this model (`<head`, `</head>`, `style`,
      `script`) this is exactly the `/i` comparison: no non-ASCII character
      folds onto an ASCII letter under JavaScript's non-Unicode `/i`. */
  function LowerChar(c: char): (r: char)
    ensures 'A' <= c <= 'Z' ==> 'a' <= r <= 'z'
    ensures !('A' <= c <= 'Z') ==> r == c
  {
    if 'A' <= c <= 'Z' then (c as int + 32) as char else c
  }

  function Lower(s: string): (r: string)
    ensures |r| == |s|
    ensures forall i :: 0 <= i < |s| ==> r[i] == LowerChar(s[i])
  {
    seq(|s|, i requires 0 <= i < |s| => LowerChar(s[i]))
  }

  /** `s` holds, from index `p`, a case-insensitive copy of the lower-case
      pattern `pat`. */
  predicate CiMatchAt(s: string, p: int, pat: string) {
    0 <= p && p + |pat| <= |s| && Lower(s[p..p + |pat|]) == pat
  }

  /** One character that differs from the pattern after folding rules a
      match out. */
  lemma CiMismatch(s: string, p: nat, pat: string, k: nat)
    requires k < |pat| && p + k < |s| && LowerChar(s[p + k]) != pat[k]
    ensures !CiMatchAt(s, p, pat)
  {
    if p + |pat| <= |s| {
      assert Lower(s[p..p + |pat|])[k] == LowerChar(s[p..p + |pat|][k]) == LowerChar(s[p + k]);
    }
  }

  predicate StartsWith(s: string, prefix: string) {
    |prefix| <= |s| && s[..|prefix|] == prefix
  }

  predicate EndsWith(s: string, suffix: string) {
    |suffix| <= |s| && s[|s| - |suffix|..] == suffix
  }

  /** `t` occurs in `s` starting at index `j`. */
  predicate OccursAt(s: string, t: string, j: int) {
    0 <= j && j + |t| <= |s| && s[j..j + |t|] == t
  }

  /** JavaScript's `indexOf` from position `i`: the first index at or after
      `i` where `t` occurs in `s`, or -1. */
  function IndexOfFrom(s: string, t: string, i: nat): (r: int)
    ensures r >= 0 ==>
      i <= r && OccursAt(s, t, r) && forall j :: i <= j < r ==> !OccursAt(s, t, j)
    ensures r < 0 ==> r == -1 && forall j :: i <= j ==> !OccursAt(s, t, j)
    decreases |s| - i
  {
    if i + |t| > |s| then -1
    else if s[i..i + |t|] == t then i
    else IndexOfFrom(s, t, i + 1)
  }

  function IndexOf(s: string, t: string): int {
    IndexOfFrom(s, t, 0)
  }

  /** An occurrence with no occurrence before it is what `indexOf` returns. */
  lemma IndexOfIsFirst(s: string, t: string, k: nat)
    requires OccursAt(s, t, k)
    requires forall j :: 0 <= j < k ==> !OccursAt(s, t, j)
    ensures IndexOf(s, t) == k
  {
  }

  /** The first index at or after `i` where `s` holds a case-insensitive
      copy of the lower-case pattern `pat`: the first match of `/pat/i`
      searched from `i`. */
  function CiFindFrom(s: string, pat: string, i: nat): (r: Option<nat>)
    ensures r.Some? ==> i <= r.value && CiMatchAt(s, r.value, pat)
    ensures r.Some? ==> forall j :: i <= j < r.value ==> !CiMatchAt(s, j, pat)
    ensures r.None? ==> forall j :: i <= j ==> !CiMatchAt(s, j, pat)
    decreases |s| - i
  {
    if i + |pat| > |s| then None
    else if CiMatchAt(s, i, pat) then Some(i)
    else CiFindFrom(s, pat, i + 1)
  }

  function CiFind(s: string, pat: string): Option<nat> {
    CiFindFrom(s, pat, 0)
  }

  /** A match with no match before it from `i` on is what `CiFindFrom`
      finds. */
  lemma {:induction false} CiFindFromIs(s: string, pat: string, i: nat, q: nat)
    requires i <= q && CiMatchAt(s, q, pat)
    requires forall j :: i <= j < q ==> !CiMatchAt(s, j, pat)
    ensures CiFindFrom(s, pat, i) == Some(q)
    decreases q - i
  {
    if i < q {
      CiFindFromIs(s, pat, i + 1, q);
    }
  }

  /** Two windows holding the same characters match a pattern alike. */
  lemma SameWindow(s1: string, j1: nat, s2: string, j2: nat, pat: string)
    requires j1 + |pat| <= |s1| && j2 + |pat| <= |s2|
    requires s1[j1..j1 + |pat|] == s2[j2..j2 + |pat|]
    ensures CiMatchAt(s1, j1, pat) <==> CiMatchAt(s2, j2, pat)
  {
  }

  /** An exact copy `t` of a case-insensitive match of `pat` is itself a
      match wherever it occurs. */
  lemma CopyOfCiMatch(s: string, pat: string, q: nat, t: string)
    requires CiMatchAt(s, q, pat) && t == s[q..q + |pat|]
    ensures forall j :: OccursAt(s, t, j) ==> CiMatchAt(s, j, pat)
  {
  }

  /** `indexOf` of the text of the first case-insensitive match finds that
      match: no exact copy of it starts earlier. */
  lemma IndexOfFirstCiMatch(s: string, pat: string)
    requires CiFind(s, pat).Some?
    ensures var q := CiFind(s, pat).value;
      q + |pat| <= |s| && IndexOf(s, s[q..q + |pat|]) == q
  {
    var q := CiFind(s, pat).value;
    var t := s[q..q + |pat|];
    CopyOfCiMatch(s, pat, q, t);
    IndexOfIsFirst(s, t, q);
  }

  /** `xs` joined with `sep`, as JavaScript's `Array.prototype.join`. */
  function Join(xs: seq<string>, sep: string): string
    decreases |xs|
  {
    if |xs| == 0 then ""
    else if |xs| == 1 then xs[0]
    else xs[0] + sep + Join(xs[1..], sep)
  }

  /** Joining one more item adds the separator and the item; joining a
      single item gives it back. */
  lemma {:induction false} JoinAppend(xs: seq<string>, x: string, sep: string)
    ensures |xs| == 0 ==> Join(xs + [x], sep) == x
    ensures |xs| > 0 ==> Join(xs + [x], sep) == Join(xs, sep) + sep + x
    decreases |xs|
  {
    if |xs| == 1 {
      assert (xs + [x])[1..] == [x];
    } else if |xs| > 1 {
      assert (xs + [x])[1..] == xs[1..] + [x];
      JoinAppend(xs[1..], x, sep);
    }
  }

  /** The decimal digit for `d`. */
  function DigitChar(d: nat): (c: char)
    requires d < 10
    ensures '0' <= c <= '9' && c as int - '0' as int == d
  {
    ('0' as int + d) as char
  }

  /** A natural number's decimal text, as JavaScript prints it: no sign and
      no leading zero. */
  function NatText(n: nat): (r: string)
    ensures |r| >= 1 && (|r| > 1 ==> r[0] != '0')
    ensures forall i :: 0 <= i < |r| ==> '0' <= r[i] <= '9'
    decreases n
  {
    if n < 10 then [DigitChar(n)] else NatText(n / 10) + [DigitChar(n % 10)]
  }

  /** The value of a run of decimal digits. */
  function DigitsValue(s: string): nat
    requires forall i :: 0 <= i < |s| ==> '0' <= s[i] <= '9'
    decreases |s|
  {
    if |s| == 0 then 0 else DigitsValue(s[..|s| - 1]) * 10 + (s[|s| - 1] as int - '0' as int)
  }

  /** Reading the decimal text back gives the number. */
  lemma {:induction false} NatTextRoundTrip(n: nat)
    ensures DigitsValue(NatText(n)) == n
    decreases n
  {
    if n >= 10 {
      var t := NatText(n / 10) + [DigitChar(n % 10)];
      assert t[..|t| - 1] == NatText(n / 10);
      NatTextRoundTrip(n / 10);
    }
  }

  /** The characters JavaScript's `trim` strips and its regular-expression
      `\s` matches: the WhiteSpace and LineTerminator productions of
      ECMAScript (TAB, VT, FF, SP, NBSP, ZWNBSP, the Zs category, LF, CR,
      LS, PS). */
  predicate IsJsWhitespace(c: char) {
    c == '\t' || c == '\n' || c == '\U{000B}' || c == '\U{000C}' || c == '\r' ||
    c == ' ' || c == '\U{00A0}' || c == '\U{1680}' ||
    ('\U{2000}' <= c <= '\U{200A}') ||
    c == '\U{2028}' || c == '\U{2029}' || c == '\U{202F}' || c == '\U{205F}' ||
    c == '\U{3000}' || c == '\U{FEFF}'
  }

  /** The number of whitespace characters `s` starts with. */
  function LeadingSpace(s: string): (n: nat)
    ensures n <= |s|
    ensures forall i :: 0 <= i < n ==> IsJsWhitespace(s[i])
    ensures n < |s| ==> !IsJsWhitespace(s[n])
    decreases |s|
  {
    if |s| == 0 || !IsJsWhitespace(s[0]) then 0 else 1 + LeadingSpace(s[1..])
  }

  /** The number of whitespace characters `s` ends with. */
  function TrailingSpace(s: string): (n: nat)
    ensures n <= |s|
    ensures forall i :: |s| - n <= i < |s| ==> IsJsWhitespace(s[i])
    ensures n < |s| ==> !IsJsWhitespace(s[|s| - n - 1])
    decreases |s|
  {
    if |s| == 0 || !IsJsWhitespace(s[|s| - 1]) then 0 else 1 + TrailingSpace(s[..|s| - 1])
  }

  /** JavaScript's `trim`: `s` without its leading and trailing whitespace.
      What is cut off is whitespace and what is kept neither starts nor ends
      with whitespace. */
  function Trim(s: string): (r: string)
    ensures r == "" <==> IsBlank(s)
    ensures r != "" ==> !IsJsWhitespace(r[0]) && !IsJsWhitespace(r[|r| - 1])
    ensures LeadingSpace(s) + |r| <= |s| && s[LeadingSpace(s)..LeadingSpace(s) + |r|] == r
    ensures forall i :: 0 <= i < LeadingSpace(s) || LeadingSpace(s) + |r| <= i < |s| ==> IsJsWhitespace(s[i])
  {
    var a := LeadingSpace(s);
    var r := s[a..][..|s[a..]| - TrailingSpace(s[a..])];
    TrimFacts(s, a, s[a..], r);
    r
  }

  lemma TrimFacts(s: string, a: nat, t: string, r: string)
    requires a == LeadingSpace(s) && t == s[a..] && r == t[..|t| - TrailingSpace(t)]
    ensures r == "" <==> IsBlank(s)
    ensures r != "" ==> !IsJsWhitespace(r[0]) && !IsJsWhitespace(r[|r| - 1])
    ensures a + |r| <= |s| && s[a..a + |r|] == r
    ensures forall i :: 0 <= i < a || a + |r| <= i < |s| ==> IsJsWhitespace(s[i])
  {
    TrimOuterSpace(s, a, t, r);
    if r != "" {
      assert r[0] == t[0] == s[a];
      assert r[|r| - 1] == t[|t| - TrailingSpace(t) - 1];
    }
  }

  /** What `Trim` cuts off is whitespace, and what it keeps is a slice of
      the input. */
  lemma TrimOuterSpace(s: string, a: nat, t: string, r: string)
    requires a == LeadingSpace(s) && t == s[a..] && r == t[..|t| - TrailingSpace(t)]
    ensures a + |r| <= |s| && s[a..a + |r|] == r
    ensures forall i :: 0 <= i < a || a + |r| <= i < |s| ==> IsJsWhitespace(s[i])
  {
    assert s[a..a + |r|] == s[a..][..|r|];
    forall i | 0 <= i < a || a + |r| <= i < |s|
      ensures IsJsWhitespace(s[i])
    {
      if a + |r| <= i {
        TrailingCutIsSpace(s, a, t, i);
      }
    }
  }

  lemma TrailingCutIsSpace(s: string, a: nat, t: string, i: nat)
    requires a <= |s| && t == s[a..] && a + |t| - TrailingSpace(t) <= i < |s|
    ensures IsJsWhitespace(s[i])
  {
    var k := i - a;
    assert |t| - TrailingSpace(t) <= k < |t| && IsJsWhitespace(t[k]);
    assert t[k] == s[i];
  }

  /** `s.trim()` is empty. */
  predicate IsBlank(s: string) {
    forall i :: 0 <= i < |s| ==> IsJsWhitespace(s[i])
  }

  // ---------------------------------------------------------------------
  // Line breaks

  /** A character that ends a line in the editor's text model. */
  predicate IsLineBreak(c: char) {
    c == '\r' || c == '\n'
  }

  /** The editor's text model stores a document as lines: any text it is
      given is cut at `\r\n`, `\r` and `\n`, and its text is the lines
      joined with `\n`. Only a `\r` changes; the result never holds one. */
  function NormalizeLineBreaks(s: string): (r: string)
    ensures '\r' !in r
    ensures r == s <==> '\r' !in s
    ensures |r| <= |s|
    ensures |r| == 0 <==> |s| == 0
    decreases |s|
  {
    if |s| == 0 then ""
    else if s[0] == '\r' then "\n" + NormalizeLineBreaks(if 1 < |s| && s[1] == '\n' then s[2..] else s[1..])
    else [s[0]] + NormalizeLineBreaks(s[1..])
  }

  /** The lines of `s`, cut at `\r\n`, `\r` and `\n` as the regular
      expression `/\r\n?|\n/` cuts them. */
  function SplitLines(s: string): (r: seq<string>)
    ensures |r| >= 1
    ensures forall i, j :: 0 <= i < |r| && 0 <= j < |r[i]| ==> !IsLineBreak(r[i][j])
    decreases |s|
  {
    if |s| == 0 then [""]
    else if s[0] == '\n' then [""] + SplitLines(s[1..])
    else if s[0] == '\r' then [""] + SplitLines(if 1 < |s| && s[1] == '\n' then s[2..] else s[1..])
    else
      var t := SplitLines(s[1..]);
      [[s[0]] + t[0]] + t[1..]
  }

  /** Normalising line breaks is cutting the text into lines and joining
      them again with `\n`. */
  lemma {:induction false} LinesJoinedIsNormalized(s: string)
    ensures Join(SplitLines(s), "\n") == NormalizeLineBreaks(s)
    decreases |s|
  {
    if |s| > 0 {
      var rest := if s[0] == '\r' && 1 < |s| && s[1] == '\n' then s[2..] else s[1..];
      LinesJoinedIsNormalized(rest);
      if IsLineBreak(s[0]) {
        BreakStep(s, rest);
        JoinAfterEmptyFirst(SplitLines(rest), "\n");
      } else {
        OrdinaryStep(s);
        JoinExtendFirst(s[0], SplitLines(rest), "\n");
      }
    }
  }

  /** A text that starts with a line break: an empty first line, and a
      `\n` in front of the rest. */
  lemma BreakStep(s: string, rest: string)
    requires |s| > 0 && IsLineBreak(s[0])
    requires rest == if s[0] == '\r' && 1 < |s| && s[1] == '\n' then s[2..] else s[1..]
    ensures SplitLines(s) == [""] + SplitLines(rest)
    ensures NormalizeLineBreaks(s) == "\n" + NormalizeLineBreaks(rest)
  {
  }

  /** A text that starts with any other character: it extends the first
      line and stays in front of the rest. */
  lemma OrdinaryStep(s: string)
    requires |s| > 0 && !IsLineBreak(s[0])
    ensures var t := SplitLines(s[1..]); SplitLines(s) == [[s[0]] + t[0]] + t[1..]
    ensures NormalizeLineBreaks(s) == [s[0]] + NormalizeLineBreaks(s[1..])
  {
  }

  /** An empty first item leaves only the separator in front. */
  lemma JoinAfterEmptyFirst(t: seq<string>, sep: string)
    requires |t| >= 1
    ensures Join([""] + t, sep) == sep + Join(t, sep)
  {
    assert ([""] + t)[1..] == t;
  }

  /** Putting a character in front of the first item puts it in front of
      the joined text. */
  lemma JoinExtendFirst(c: char, t: seq<string>, sep: string)
    requires |t| >= 1
    ensures Join([[c] + t[0]] + t[1..], sep) == [c] + Join(t, sep)
  {
    var u := [[c] + t[0]] + t[1..];
    if |t| > 1 {
      assert u[1..] == t[1..];
    }
  }
}

=== FILE: viewer_generator.dfy ===
/** The stand-alone viewer that "save with viewer" embeds in the exported
    file (the script inside resources/viewer-generator.js). Its document is
    modelled by the page elements it holds and where each one sits (a child
    of the body or of the spread container), each page's inline `display`,
    the container's children in order, whether the container and nav bar
    are attached, the current spread and the nav bar's label and buttons.
    Authored content outside the pages is never touched by the script and is
    not modelled. */
module ViewerGenerator {
  import opened Wrappers
  import opened Constants
  import SpreadNavigation
  import SpreadLayout

  type Slot = SpreadLayout.Slot

  /** Where a page element sits in the document. */
  datatype Place = InBody | InContainer

  /** A page's inline `display`: `none`, `block`, or reset to `''`. */
  datatype Display = DisplayNone | DisplayBlock | DisplayUnset

  datatype Viewer = Viewer(
    pages: map<PageId, Place>,
    display: map<PageId, Display>,
    container: seq<Slot>,
    attached: bool,
    currentSpread: int,
    indicator: SpreadNavigation.Indicator)

  /** The nav bar as created, before the first `showSpread` fills it. */
  const BlankIndicator := SpreadNavigation.Indicator("", false, false)

  /** The `PAGE_IDS` loop: every held page gets display `d` and is appended
      to the body. Taking a page out of the container is not tracked in
      `container`, because both callers clear or remove the container
      straight afterwards. */
  function ReturnPages(v: Viewer, d: Display): (r: Viewer)
    ensures r.pages.Keys == v.pages.Keys
    ensures forall p :: p in r.pages ==> r.pages[p] == InBody
    ensures forall p :: p in v.pages ==> p in r.display && r.display[p] == d
    ensures forall p :: p !in v.pages ==> (p in r.display <==> p in v.display)
    ensures forall p :: p !in v.pages && p in v.display ==> r.display[p] == v.display[p]
    ensures r.container == v.container && r.attached == v.attached
    ensures r.currentSpread == v.currentSpread && r.indicator == v.indicator
  {
    v.(pages := map p | p in v.pages :: InBody,
       display := map p | p in v.display.Keys + v.pages.Keys ::
                    if p in v.pages then d else v.display[p])
  }

  /** The loop over the spread's visible pages `ids`: each held one is
      shown and appended to the container. The container holds none of them
      yet, so appending never moves one already there. */
  function ShowPages(v: Viewer, ids: seq<PageId>): (r: Viewer)
    requires forall a, b :: 0 <= a < b < |ids| ==> ids[a] != ids[b]
    requires forall j :: 0 <= j < |ids| ==> SpreadLayout.PageSlot(ids[j]) !in v.container
    ensures r.container == v.container + SpreadLayout.PresentSlots(ids, v.pages.Keys)
    ensures r.pages.Keys == v.pages.Keys
    ensures forall p :: p in v.pages ==> r.pages[p] == (if p in ids then InContainer else v.pages[p])
    ensures forall p :: p in v.pages && p in ids ==> p in r.display && r.display[p] == DisplayBlock
    ensures forall p :: !(p in v.pages && p in ids) ==> (p in r.display <==> p in v.display)
    ensures forall p :: !(p in v.pages && p in ids) && p in v.display ==> r.display[p] == v.display[p]
    ensures r.attached == v.attached && r.currentSpread == v.currentSpread && r.indicator == v.indicator
    decreases |ids|
  {
    if |ids| == 0 then
      assert v.container + SpreadLayout.PresentSlots(ids, v.pages.Keys) == v.container;
      v
    else
      var p := ids[0];
      var v' := if p in v.pages then
          v.(pages := v.pages[p := InContainer], display := v.display[p := DisplayBlock],
             container := v.container + [SpreadLayout.PageSlot(p)])
        else v;
      assert v'.pages.Keys == v.pages.Keys;
      assert forall j :: 0 <= j < |ids[1..]| ==> ids[1..][j] == ids[j + 1];
      var r := ShowPages(v', ids[1..]);
      var rest := SpreadLayout.PresentSlots(ids[1..], v.pages.Keys);
      assert forall q :: q in ids <==> q == p || q in ids[1..];
      if p in v.pages then
        assert SpreadLayout.PresentSlots(ids, v.pages.Keys) == [SpreadLayout.PageSlot(p)] + rest;
        assert r.container == (v.container + [SpreadLayout.PageSlot(p)]) + rest;
        AppendAssoc(v.container, [SpreadLayout.PageSlot(p)], rest);
        r
      else
        assert SpreadLayout.PresentSlots(ids, v.pages.Keys) == rest;
        assert r.container == v.container + rest;
        r
  }

  lemma AppendAssoc<T>(a: seq<T>, b: seq<T>, c: seq<T>)
    ensures (a + b) + c == a + (b + c)
  {
  }

  lemma VisiblePagesDistinct(index: int)
    requires 0 <= index < |Spreads|
    ensures var visible := VisiblePages(Spreads[index]);
      forall a, b :: 0 <= a < b < |visible| ==> visible[a] != visible[b]
  {
    SidesPartitionPages();
  }

  /** Where `showSpread` leaves the held pages: the spread's visible ones in
      the container, all others in the body. */
  function Placement(held: set<PageId>, spread: Spread): map<PageId, Place> {
    map p | p in held :: if p in VisiblePages(spread) then InContainer else InBody
  }

  /** `showSpread(index)`: every page goes back to the body hidden, the
      container is emptied, then filled as the shared layout would fill it;
      finally the label and buttons are set. Callers pass 0, the current
      spread, or a navigation target already checked, so the index is in
      range. */
  function ShowSpread(v: Viewer, index: int): (r: Viewer)
    requires 0 <= index < |Spreads|
    ensures r.container == SpreadLayout.SetupSpreadLayout(Spreads[index], v.pages.Keys)
    ensures r.pages.Keys == v.pages.Keys
    ensures r.pages == Placement(v.pages.Keys, Spreads[index])
    ensures forall p :: p in v.pages ==>
      p in r.display && (r.display[p] == DisplayBlock <==> p in VisiblePages(Spreads[index])) &&
      (r.display[p] == DisplayNone <==> p !in VisiblePages(Spreads[index]))
    ensures forall p :: p !in v.pages ==> (p in r.display <==> p in v.display)
    ensures forall p :: p !in v.pages && p in v.display ==> r.display[p] == v.display[p]
    ensures r.indicator == SpreadNavigation.IndicatorFor(index)
    ensures r.attached == v.attached && r.currentSpread == v.currentSpread
  {
    var spread := Spreads[index];
    var visible := VisiblePages(spread);
    var cleared := ReturnPages(v, DisplayNone).(container := SpreadLayout.PlaceholderBefore(spread));
    VisiblePagesDistinct(index);
    var shown := ShowPages(cleared, visible);
    MapsAgree(shown.pages, Placement(v.pages.Keys, spread));
    shown.(container := shown.container + SpreadLayout.PlaceholderAfter(spread),
           indicator := SpreadNavigation.IndicatorFor(index))
  }

  /** The viewer's `navigate`: commit and show the new spread when it is in
      range, otherwise nothing. */
  function ViewerNavigate(v: Viewer, delta: int): (r: Viewer)
    ensures 0 <= v.currentSpread + delta < |Spreads| ==>
      r.currentSpread == v.currentSpread + delta &&
      r.container == SpreadLayout.SetupSpreadLayout(Spreads[r.currentSpread], v.pages.Keys) &&
      r.indicator == SpreadNavigation.IndicatorFor(r.currentSpread)
    ensures !(0 <= v.currentSpread + delta < |Spreads|) ==> r == v
  {
    var newIndex := v.currentSpread + delta;
    if 0 <= newIndex < |Spreads| then ShowSpread(v.(currentSpread := newIndex), newIndex)
    else v
  }

  /** The exported viewer and the editor move through the spreads alike:
      from the same index, the same delta lands on the same spread and
      shows the same label and button states. */
  lemma ViewerMatchesEditorNavigation(v: Viewer, n: SpreadNavigation.Nav, delta: int)
    requires SpreadNavigation.Consistent(n) && v.currentSpread == n.current
    ensures var r := ViewerNavigate(v, delta);
      var m := SpreadNavigation.NavigateSpread(n, delta);
      r.currentSpread == m.current &&
      (SpreadNavigation.InRange(n.current + delta) ==> r.indicator == m.indicator)
  {
    var m := SpreadNavigation.NavigateSpread(n, delta);
    if SpreadNavigation.InRange(n.current + delta) {
      assert m.current == n.current + delta;
    } else {
      assert m == n;
    }
  }

  /** The viewer's key handler. */
  datatype KeyAction = NavigateBy(delta: int) | PrintPage | ResaveFile | NoAction

  function ViewerKey(key: string, mod: bool): (r: KeyAction)
    ensures r.NavigateBy? <==> key == "ArrowLeft" || key == "ArrowRight"
    ensures r.NavigateBy? ==> (r.delta == -1 <==> key == "ArrowLeft") && (r.delta == 1 <==> key == "ArrowRight")
    ensures r == PrintPage <==> mod && key == "p"
    ensures r == ResaveFile <==> mod && (key == "s" || key == "e")
  {
    if key == "ArrowLeft" then NavigateBy(-1)
    else if key == "ArrowRight" then NavigateBy(1)
    else if mod && key == "p" then PrintPage
    else if mod && (key == "s" || key == "e") then ResaveFile
    else NoAction
  }

  /** `DOMContentLoaded`: attach a fresh container and nav bar and show the
      front cover. The document holds the page elements in `held`, all
      children of the body. */
  function LoadViewer(held: set<PageId>, display: map<PageId, Display>): (r: Viewer)
    ensures r.currentSpread == 0 && r.attached && r.pages.Keys == held
    ensures r.container == SpreadLayout.SetupSpreadLayout(Spreads[0], held)
    ensures r.indicator == SpreadNavigation.IndicatorFor(0)
  {
    ShowSpread(Viewer(map p | p in held :: InBody, display, [], true, 0, BlankIndicator), 0)
  }

  /** A viewer opened on a document holding every page shows the front cover
      on the right with the placeholder on its left, and the previous
      button disabled. */
  lemma LoadShowsFrontCover(display: map<PageId, Display>)
    ensures var v := LoadViewer((set p | p in PageIds), display);
      v.container == [SpreadLayout.Placeholder, SpreadLayout.PageSlot(FrontCover)] &&
      v.indicator.prevDisabled && !v.indicator.nextDisabled
  {
    SpreadLayout.RightOnlyLayout(Spreads[0], (set p | p in PageIds));
  }

  /** The viewer's `scaleToFit`: nothing without a container or when it has
      no size; otherwise the fit inside the viewport less the nav bar. */
  function ViewerScaleToFit(hasContainer: bool, clientWidth: real, clientHeight: real,
                            width: real, height: real): (r: Option<real>)
    ensures r.Some? <==> hasContainer && width != 0.0 && height != 0.0
    ensures r.Some? ==>
      var fitX := (clientWidth - 40.0) / width;
      var fitY := (clientHeight - NavHeight as real - 40.0) / height;
      r.value <= fitX && r.value <= fitY && (r.value == fitX || r.value == fitY)
  {
    if !hasContainer then None
    else
      var vw := clientWidth;
      var vh := clientHeight - NavHeight as real;
      if width == 0.0 || height == 0.0 then None
      else
        var scaleX := (vw - 40.0) / width;
        var scaleY := (vh - 40.0) / height;
        Some(if scaleX <= scaleY then scaleX else scaleY)
  }

  /** The viewer scales exactly like the editor preview with a bottom padding
      of the nav bar's height. */
  lemma ViewerScaleIsSharedScale(clientWidth: real, clientHeight: real, width: real, height: real)
    ensures ViewerScaleToFit(true, clientWidth, clientHeight, width, height) ==
            SpreadLayout.ScaleSpreadToFit(clientWidth, clientHeight, NavHeight as real, width, height)
  {
  }

  /** The document as a re-save serialises it: which page elements are
      children of the body, their inline display, and whether the container
      or nav bar is still attached. */
  datatype Snapshot = Snapshot(bodyPages: set<PageId>, display: map<PageId, Display>, hasChrome: bool)

  /** The re-save sequence: pages back to the body with their display reset,
      container and nav bar removed, the document serialised, then a new
      container and nav bar attached and the current spread shown again. */
  function Resave(v: Viewer): (r: (Snapshot, Viewer))
    requires 0 <= v.currentSpread < |Spreads|
    ensures !r.0.hasChrome && r.0.bodyPages == v.pages.Keys
    ensures forall p :: p in v.pages ==> p in r.0.display && r.0.display[p] == DisplayUnset
    ensures r.1.currentSpread == v.currentSpread && r.1.attached && r.1.pages.Keys == v.pages.Keys
    ensures r.1.container == SpreadLayout.SetupSpreadLayout(Spreads[v.currentSpread], v.pages.Keys)
    ensures r.1.indicator == SpreadNavigation.IndicatorFor(v.currentSpread)
    ensures r.1.pages == Placement(v.pages.Keys, Spreads[v.currentSpread])
    ensures forall p :: p in v.pages ==>
      p in r.1.display && (r.1.display[p] == DisplayBlock <==> p in VisiblePages(Spreads[v.currentSpread])) &&
      (r.1.display[p] == DisplayNone <==> p !in VisiblePages(Spreads[v.currentSpread]))
    ensures forall p :: p !in v.pages ==> (p in r.1.display <==> p in v.display)
    ensures forall p :: p !in v.pages && p in v.display ==> r.1.display[p] == v.display[p]
  {
    var returned := ReturnPages(v, DisplayUnset);
    var snap := Snapshot(returned.pages.Keys, returned.display, false);
    var rebuilt := returned.(container := [], attached := true, indicator := BlankIndicator);
    (snap, ShowSpread(rebuilt, v.currentSpread))
  }

  /** Re-saving is invisible to the open viewer: once a spread is on show,
      the viewer after a re-save is exactly the viewer before it. */
  lemma ResaveRestoresView(u: Viewer, i: int)
    requires 0 <= i < |Spreads| && u.attached
    ensures var v := ShowSpread(u.(currentSpread := i), i);
      Resave(v).1 == v
  {
    var v := ShowSpread(u.(currentSpread := i), i);
    ResaveKeepsDisplay(v, u.pages.Keys, i);
  }

  /** After a re-save every page shows or hides as it did before, and every
      other display entry is untouched. */
  lemma ResaveKeepsDisplay(v: Viewer, held: set<PageId>, i: int)
    requires 0 <= i < |Spreads| && v.currentSpread == i && v.pages.Keys == held
    requires forall p :: p in held ==>
      p in v.display &&
      (v.display[p] == DisplayBlock <==> p in VisiblePages(Spreads[i])) &&
      (v.display[p] == DisplayNone <==> p !in VisiblePages(Spreads[i]))
    ensures Resave(v).1.display == v.display
  {
    var after := Resave(v).1;
    assert forall p :: p in after.display <==> p in v.display by {
    }
    assert forall p :: p in after.display ==> after.display[p] == v.display[p] by {
    }
    MapsAgree(after.display, v.display);
  }

  /** Two maps with the same keys and the same value at every key are equal. */
  lemma MapsAgree<K, V>(a: map<K, V>, b: map<K, V>)
    requires forall k :: k in a <==> k in b
    requires forall k :: k in a ==> a[k] == b[k]
    ensures a == b
  {
  }

  /** The re-saved file opens as the original export opened: the same pages
      on the front cover, whatever spread was on show when it was saved. */
  lemma ResavedFileReopens(v: Viewer, display: map<PageId, Display>)
    requires 0 <= v.currentSpread < |Spreads|
    ensures var snap := Resave(v).0;
      var reopened := LoadViewer(snap.bodyPages, snap.display);
      reopened.container == LoadViewer(v.pages.Keys, display).container &&
      reopened.currentSpread == 0
  {
  }
}

=== FILE: wrappers.dfy ===
/** The optional value used wherever the source has `null`, `undefined` or an
    element lookup that can come back empty. */
module Wrappers {

  datatype Option<+T> = None | Some(value: T) {

    /** Returns the value held in Some, or the given default for None. */
    function GetOr(default: T): T {
      match this
      case Some(v) => v
      case None => default
    }
  }
}

=== FILE: zine_styles.dfy ===
/** The decisions inside the style sheets of resources/zine-styles.js: which
    pages a spread's screen CSS shows, where each page is printed on the
    folded sheet, which side each base page is anchored to, and which
    elements take a cell of the printed grid. The rest of the CSS text is
    presentation and is not modelled. */
module ZineStyles {
  import opened Wrappers
  import opened Constants

  /** The selector `generateSpreadCSS` makes visible; None for an index
      outside the table, where the source throws. */
  function VisibleSelector(spreadIndex: int): (r: Option<string>)
    ensures r.Some? <==> 0 <= spreadIndex < |Spreads|
  {
    match SpreadAt(spreadIndex)
    case None => None
    case Some(spread) => Some(Selector(VisiblePages(spread)))
  }

  lemma SelectorOfOne(a: PageId)
    ensures Selector([a]) == "#" + a.Name()
  {
  }

  lemma SelectorOfTwo(a: PageId, b: PageId)
    ensures Selector([a, b]) == "#" + a.Name() + ", " + "#" + b.Name()
  {
    assert SelectorFrom([a, b], 1) == "#" + b.Name();
  }

  /** Spread by spread, the screen CSS shows exactly the spread's pages,
      left then right. */
  lemma VisibleSelectorTable()
    ensures VisibleSelector(0) == Some("#front-cover")
    ensures VisibleSelector(1) == Some("#page1, #page2")
    ensures VisibleSelector(2) == Some("#page3, #page4")
    ensures VisibleSelector(3) == Some("#page5, #page6")
    ensures VisibleSelector(4) == Some("#back-cover")
  {
    VisiblePagesTable();
    SelectorLiterals();
    OneSelector(0, FrontCover);
    TwoSelector(1, Page1, Page2);
    TwoSelector(2, Page3, Page4);
    TwoSelector(3, Page5, Page6);
    OneSelector(4, BackCover);
  }

  lemma SelectorLiterals()
    ensures "#" + FrontCover.Name() == "#front-cover"
    ensures "#" + Page1.Name() + ", " + "#" + Page2.Name() == "#page1, #page2"
    ensures "#" + Page3.Name() + ", " + "#" + Page4.Name() == "#page3, #page4"
    ensures "#" + Page5.Name() + ", " + "#" + Page6.Name() == "#page5, #page6"
    ensures "#" + BackCover.Name() == "#back-cover"
  {
  }

  lemma OneSelector(i: int, a: PageId)
    requires 0 <= i < |Spreads| && VisiblePages(Spreads[i]) == [a]
    ensures VisibleSelector(i) == Some("#" + a.Name())
  {
    SelectorOfOne(a);
  }

  lemma TwoSelector(i: int, a: PageId, b: PageId)
    requires 0 <= i < |Spreads| && VisiblePages(Spreads[i]) == [a, b]
    ensures VisibleSelector(i) == Some("#" + a.Name() + ", " + "#" + b.Name())
  {
    SelectorOfTwo(a, b);
  }

  /** A cell of the printed sheet's grid (rows 1..2, columns 1..4), and
      whether the page is printed upside down. */
  datatype Cell = Cell(row: int, column: int, rotated: bool)

  /** The print imposition of `ZINE_PRINT_CSS`. */
  function PrintCell(p: PageId): (r: Cell)
    ensures 1 <= r.row <= 2 && 1 <= r.column <= 4
  {
    match p
    case FrontCover => Cell(2, 2, false)
    case Page1 => Cell(2, 3, false)
    case Page2 => Cell(2, 4, false)
    case Page3 => Cell(1, 4, true)
    case Page4 => Cell(1, 3, true)
    case Page5 => Cell(1, 2, true)
    case Page6 => Cell(1, 1, true)
    case BackCover => Cell(2, 1, false)
  }

  /** The page printed in a cell of the grid. */
  function PageAtCell(row: int, column: int): PageId
    requires 1 <= row <= 2 && 1 <= column <= 4
  {
    if row == 1 then [Page6, Page5, Page4, Page3][column - 1]
    else [BackCover, FrontCover, Page1, Page2][column - 1]
  }

  /** The eight pages fill the eight cells of the 2 by 4 grid, one each:
      the imposition and the cell lookup are inverse. */
  lemma PrintCellsAreABijection()
    ensures forall p: PageId :: PageAtCell(PrintCell(p).row, PrintCell(p).column) == p
    ensures forall row, column :: 1 <= row <= 2 && 1 <= column <= 4 ==>
      PrintCell(PageAtCell(row, column)).row == row && PrintCell(PageAtCell(row, column)).column == column
  {
  }

  /** Exactly the top row is printed upside down, and it holds pages 3 to 6. */
  lemma TopRowIsRotated()
    ensures forall p: PageId :: PrintCell(p).rotated <==> PrintCell(p).row == 1
    ensures forall p: PageId :: PrintCell(p).rotated <==> p in [Page3, Page4, Page5, Page6]
  {
  }

  predicate Adjacent(a: Cell, b: Cell) {
    (a.row == b.row && (a.column - b.column == 1 || b.column - a.column == 1)) ||
    (a.column == b.column && (a.row - b.row == 1 || b.row - a.row == 1))
  }

  /** Reading order walks the sheet cell by cell: each page is printed next
      to the one before it, and the back cover next to the front cover, so
      one cut and the folds of a mini-zine bring the pages into order. */
  lemma ReadingOrderIsAWalkOnTheSheet()
    ensures forall i :: 0 <= i < |PageIds| - 1 ==> Adjacent(PrintCell(PageIds[i]), PrintCell(PageIds[i + 1]))
    ensures Adjacent(PrintCell(PageIds[|PageIds| - 1]), PrintCell(PageIds[0]))
  {
  }

  /** The sheet the print rules lay the grid out on before the quarter
      turn: a letter page on its side, 11 by 8.5 inches. */
  const SheetWidthIn: real := 11.0
  const SheetHeightIn: real := 8.5

  /** Where a cell lies on that sheet, in inches from its top left corner:
      each column is one page wide and each row one page tall. */
  datatype Rect = Rect(left: real, top: real, right: real, bottom: real)

  function CellRect(c: Cell): Rect {
    Rect((c.column - 1) as real * PageWidthIn, (c.row - 1) as real * PageHeightIn,
         c.column as real * PageWidthIn, c.row as real * PageHeightIn)
  }

  predicate Disjoint(a: Rect, b: Rect) {
    a.right <= b.left || b.right <= a.left || a.bottom <= b.top || b.bottom <= a.top
  }

  /** The printed pages tile the sheet: each lies on it, no two overlap,
      and together they have the sheet's area, so there is no margin left
      over. */
  lemma PrintedPagesTileTheSheet()
    ensures forall p: PageId :: var r := CellRect(PrintCell(p));
      0.0 <= r.left < r.right <= SheetWidthIn && 0.0 <= r.top < r.bottom <= SheetHeightIn
    ensures forall p: PageId, q: PageId :: p != q ==> Disjoint(CellRect(PrintCell(p)), CellRect(PrintCell(q)))
    ensures |PageIds| as real * PageWidthIn * PageHeightIn == SheetWidthIn * SheetHeightIn
  {
  }

  datatype Anchor = AnchorLeft | AnchorRight

  /** The base-page anchoring of `ZINE_FLIP_CSS`: the pages the right-pages
      selector names are anchored right, all others left. */
  function BaseAnchor(p: PageId): (r: Anchor)
    ensures r == AnchorRight <==> p in RightPages
    ensures r == AnchorLeft <==> p in LeftPages
  {
    match p
    case FrontCover => AnchorRight
    case Page2 => AnchorRight
    case Page4 => AnchorRight
    case Page6 => AnchorRight
    case _ => AnchorLeft
  }

  /** Base pages are anchored by the side of the spread they belong to: the
      right-anchored ones are the right-page group, and every spread's right
      page is anchored right and its left page left. */
  lemma AnchorsFollowSpreadSides()
    ensures forall p: PageId :: BaseAnchor(p) == AnchorRight <==> p in RightPages
    ensures forall i :: 0 <= i < |Spreads| && Spreads[i].right.Some? ==> BaseAnchor(Spreads[i].right.value) == AnchorRight
    ensures forall i :: 0 <= i < |Spreads| && Spreads[i].left.Some? ==> BaseAnchor(Spreads[i].left.value) == AnchorLeft
  {
    SidesPartitionPages();
  }

  /** The kinds of element the print rules mention, and `OtherEl` for one
      they do not (the viewer's buttons and indicator, the fullscreen
      button's icon), which keeps a box of its own. */
  datatype ElementKind =
    | PageEl(id: PageId) | Book | SpreadContainer | ViewerNav | EmptyPlaceholder | PreviewNav
    | FullscreenToggle | OtherEl

  datatype PrintDisplay = NotPrinted | Box | Contents

  /** `display` under `@media print`: the flip book (and so every clone of a
      page inside it) is hidden, pages are blocks, the wrappers are
      `display: contents`, and anything else keeps its box. */
  function PrintDisplayOf(k: ElementKind): (r: PrintDisplay)
    ensures r == Box <==> k.PageEl? || k == OtherEl
    ensures r == NotPrinted <==> k == Book
  {
    match k
    case PageEl(_) => Box
    case Book => NotPrinted
    case OtherEl => Box
    case _ => Contents
  }

  /** An element and its children. */
  datatype Node = Node(kind: ElementKind, children: seq<Node>)

  /** The elements that become items of the body's print grid, in document
      order: a box is one item; a `display: contents` element is replaced by
      its children's items; a hidden element and everything inside it give
      none. */
  function GridItems(n: Node): (r: seq<ElementKind>)
    ensures forall k :: 0 <= k < |r| ==> PrintDisplayOf(r[k]) == Box
    ensures n.kind == Book ==> r == []
    decreases n, 1
  {
    match PrintDisplayOf(n.kind)
    case Box => [n.kind]
    case NotPrinted => []
    case Contents => GridItemsOf(n.children)
  }

  function GridItemsOf(ns: seq<Node>): (r: seq<ElementKind>)
    ensures forall k :: 0 <= k < |r| ==> PrintDisplayOf(r[k]) == Box
    decreases ns, 0
  {
    if |ns| == 0 then [] else GridItems(ns[0]) + GridItemsOf(ns[1..])
  }

  lemma {:induction false} GridItemsOfAppend(a: seq<Node>, b: seq<Node>)
    ensures GridItemsOf(a + b) == GridItemsOf(a) + GridItemsOf(b)
    decreases |a|
  {
    if |a| == 0 {
      assert a + b == b;
    } else {
      assert (a + b)[1..] == a[1..] + b;
      GridItemsOfAppend(a[1..], b);
    }
  }

  /** Page elements for some ids; what is inside a page does not matter to
      the grid, since the page is one item. */
  function PageNodes(ids: seq<PageId>): (r: seq<Node>)
    ensures |r| == |ids| && forall i :: 0 <= i < |ids| ==> r[i] == Node(PageEl(ids[i]), [])
  {
    seq(|ids|, i requires 0 <= i < |ids| => Node(PageEl(ids[i]), []))
  }

  function PageItems(ids: seq<PageId>): (r: seq<ElementKind>)
    ensures |r| == |ids| && forall i :: 0 <= i < |ids| ==> r[i] == PageEl(ids[i])
  {
    seq(|ids|, i requires 0 <= i < |ids| => PageEl(ids[i]))
  }

  /** Bare page elements are grid items, one each, in order. */
  lemma {:induction false} PagesAreGridItems(ids: seq<PageId>)
    ensures GridItemsOf(PageNodes(ids)) == PageItems(ids)
    decreases |ids|
  {
    if |ids| > 0 {
      assert PageNodes(ids)[1..] == PageNodes(ids[1..]);
      PagesAreGridItems(ids[1..]);
      assert PageItems(ids) == [PageEl(ids[0])] + PageItems(ids[1..]);
    }
  }

  /** The navigation bar the viewer appends to its body: two buttons around
      the spread indicator. */
  const ViewerNavNode: Node := Node(ViewerNav, [Node(OtherEl, []), Node(OtherEl, []), Node(OtherEl, [])])

  /** An empty placeholder, or none. */
  function Placeholders(present: bool): seq<Node> {
    if present then [Node(EmptyPlaceholder, [])] else []
  }

  lemma GridItemsOfOne(n: Node)
    ensures GridItemsOf([n]) == GridItems(n)
  {
    assert [n][1..] == [];
  }

  /** The spread container on paper: it and its placeholders dissolve, and
      only its pages remain, in order. */
  lemma ContainerSheet(before: bool, shown: seq<PageId>, after: bool)
    ensures GridItems(Node(SpreadContainer, Placeholders(before) + PageNodes(shown) + Placeholders(after))) ==
            PageItems(shown)
  {
    var ph := Node(EmptyPlaceholder, []);
    assert GridItems(ph) == [];
    GridItemsOfOne(ph);
    assert GridItemsOf(Placeholders(before)) == [];
    assert GridItemsOf(Placeholders(after)) == [];
    GridItemsOfAppend(Placeholders(before) + PageNodes(shown), Placeholders(after));
    GridItemsOfAppend(Placeholders(before), PageNodes(shown));
    PagesAreGridItems(shown);
  }

  /** The viewer's body on paper: the pages left loose in the body and the
      ones inside the spread container all print (whatever inline `display`
      the viewer gave them, since the print rule is `!important`), the
      placeholders take no cell, and so does neither wrapper; but the
      navigation bar's two buttons and its indicator each take a grid cell
      of their own. */
  lemma ViewerSheet(loose: seq<PageId>, before: bool, shown: seq<PageId>, after: bool)
    ensures GridItemsOf(PageNodes(loose) +
                        [Node(SpreadContainer, Placeholders(before) + PageNodes(shown) + Placeholders(after))] +
                        [ViewerNavNode]) ==
            PageItems(loose) + PageItems(shown) + [OtherEl, OtherEl, OtherEl]
  {
    var c := Node(SpreadContainer, Placeholders(before) + PageNodes(shown) + Placeholders(after));
    ContainerSheet(before, shown, after);
    GridItemsOfOne(c);
    GridItemsOfOne(ViewerNavNode);
    assert GridItems(ViewerNavNode) == [OtherEl, OtherEl, OtherEl] by {
      var kids := ViewerNavNode.children;
      assert kids[1..][1..] == [Node(OtherEl, [])];
      GridItemsOfOne(Node(OtherEl, []));
    }
    PagesAreGridItems(loose);
    GridItemsOfAppend(PageNodes(loose) + [c], [ViewerNavNode]);
    GridItemsOfAppend(PageNodes(loose), [c]);
  }

  /** The preview frame's body on paper: a flip book, holding clones of the
      pages with the same ids, prints none of them; the pages themselves
      print; the fullscreen button dissolves, but the icon inside it takes a
      cell. */
  lemma PreviewSheet(loose: seq<PageId>, clones: seq<PageId>, before: bool, shown: seq<PageId>, after: bool)
    ensures GridItemsOf(PageNodes(loose) + [Node(Book, PageNodes(clones))] +
                        [Node(FullscreenToggle, [Node(OtherEl, [])])] +
                        [Node(SpreadContainer, Placeholders(before) + PageNodes(shown) + Placeholders(after))]) ==
            PageItems(loose) + [OtherEl] + PageItems(shown)
  {
    var book := Node(Book, PageNodes(clones));
    var toggle := Node(FullscreenToggle, [Node(OtherEl, [])]);
    var c := Node(SpreadContainer, Placeholders(before) + PageNodes(shown) + Placeholders(after));
    ContainerSheet(before, shown, after);
    GridItemsOfOne(c);
    GridItemsOfOne(book);
    GridItemsOfOne(toggle);
    GridItemsOfOne(Node(OtherEl, []));
    PagesAreGridItems(loose);
    var a := PageNodes(loose) + [book];
    GridItemsOfAppend(a + [toggle], [c]);
    GridItemsOfAppend(a, [toggle]);
    GridItemsOfAppend(PageNodes(loose), [book]);
  }
}
